=== FILE: README.md ===
# Fantasy football squad selection, modelled in Dafny

This project models the core of a fantasy-football toolkit:

- the `Position` enumeration and the `Player` record, read from rows of the player table;
- the `Squad` aggregate, whose setters enforce the game's rules:
  - fifteen players, split 2/5/5/3 over keeper, defence, midfield and attack;
  - a total cost of at most 1000;
  - at most three players per club;
  - an eleven-player team drawn from the squad, with one keeper, at least three defenders and at least one forward;
  - a captain and a vice-captain in the team;
- the heuristic squad optimisers:
  - `Efficient`: greedy, best value first, per position;
  - `Efficientv2`: a forward pass with per-position sub-budgets that are redistributed, then a backward pass of replacements;
  - `Average`: players nearest the mean cost first;
- the integer-programming optimisers `MIPSquad` and `MIPTeam`;
- the two table queries of the analysis module;
- the `Season` enumeration and its display string.

Tables are sequences of `Row` values.

- A `sort_values` is an input sequence plus a predicate saying it is a permutation ordered by the sort key.
- `head(n)` follows pandas for negative `n` as well.
- The MIP solver is an exhaustive search over all selections. It is proved to return an optimal feasible selection exactly when one exists.
- Python's dynamic typing at the setters is a small value universe, `Dyn`. That way the "must be a list of players" errors can be reached.

Modules, one per file: `Wrappers`, `Seqs` (filter, sort, head, reverse, order lemmas), `Core`, `Players`, `Squads`, `Analysis`, `BaseOptimiser`, `EfficientOptimiser`, `Efficientv2Optimiser`, `AverageOptimiser`, `Optimisers`.

The code's behaviour is modelled where it differs from what its documentation suggests:

- the captain may also be the vice-captain;
- the `squad` setter of a built object does not recheck the team;
- `Efficient` compares nothing with a cost and checks the club rule only against players of earlier positions;
- `_get_cheap_players` returns an empty list, so `Efficientv2.optimise` starts its forward pass from an empty squad;
- `redistribute_budget` can lose budget;
- `MIPSquad` constrains only clubs 1 to 20;
- both MIP optimisers keep appending to the list they hold across calls.

## Model

| member | source | states |
|---|---|---|
| Core.ValueRoundTrip | src/core.py:12-22 | `Season(v)` accepts exactly the values 1 to 8 and inverts each member's value |
| Core.ValueIsChronological | src/core.py:12-22 | a member's value is its starting year less 2015, and its name's second year is the next year modulo 100 |
| Core.NameShape | src/core.py:12-22 | every member name is `S`, four digits, `_`, two digits |
| Core.Repr | src/core.py:24-26 | the display string is the name without its first character, with each `_` shown as `/`, and contains no `_` |
| Core.ReprIs | src/core.py:24-26 | any seven-character string matching the shifted, slash-substituted name is the display string |
| Core.ReprExample | src/core.py:24-26 | the first season displays as `2016/17` and the last as `2023/24` |
| Core.ReprRoundTrip | src/core.py:24-26 | the display string can be read back to its season, so distinct seasons display differently |
| Core.ParseReprOfRepr | src/core.py:24-26 | reading a season's display string back yields that season |
| Players.PositionFromValue | src/player.py:16-22 | `Position(code)` succeeds exactly for codes 1 to 4, returns the member with that value, and otherwise raises with the code |
| Players.PositionValueRoundTrip | src/player.py:16-22 | positions and the values 1 to 4 are in one-to-one correspondence |
| Players.FromPandasRow | src/player.py:46-52 | a row decodes exactly when its `element_type` is 1 to 4; the player's position has that value, its cost is `now_cost`, its club is `team`, and its name and repr are first name, space, second name |
| Players.FromPandasRows | src/squad.py:117 | decoding every row succeeds exactly when every row has a valid position, and then gives one player per row, in table order |
| Players.CountsOfConcat | src/squad.py:96-112 | position counts, club counts and total cost of a concatenation are the sums over the parts |
| Players.PositionCountsSum | src/squad.py:96-99 | the four position counts of a list add up to its length |
| Players.CountClubOfMember | src/squad.py:109-112 | every member's club has at least one player in the list |
| Players.CountsOfPermutation | src/squad.py:96-112 | the rule counts depend only on which players occur how often, not on their order |
| Players.CountClubHasMember | src/squad.py:109-112 | a club with a positive count has a player in the list |
| Players.ClubsAtMostAnyClub | src/squad.py:109-112 | under the club cap of every member's club, every club whatsoever is within the cap |
| Squads.Wrap | src/squad.py:30 | a sequence of players wrapped as a Python list passes the type test and reads back unchanged |
| Squads.CheckSquad | src/squad.py:27-46 | the squad setter accepts exactly a list of players that is a valid squad; each error is raised exactly when all earlier checks pass and its own fails, in the order type, size, positions, cost, club cap |
| Squads.CheckTeam | src/squad.py:52-68 | the team setter accepts exactly a list of squad members that is a valid team; the errors for type, subset, size and positions are raised in that order, each exactly when its own check is the first to fail |
| Squads.CheckCaptain | src/squad.py:74-81 | the captain setter accepts exactly a player that is in the team; a non-player raises the type error, and a player outside the team raises the membership error |
| Squads.CheckViceCaptain | src/squad.py:87-94 | the vice-captain setter accepts exactly a player in the team, with the same two errors |
| Squads.NewSquad | src/squad.py:17-21 | the constructor succeeds exactly when the four setters' checks pass in order, and stores the four values; a rejected squad reports the squad setter's error before the other arguments are looked at |
| Squads.SetSquad | src/squad.py:27-46 | assigning a squad replaces only the squad, and succeeds exactly when the squad checks pass |
| Squads.SetTeam | src/squad.py:52-68 | assigning a team replaces only the team, and succeeds exactly when the team checks pass against the current squad |
| Squads.SetCaptain | src/squad.py:74-81 | assigning a captain replaces only the captain, and succeeds exactly when the value is a team player |
| Squads.SetViceCaptain | src/squad.py:87-94 | assigning a vice-captain replaces only the vice-captain, and succeeds exactly when the value is a team player |
| Squads.SettersKeepInvariant | src/squad.py:52-94 | on a valid object, a successful team assignment that keeps the captain and vice-captain in the new team keeps every rule of the object, and so does every successful captain or vice-captain assignment |
| Squads.SetSquadDoesNotRecheckTeam | src/squad.py:27-46 | a new valid squad is accepted even when the stored team then holds a non-member, so the object's rules can be broken |
| Squads.CaptainMayBeViceCaptain | src/squad.py:74-94 | one team player can be both captain and vice-captain |
| Squads.CostBoundary | src/squad.py:106-107 | the cost cap is inclusive: a squad of exactly 1000 is accepted and one of 1001 is rejected with the cost error |
| Squads.OfPosition | src/squad.py:120-123 | the players of one position in squad order: the result has as many players as the list holds of that position, and its `i`-th player is the list's `i`-th player of that position (counting repeats), so order and multiplicity are kept |
| Squads.NthOfPositionIsUnique | src/squad.py:120-123 | the `i`-th player of a position sits at one index of the list, so the comprehension's `i`-th element is determined |
| Squads.FromPandasDf | src/squad.py:114-128 | a squad built from a table satisfies every rule of a constructed object |
| Squads.FromPandasDfDefaults | src/squad.py:114-128 | the built squad holds the table's players in order; the team is the first keeper, four defenders, four midfielders and two forwards; the captain is the squad's first keeper and the vice-captain its first defender, in squad order |
| Squads.FromPandasDfBuilds | src/squad.py:114-128 | a successful build decodes every row, finds a keeper, and stores the players, the default team, and its first two members as captain and vice-captain |
| Squads.DefaultTeamHeads | src/squad.py:119-125 | with a keeper and a defender, the default team starts with the squad's first keeper and then its first defender, in squad order |
| Squads.DefaultTeamPieces | src/squad.py:119-125 | with a keeper, the default team is one keeper, then up to four defenders, four midfielders and two forwards (fewer when the squad has fewer), each block being the squad's first players of that position in squad order |
| Squads.CountOfUniform | src/squad.py:120-123 | a list of one position counts all its players for that position and none for the others |
| Squads.UniformPiece | src/squad.py:120-123 | a prefix of the players of one position consists of squad members of that position only |
| Squads.DefaultTeamIsValid | src/squad.py:119-125 | on a valid squad, the 4-4-2 default team is a valid team |
| Squads.FromPandasDfAcceptsValidSquads | src/squad.py:114-128 | whenever the table's players form a valid squad, building from the table succeeds |
| Analysis.WithCode | src/analysis.py:19 | the filter keeps every row with the code, each exactly as often as the table holds it, and no other row |
| Analysis.WithCodeKeepsDescending | src/analysis.py:19 | filtering preserves a descending order |
| Analysis.FirstByKey | src/analysis.py:18-22 | the result holds rows of the position only, in key order, with `head`'s length for positive and negative `n`; every omitted row of the position ranks no better than every kept row |
| Analysis.HeadSplit | src/analysis.py:21 | a prefix of a sorted list is sorted and ranks no worse than the rest |
| Analysis.PointsOrder | src/analysis.py:20 | sorting by the negated points is sorting by points, highest first |
| Analysis.CostOrder | src/analysis.py:40 | sorting by the cost key is sorting by `now_cost`, cheapest first |
| Analysis.TopPlayersByPosition | src/analysis.py:5-22 | the top rows are the position's rows, highest `total_points` first, as many as `head(n)` gives; none left out scores more than one kept |
| Analysis.CheapestPlayersByPosition | src/analysis.py:25-42 | the cheapest rows are the position's rows, lowest `now_cost` first, as many as `head(n)` gives; none left out costs less than one kept |
| Analysis.AskingForEverythingKeepsEverything | src/analysis.py:5-42 | asking for at least as many rows as the position has returns every row of the position, with multiplicity |
| Seqs.FilterMultiplicity | src/analysis.py:19 | a filter keeps each kept value exactly as often as the list holds it, and drops every other value |
| BaseOptimiser.RulesKeepLimits | src/squad_optimisers.py:52-67 | a candidate passing the position rule and the club rule keeps every quota and the club cap when appended |
| BaseOptimiser.PositionRule | src/squad_optimisers.py:63-67 | a candidate passes exactly when appending it keeps its position within the quota |
| BaseOptimiser.ClubRule | src/squad_optimisers.py:52-61 | a candidate passes exactly when appending it keeps its club within three players |
| BaseOptimiser.FullSquadFillsQuotas | src/squad_optimisers.py:63-67 | within the quotas a squad has at most fifteen players, and at fifteen every quota is met, so the position rule refuses every candidate |
| BaseOptimiser.BuiltSquadIsValid | src/squad_optimisers.py:52-67 | fifteen players within the quotas, the club cap and the cost cap pass the squad setter |
| BaseOptimiser.SetShiftsSum | src/squad_optimisers.py:273 | changing one sub-budget by `d` changes the breakdown's total by `d` |
| BaseOptimiser.RowsOf | src/squad_optimisers.py:168-170 | the rows selected by a position's value all decode to that position |
| BaseOptimiser.PositionValueDecodes | src/squad_optimisers.py:168-170 | every row whose `element_type` is a position's value decodes to that position |
| BaseOptimiser.CheapRowsOf | src/squad_optimisers.py:72-77 | one position's cheap picks are its rows, cheapest cost column first, quota minus formation of them (or all there are), with no cheaper row of the position left out |
| BaseOptimiser.CheapRowsFacts | src/squad_optimisers.py:72-77 | the ranking by the cost column gives the cost facts of the cheap picks |
| BaseOptimiser.CostColOrder | src/squad_optimisers.py:75 | sorting by the cost key is sorting by the cost column |
| BaseOptimiser.CheapPlayersOf | src/squad_optimisers.py:78-80 | one player per cheap pick, each of the position and decoded from its pick |
| BaseOptimiser.GetCheapPlayers | src/squad_optimisers.py:69-85 | the squad is extended by the cheap picks of keeper, defence, midfield and attack in that order, so each position gains exactly its picks; the returned list is empty |
| EfficientOptimiser.GreedyLoop | src/squad_optimisers.py:168-180 | the loop adds players exactly when the first `n` rows exist and each passes the club rule; it runs out of rows exactly when there are fewer than `n` and all of those pass; the players added are the first `n` rows in order, and the budget is reduced by their cost |
| EfficientOptimiser.ClubRuleUpToTail | src/squad_optimisers.py:174-179 | the club rule holds for the first `k` rows exactly when it holds for the first row and for the next `k - 1` |
| EfficientOptimiser.GreedyStep | src/squad_optimisers.py:174-179 | taking the first row and then the loop's result on the rest gives the loop's outcome |
| EfficientOptimiser.GreedyAdd | src/squad_optimisers.py:150-180 | `greedy_add` adds players exactly when the position has `n` rows and each passes the club rule, runs out of rows exactly when it has fewer and all pass; the players added are the position's first `n` rows in value order, and the leftover is the budget less their cost |
| EfficientOptimiser.PrependPlayers | src/squad_optimisers.py:177 | the first row's player followed by the picks from the rest are the picks from the first `n` rows |
| EfficientOptimiser.GreedyAddTakesBestOfPosition | src/squad_optimisers.py:150-180 | a successful `greedy_add` takes exactly the `n` best-value players of the position, whatever the budget |
| EfficientOptimiser.GreedyLoopIgnoresOwnPicks | src/squad_optimisers.py:52-61 | `n` rows of a club absent from the squad are all taken, so one position can bring more than three players of a club |
| EfficientOptimiser.CountOfOneClub | src/squad_optimisers.py:61 | a list of one club's players counts all of them for that club |
| EfficientOptimiser.FillPositions | src/squad_optimisers.py:137-148 | filling the positions in turn appends, position by position, exactly the first `Quota` rows of each position in value order; every listed position had that many rows; each position's count grows by its quota, and the final leftover is the starting allowance plus the breakdown less the cost of the players added; it returns exactly when each listed position in turn fills (it has its quota of rows and each of them passes the club rule against the players of the earlier positions), whatever the budgets |
| EfficientOptimiser.GreedyAddFills | src/squad_optimisers.py:150-180 | `greedy_add` returns for a position's quota exactly when the position has that many rows and each of them passes the club rule against the squad so far; the budget plays no part |
| EfficientOptimiser.FillsAllStep | src/squad_optimisers.py:139-146 | one round of the loop returns and the rounds after it return exactly when every listed position fills in turn |
| EfficientOptimiser.FillStep | src/squad_optimisers.py:139-146 | the facts for one position and for the positions after it give the facts for all of them |
| EfficientOptimiser.AllPositionsTotals | src/squad_optimisers.py:139 | the four positions ask for every quota place and for the whole breakdown |
| EfficientOptimiser.Optimise | src/squad_optimisers.py:123-148 | a squad `Efficient` returns has fifteen players with the exact position quotas, and is the keepers', defenders', midfielders' and forwards' picks in that order, each the position's first `Quota` rows in value order |
| EfficientOptimiser.GreedyAddIsPicks | src/squad_optimisers.py:142-146 | a `greedy_add` that returns for a position's quota adds exactly that position's picks |
| EfficientOptimiser.PicksOfAll | src/squad_optimisers.py:137-139 | filling the four positions in declaration order yields the keepers', defenders', midfielders' and forwards' picks concatenated |
| EfficientOptimiser.OptimiseHasQuotaRows | src/squad_optimisers.py:137-148 | `Efficient` returns only when every position has at least its quota of rows |
| EfficientOptimiser.OptimiseTakesBestOfEachPosition | src/squad_optimisers.py:123-180 | when `Efficient` returns, each position's picks decode its first `Quota` rows, and no row of the position left out has a higher value than a row taken |
| EfficientOptimiser.OptimiseFillsQuotas | src/squad_optimisers.py:123-148 | when `Efficient` returns, it has fifteen players with the exact quotas, and the leftover is the breakdown total less the squad's cost |
| EfficientOptimiser.FilledSquadFacts | src/squad_optimisers.py:137-148 | a squad the loop builds from nothing over the four positions has fifteen players with the exact quotas and is the four positions' picks in declaration order |
| EfficientOptimiser.OptimiseReturnsWhenEveryPositionFills | src/squad_optimisers.py:137-180 | `Efficient` returns exactly when keepers, defenders, midfielders and forwards fill in that order, each with its quota of rows passing the club rule against the earlier positions' players; otherwise `greedy_add` raises or never ends |
| EfficientOptimiser.OptimiseReturnsWhateverTheBreakdown | src/squad_optimisers.py:139-180 | whether `Efficient` returns is the same for every budget breakdown |
| Efficientv2Optimiser.New | src/squad_optimisers.py:219-220 | the constructor succeeds exactly when the breakdown adds up to 1000, and otherwise raises the breakdown error |
| Efficientv2Optimiser.Divisor | src/squad_optimisers.py:371-385 | the divisor lies between the number of open positions and four |
| Efficientv2Optimiser.Share | src/squad_optimisers.py:387-393 | each open position's share is non-negative, and zero when nothing was given up |
| Efficientv2Optimiser.Redistribute | src/squad_optimisers.py:368-393 | filled positions with a positive budget drop to zero; filled positions never gain; open positions never lose and all gain the same amount; non-negative budgets stay non-negative; the total never grows |
| Efficientv2Optimiser.SpreadPerPosition | src/squad_optimisers.py:368-393 | the per-position effect of a redistribution: given-up positions at zero, open ones up by one share |
| Efficientv2Optimiser.RedistributedSum | src/squad_optimisers.py:368-393 | the given-up total is non-negative; when it is zero the breakdown is unchanged; otherwise the new total is the old one less what was given up plus one share per open position |
| Efficientv2Optimiser.RedistributionNeverAdds | src/squad_optimisers.py:368-393 | redistribution never increases the total, and keeps it exactly when nothing was given up or every position counted in the divisor is open |
| Efficientv2Optimiser.WiggleFacts | src/squad_optimisers.py:371-385 | the given-up total is non-negative, and a zero total leaves the breakdown unchanged |
| Efficientv2Optimiser.SumFormula | src/squad_optimisers.py:368-393 | the new total is the old one less what was given up plus one share per open position |
| Efficientv2Optimiser.SumChange | src/squad_optimisers.py:387-393 | handing out `k` of `num` shares never adds, and loses nothing exactly when nothing was given up or `k == num > 0` |
| Efficientv2Optimiser.SharesAddUp | src/squad_optimisers.py:368-393 | the new total is the old one less what was given up plus what the open positions receive |
| Efficientv2Optimiser.HandedIsSharesTimesCount | src/squad_optimisers.py:387-393 | the open positions together receive one share each |
| Efficientv2Optimiser.SharesTimesCount | src/squad_optimisers.py:387-393 | four conditional shares add up to one share per condition that holds |
| Efficientv2Optimiser.ShareBound | src/squad_optimisers.py:393 | `k` shares of `w / num` are at most `w`, and equal to it exactly when `k == num` |
| Efficientv2Optimiser.RedistributeIdempotent | src/squad_optimisers.py:368-393 | redistributing twice against the same squad is redistributing once |
| Efficientv2Optimiser.RedistributeCanLoseBudget | src/squad_optimisers.py:368-393 | a concrete breakdown whose 60 left over is split by three between only two open positions, so the total drops |
| Efficientv2Optimiser.NewSatisfiesInv | src/squad_optimisers.py:190-220 | a fresh optimiser with a non-negative breakdown starts empty with budget 1000 and satisfies the pass invariant |
| Efficientv2Optimiser.Accept | src/squad_optimisers.py:263-273 | accepting a player appends it to squad and team and charges its price to the budget and to its own position only, so the budget left over the sub-budgets is unchanged; the position budget test passed exactly when the charged sub-budget is not negative |
| Efficientv2Optimiser.InvFullSquadIsValid | src/squad_optimisers.py:239-275 | under the pass invariant the budget is never negative, and a full squad is a valid squad |
| Efficientv2Optimiser.AcceptKeepsInv | src/squad_optimisers.py:265-273 | accepting an admissible, non-negatively priced player keeps the invariant and grows the squad by one |
| Efficientv2Optimiser.RedistributeKeepsInv | src/squad_optimisers.py:256-257 | redistribution keeps the pass invariant |
| Efficientv2Optimiser.ForwardStepKeepsInv | src/squad_optimisers.py:251-273 | one row of the forward pass keeps the invariant |
| Efficientv2Optimiser.ForwardStep | src/squad_optimisers.py:251-273 | the append-only, provenance and invariant facts of the pass after one row give those of the pass from that row |
| Efficientv2Optimiser.ForwardNextAppends | src/squad_optimisers.py:257-271 | one row of the forward pass appends its player or nothing |
| Efficientv2Optimiser.AppendedFromTable | src/squad_optimisers.py:251-271 | a row's own player, followed by players decoded from the later rows, are all decoded from the rows |
| Efficientv2Optimiser.ForwardPassStep | src/squad_optimisers.py:251-273 | a full squad ends the pass unchanged; a budget that is not positive raises the budget error; otherwise the pass continues from the redistributed state, with the row's player appended next exactly when it passes the position, position budget and club tests |
| Efficientv2Optimiser.ForwardPass | src/squad_optimisers.py:239-275 | the forward pass only appends, and every player it appends is decoded from a row of the ranking; it fails only with the budget error or a bad row; from the invariant it keeps the invariant |
| Efficientv2Optimiser.ForwardPassStopsAtFifteen | src/squad_optimisers.py:251-254 | the forward pass never exceeds fifteen players, and a full squad it builds is valid |
| Efficientv2Optimiser.TeamNames | src/squad_optimisers.py:285 | one name per team player, every team player's name is in the list, and every name in it belongs to a team player |
| Efficientv2Optimiser.TeamRows | src/squad_optimisers.py:284-289 | the team rows are exactly the table's rows whose full name is a team player's name, each as often as the table holds it, in ascending points order |
| Efficientv2Optimiser.TeamRowsOrder | src/squad_optimisers.py:287-289 | the team rows taken from a points ranking and reversed are in ascending points order |
| Efficientv2Optimiser.Candidates | src/squad_optimisers.py:293-302 | the candidates are exactly the table rows of the leaving player's position whose cost column is below the budget plus the leaving player's price, each as often as the table holds it, highest points first |
| Efficientv2Optimiser.CandidatesOrder | src/squad_optimisers.py:300-302 | a filter of the points ranking is in descending points order |
| Efficientv2Optimiser.FirstAdmissible | src/squad_optimisers.py:300-321 | the inner loop finds nobody exactly when no candidate is admissible; otherwise it finds the first admissible candidate |
| Efficientv2Optimiser.FirstAdmissibleOfTail | src/squad_optimisers.py:300-323 | when the first candidate fails, the first admissible of the rest is the first admissible of all |
| Efficientv2Optimiser.Swap | src/squad_optimisers.py:313-320 | the swap fails exactly when the leaving player is missing from squad or team; otherwise squad and team each keep their size, end with the newcomer and trade one leaving player for the newcomer as a multiset; the budget moves by the price gap, the leaving player's position gets its price back and the newcomer's position is charged the newcomer's price, all other positions unchanged |
| Efficientv2Optimiser.ReplaceCounts | src/squad_optimisers.py:313-316 | replacing one player changes position counts, club counts and total cost by exactly the two players' contributions |
| Efficientv2Optimiser.ReplaceKeepsClubs | src/squad_optimisers.py:309-316 | a newcomer passing the club rule keeps the club cap after the replacement |
| Efficientv2Optimiser.SwapKeepsInv | src/squad_optimisers.py:306-320 | a swap within one position, with an admissible newcomer, keeps the pass invariant and the squad size |
| Efficientv2Optimiser.SwapKeepsSquadRules | src/squad_optimisers.py:313-318 | the swap keeps the quotas, the club cap, the budget equation, the team equal to the squad and non-negative prices |
| Efficientv2Optimiser.SwapKeepsBreakdown | src/squad_optimisers.py:318-320 | the swap keeps the sub-budgets non-negative and within the budget |
| Efficientv2Optimiser.BackwardStepKeepsInv | src/squad_optimisers.py:300-320 | a replacement the backward pass makes keeps the invariant |
| Efficientv2Optimiser.SwapFromTable | src/squad_optimisers.py:300-316 | the newcomer of a swap is decoded from the table, so the squad after the swap keeps only old players or table players |
| Efficientv2Optimiser.FirstAdmissibleScoresMost | src/squad_optimisers.py:300-310 | on candidates in points order, the replacement the inner loop picks scores at least as many points as every admissible candidate |
| Efficientv2Optimiser.BackwardLoop | src/squad_optimisers.py:287-323 | the corrected backward loop fails only on a bad row or a missing player; every player of its squad was there before or is decoded from the table; from the invariant it keeps the invariant and the squad size |
| Efficientv2Optimiser.BackwardLoopStep | src/squad_optimisers.py:287-323 | a team row that does not decode fails the loop; one with no admissible candidate leaves the state as it is for the next row; otherwise the first admissible candidate, of the leaving player's position and scoring most among the admissible ones, replaces the leaving player before the next row, or the loop fails when that player is missing |
| Efficientv2Optimiser.BackwardPass | src/squad_optimisers.py:277-323 | the corrected backward pass fails only on a bad row or a missing player, keeps only squad players or players decoded from the table, and from the invariant keeps the invariant and the squad size |
| Efficientv2Optimiser.FullSquadIsNotChanged | src/squad_optimisers.py:306-310 | with a full squad no candidate passes the position rule, so the backward pass changes nothing |
| Efficientv2Optimiser.BackwardLoopAsWritten | src/squad_optimisers.py:287-323 | as written the loop returns the state unchanged exactly when every team row decodes and none finds a replacement; in every other case it fails |
| Efficientv2Optimiser.AsWrittenFailsWhereSwapSucceeds | src/squad_optimisers.py:313-316 | on a team row with a replacement whose player is in squad and team, the as-written loop fails while the corrected loop swaps the replacement in, adjusts the budget by the price gap, and continues |
| Efficientv2Optimiser.AsWrittenAgreesWhenNothingIsReplaced | src/squad_optimisers.py:287-323 | whenever the as-written loop returns, the corrected loop returns the same state |
| Efficientv2Optimiser.Optimise | src/squad_optimisers.py:222-237 | composes the forward pass with the corrected backward pass, which removes the leaving player by field equality where the code raises `ValueError` (see Findings); `optimise` never reports the breakdown error; every player it returns is decoded from the table; from a state whose emptied squad satisfies the invariant and under non-negative prices, the result keeps the invariant and has at most fifteen players |
| Efficientv2Optimiser.PassesFromTable | src/squad_optimisers.py:231-235 | the forward pass's players come from the value ranking, which holds the points ranking's rows, so after the backward pass every player comes from the table |
| Efficientv2Optimiser.SameRowsFromTable | src/squad_optimisers.py:251 | two orderings of the same rows offer the same players |
| Efficientv2Optimiser.PassesKeepInv | src/squad_optimisers.py:234-235 | after both passes the invariant holds and the squad has at most fifteen players |
| Efficientv2Optimiser.OptimiseIgnoresHeldSquad | src/squad_optimisers.py:231-232 | the squad the optimiser held before `optimise` plays no part in the result, because it is overwritten by the empty list `_get_cheap_players` returns |
| Efficientv2Optimiser.OptimiseFromFreshState | src/squad_optimisers.py:222-237 | a fresh `Efficientv2` forward-passes from an empty squad; its result keeps the quotas, the club cap and the budget, can be short, and when full is a valid squad left alone by the backward pass |
| AverageOptimiser.Loop | src/squad_optimisers.py:429-441 | the loop only appends players decoded from the table; the budget drops by exactly their cost; it fails exactly when some row has no valid position; it keeps the quotas, the club cap and a positive budget; with non-negative prices, every decodable row it passed over is in the squad or still fails the tests at the end |
| AverageOptimiser.LoopStep | src/squad_optimisers.py:429-439 | the facts for one row and for the rows after it give the facts for all of them |
| AverageOptimiser.TakesNarrows | src/squad_optimisers.py:433-437 | the three tests only tighten as the squad grows and the budget shrinks |
| AverageOptimiser.LoopLeavesNoneBehind | src/squad_optimisers.py:429-439 | a row passed over fails the tests at its turn and so at the end too, and a row taken stays in the squad |
| AverageOptimiser.Optimise | src/squad_optimisers.py:413-441 | `Average` fails exactly when a row has no valid position; otherwise the squad keeps the quotas and the club cap and costs under 1000, and with non-negative prices no decodable row left out would still pass the tests |
| AverageOptimiser.OptimiseKeepsRules | src/squad_optimisers.py:413-441 | `Average` fails exactly when a row has no valid position; otherwise its players come from the table, keep the quotas and the club cap, cost under 1000, and form a valid squad when there are fifteen |
| AverageOptimiser.SquadCanBeShort | src/squad_optimisers.py:413-441 | a table of a single keeper yields a squad of one player |
| Optimisers.PyEq | src/optimisers.py:91 | Python's `==` on the compared values: equal exactly when identical, and an integer never equals an enumeration member |
| Optimisers.Better | src/optimisers.py:99 | the better of two candidates is one of them, and scores at least as high as each present one |
| Optimisers.SearchIsOptimal | src/optimisers.py:99 | the search finds a feasible extension of the prefix exactly when one exists, and no feasible extension has a higher objective |
| Optimisers.Solve | src/optimisers.py:99 | the solver returns a feasible selection of the right length that maximises the objective, and reports none exactly when none is feasible |
| Optimisers.Readback | src/optimisers.py:101-106 | the read-back succeeds exactly when every row read at 0.99 or above decodes |
| Optimisers.ReadableSplit | src/optimisers.py:101-106 | readability of a table is readability of all but the last row, plus the last row when it is selected |
| Optimisers.Selected | src/optimisers.py:101-106 | a selection yields at most as many players as the table has rows |
| Optimisers.ReadbackTolerates | src/optimisers.py:103 | solver values within 0.01 of a selection read back as exactly the selected players, in table order |
| Optimisers.ReadbackOfSelection | src/optimisers.py:101-106 | reading back an exact selection succeeds exactly when every selected row decodes, and on a decodable table yields the selected players in table order |
| Optimisers.ClubConstraints | src/optimisers.py:96-97 | one at-most-three constraint for each club from the first number to 20 |
| Optimisers.DotOfUnpicked | src/optimisers.py:83 | coefficients of unselected rows contribute nothing |
| Optimisers.DotCounts | src/optimisers.py:86-97 | the constraint sums count the selection's players per position, per club and in total, and add up its cost |
| Optimisers.DotCountsPosition | src/optimisers.py:89-93 | a position indicator's sum counts the selection's players of that position |
| Optimisers.DotCountsClub | src/optimisers.py:96-97 | a club indicator's sum counts the selection's players of that club |
| Optimisers.DotCountsSize | src/optimisers.py:156 | the sum of all-ones counts the selected players |
| Optimisers.DotCountsCost | src/optimisers.py:86 | the cost sum is the selection's total price |
| Optimisers.DotLast | src/optimisers.py:83 | a sum over a table is the sum over all but the last row plus the last row when selected |
| Optimisers.SelectedLast | src/optimisers.py:101-106 | the selection of a table is that of all but its last row, plus the last row's player when selected |
| Optimisers.DotPrefix | src/optimisers.py:83 | coefficients beyond the selection's length do not change a sum |
| Optimisers.MipSquadOptimise | src/optimisers.py:58-106 | `MIPSquad` only appends to the list it holds; with a solution it succeeds exactly when every selected row decodes, and on a decodable table returns the held list followed by the selected players in table order; without a solution it fails on any non-empty table and returns the list unchanged on an empty one |
| Optimisers.FeasibleSquadIsValid | src/optimisers.py:86-97 | a feasible selection of positioned rows priced by `now_cost`, with clubs numbered 1 to 20, is a valid squad |
| Optimisers.FeasibleSquadHasQuotas | src/optimisers.py:86-93 | the budget and position constraints give the cost cap, the quotas and fifteen players |
| Optimisers.FeasibleSquadKeepsClubCap | src/optimisers.py:96-97 | the club constraints give the club cap when every club is numbered 1 to 20 |
| Optimisers.ValidSquadIsFeasible | src/optimisers.py:83-97 | a selection of positioned rows priced by `now_cost` that forms a valid squad satisfies every constraint of the program |
| Optimisers.ValidSquadMeetsClubConstraints | src/optimisers.py:96-97 | a selection within the club cap satisfies every club constraint |
| Optimisers.ValidSelectionIsSolved | src/optimisers.py:99 | when some selection forms a valid squad, the solver finds one scoring at least as much |
| Optimisers.SquadSolveFindsBestSquad | src/optimisers.py:58-106 | on positioned rows priced by `now_cost` with clubs 1 to 20, the solver finds a selection exactly when some selection forms a valid squad, and then its selection is a valid squad scoring at least as much as every valid squad |
| Optimisers.SelectedFromPool | src/optimisers.py:101-106 | every selected player is decoded from a row of the table |
| Optimisers.ClubsOutsideOneToTwentyAreUnconstrained | src/optimisers.py:96-97 | selected rows of clubs outside 1 to 20 never violate a club constraint, however many share a club |
| Optimisers.SecondCallAppends | src/optimisers.py:101-106 | a second call on the same table returns the first result twice over |
| Optimisers.MipTeamAsWrittenInfeasible | src/optimisers.py:151-153 | as written, the keeper constraint sums over no row, so no selection of any table is feasible |
| Optimisers.TeamProgramAsWritten | src/optimisers.py:151-156 | as written the program has four constraints, and the keeper, defender and forward constraints give every row the coefficient zero |
| Optimisers.MipTeamOptimise | src/optimisers.py:125-165 | `MIPTeam` only appends to the team it holds; with a solution it succeeds exactly when every selected row decodes, and on a decodable table returns the held team followed by the selected players in table order; without a solution it fails on any non-empty table and returns the team unchanged on an empty one |
| Optimisers.MipTeamAsWrittenNeverSelects | src/optimisers.py:151-165 | as written, the solver finds no selection, so `MIPTeam` fails on every non-empty table |
| Optimisers.MipTeamSelectionIsTeam | src/optimisers.py:151-156 | with the intended comparison, a feasible selection from squad players is a valid team of that squad |
| Optimisers.MipTeamSelectionHasTeamShape | src/optimisers.py:151-156 | with the intended comparison, a feasible selection has eleven players, one keeper, at least three defenders and at least one forward |
| Optimisers.TeamShapeIsFeasible | src/optimisers.py:151-156 | with the intended comparison, every selection of eleven players with one keeper, at least three defenders and at least one forward satisfies the program |
| Optimisers.TeamSolveFindsBestTeam | src/optimisers.py:125-165 | with the intended comparison, on squad players the solver finds a selection exactly when some selection has the team shape, and then its selection is a valid team scoring at least as much as every selection of that shape |

## Left out

- The `Random` optimiser, the predictors, the experiments and the strategy modules are not part of this model.
- pandas mechanics are abstracted:
  - `reset_index` is not modelled; positions in the table are the row indexes;
  - ties in `sort_values` may be broken in any order (a ranking is any permutation ordered by the key);
  - `drop` by index label is not modelled.
- Floating-point arithmetic is modelled as exact reals. The `value` column (points over cost) is read as exact reals, and rankings are formed only over rows with a non-zero cost column. Division by a zero cost, and the infinities and NaNs it produces, are not modelled.
- `Player` objects compare by identity in Python, since `Player` defines no `__eq__`. The model compares them by their fields everywhere. The `remove` calls of the backward pass, where identity changes the outcome, are modelled both ways: `Efficientv2Optimiser.BackwardLoopAsWritten` by identity, and `Efficientv2Optimiser.BackwardLoop`, which `Efficientv2Optimiser.Optimise` uses, by fields (see Findings).
- Squads.CheckTeam, Squads.CheckCaptain, Squads.CheckViceCaptain: membership (`player in self.squad`, `captain not in self._team`) is tested by field equality, where Python tests object identity; a field-equal copy that is not the same object is accepted by the model and would be rejected by the code.
- The order of a user-given breakdown or formation dictionary is not modelled: the positions are visited in declaration order, which is the order of the default dictionaries.
- `Efficientv2`'s default breakdown dictionary (src/squad_optimisers.py:195-200) is one object shared by every `Efficientv2` built without a breakdown, and its `optimise` mutates it (src/squad_optimisers.py:273, 318-320, 353, 381, 393). Once an earlier instance has charged players to it, its sum is generally no longer 1000, and a later default `Efficientv2(...)` raises `ValueError` (src/squad_optimisers.py:219-220). `Efficient` has its own default (src/squad_optimisers.py:99-104) and only reads it (src/squad_optimisers.py:139). Sharing a dictionary or an optimiser instance between runs is not modelled, except for the MIP optimisers' appending lists.
- `isinstance` is modelled over a small universe of values (`Dyn`). Attributes an exception leaves half-updated are not modelled.
- The MIP solver is replaced by an exhaustive search. Its tie order among optimal selections is not the solver's, and a solver time limit is not modelled.
- When a club rule fails in `greedy_add`, the row is never dropped and the loop does not end. This is modelled as the `Loops` outcome of `EfficientOptimiser.GreedyLoop`. Running out of rows raises `IndexError`, modelled as `Exhausted`.
- `AverageOptimiser.Optimise`: the mean of an empty table is taken as zero. The value is never used, because there are no rows to visit.
- Efficientv2Optimiser.Optimise: models the corrected backward pass, not the code as written. Where squad_optimisers.py:313 raises `ValueError` (a squad short of fifteen whose team row has an admissible replacement), the model removes the field-equal player and goes on. Since no candidate is checked against the squad, such a swap can bring in a player the squad already holds. For example, under the default breakdown, with a defender D1 (cost 10, 1 point) and a defender D2 (cost 200, 10 points), the forward pass takes both, and the model's backward pass swaps each of them for D1 (D2's price no longer fits the defenders' budget), ending with the squad [D1, D1]; the code raises at the first swap.
- Efficientv2Optimiser.Optimise: states provenance, the invariant and the fifteen-player bound, but not that a full result is valid; that is stated by `Efficientv2Optimiser.OptimiseFromFreshState` for a fresh optimiser, under non-negative prices and a non-negative breakdown.
- Squads.FromPandasDf: its own contract states only the object's rules; the defaults it derives are stated by `Squads.FromPandasDfDefaults`.
- Optimisers.Selected: its own contract gives only the length bound; which players it yields is stated by `Optimisers.SelectedLast`, `Optimisers.SelectedFromPool` and `Optimisers.ReadbackTolerates`.

## Findings

| source | as written | input that shows it | evidently intended | confidence | as-written member | corrected member |
|---|---|---|---|---|---|---|
| src/squad_optimisers.py:313-316 | the backward pass removes the leaving player built fresh from the table row; `Player` has no `__eq__`, so `list.remove` finds no equal object and raises `ValueError` | any squad short of fifteen whose team row has an admissible replacement | replace the squad member with the same name, position, cost and club | not executed | Efficientv2Optimiser.BackwardLoopAsWritten | Efficientv2Optimiser.SwapKeepsInv |
| src/optimisers.py:151-153 | `MIPTeam` compares the integer `element_type` with `Position` members, which is never true, so the keeper constraint `sum == 1` sums over no row | any table with at least one row | compare with `Position.GK.value` etc., as `MIPSquad` does | not executed | Optimisers.MipTeamAsWrittenInfeasible | Optimisers.MipTeamSelectionHasTeamShape |

=== FILE: analysis.dfy ===
/** The table queries of the analysis module: the rows of one position,
    ordered by a column, cut to their first `n` with the semantics of
    `DataFrame.head(n)`. */
module Analysis {

  import opened Players
  import opened Seqs

  /** `df[df["element_type"] == code]`. */
  function WithCode(rows: seq<Row>, code: int): (r: seq<Row>)
    ensures forall i :: 0 <= i < |r| ==> r[i].elementType == code
    ensures multiset(r) <= multiset(rows)
    ensures forall i :: 0 <= i < |rows| && rows[i].elementType == code ==> rows[i] in r
    ensures forall x: Row :: multiset(r)[x] == if x.elementType == code then multiset(rows)[x] else 0
  {
    var keep := (row: Row) => row.elementType == code;
    forall x: Row ensures multiset(Filter(rows, keep))[x] == if x.elementType == code then multiset(rows)[x] else 0 {
      FilterMultiplicity(rows, keep, x);
    }
    Filter(rows, keep)
  }

  /** Filtering keeps a descending order. */
  lemma WithCodeKeepsDescending(rows: seq<Row>, code: int, key: Row -> real)
    requires Descending(rows, key)
    ensures Descending(WithCode(rows, code), key)
  {
    FilterKeepsDescending(rows, (row: Row) => row.elementType == code, key);
  }

  /** The rows of the position, sorted by `key` ascending, then `head(n)`.
      The result comes from the position's rows, is in key order, has the
      length `head` gives, and every row of the position it leaves out ranks
      no better than any row it keeps. */
  function FirstByKey(rows: seq<Row>, code: int, n: int, key: Row -> real): (r: seq<Row>)
    ensures forall i :: 0 <= i < |r| ==> r[i].elementType == code
    ensures Ascending(r, key)
    ensures multiset(r) <= multiset(WithCode(rows, code))
    ensures n >= 0 ==> |r| == Min(n, |WithCode(rows, code)|)
    ensures n < 0 ==> |r| == Max(|WithCode(rows, code)| + n, 0)
    ensures forall i, x :: 0 <= i < |r| && x in multiset(WithCode(rows, code)) - multiset(r) ==> key(r[i]) <= key(x)
  {
    var sorted := SortBy(WithCode(rows, code), key);
    var r := Head(sorted, n);
    HeadSplit(sorted, r, key);
    forall i | 0 <= i < |r| ensures r[i].elementType == code {
      assert r[i] in multiset(sorted);
    }
    r
  }

  /** A prefix of an ascending sequence is ascending, and what the prefix
      leaves out is at least every element it keeps. */
  lemma HeadSplit(sorted: seq<Row>, r: seq<Row>, key: Row -> real)
    requires Ascending(sorted, key) && r <= sorted
    ensures Ascending(r, key)
    ensures multiset(r) <= multiset(sorted)
    ensures forall i, x :: 0 <= i < |r| && x in multiset(sorted) - multiset(r) ==> key(r[i]) <= key(x)
  {
    var rest := sorted[|r|..];
    assert sorted == r + rest;
    assert multiset(sorted) == multiset(r) + multiset(rest);
    forall i, x | 0 <= i < |r| && x in multiset(sorted) - multiset(r) ensures key(r[i]) <= key(x) {
      assert x in multiset(rest);
      var j :| 0 <= j < |rest| && rest[j] == x;
      assert sorted[|r| + j] == x;
    }
  }

  /** The order facts of `FirstByKey` under the negated points key, read
      as facts about `total_points`. */
  lemma PointsOrder(rest: multiset<Row>, r: seq<Row>)
    requires Ascending(r, NegPoints)
    requires forall i, x :: 0 <= i < |r| && x in rest ==> NegPoints(r[i]) <= NegPoints(x)
    ensures forall i, j :: 0 <= i < j < |r| ==> r[i].totalPoints >= r[j].totalPoints
    ensures forall i, x :: 0 <= i < |r| && x in rest ==> r[i].totalPoints >= x.totalPoints
  {
    forall i, j | 0 <= i < j < |r| ensures r[i].totalPoints >= r[j].totalPoints {
      assert NegPoints(r[i]) <= NegPoints(r[j]);
    }
    forall i, x | 0 <= i < |r| && x in rest ensures r[i].totalPoints >= x.totalPoints {
      assert NegPoints(r[i]) <= NegPoints(x);
    }
  }

  /** The order facts of `FirstByKey` under the `now_cost` key. */
  lemma CostOrder(rest: multiset<Row>, r: seq<Row>)
    requires Ascending(r, NowCost)
    requires forall i, x :: 0 <= i < |r| && x in rest ==> NowCost(r[i]) <= NowCost(x)
    ensures forall i, j :: 0 <= i < j < |r| ==> r[i].nowCost <= r[j].nowCost
    ensures forall i, x :: 0 <= i < |r| && x in rest ==> r[i].nowCost <= x.nowCost
  {
    forall i, j | 0 <= i < j < |r| ensures r[i].nowCost <= r[j].nowCost {
      assert NowCost(r[i]) <= NowCost(r[j]);
    }
    forall i, x | 0 <= i < |r| && x in rest ensures r[i].nowCost <= x.nowCost {
      assert NowCost(r[i]) <= NowCost(x);
    }
  }

  function NegPoints(r: Row): real {
    -(r.totalPoints as real)
  }

  function NowCost(r: Row): real {
    r.nowCost as real
  }

  /** `get_top_players_by_position(df, position, n)`: the position's rows by
      `total_points`, highest first, cut by `head(n)`. */
  function TopPlayersByPosition(rows: seq<Row>, code: int, n: int): (r: seq<Row>)
    ensures forall i :: 0 <= i < |r| ==> r[i].elementType == code
    ensures forall i, j :: 0 <= i < j < |r| ==> r[i].totalPoints >= r[j].totalPoints
    ensures multiset(r) <= multiset(rows)
    ensures n >= 0 ==> |r| == Min(n, |WithCode(rows, code)|)
    ensures n < 0 ==> |r| == Max(|WithCode(rows, code)| + n, 0)
    ensures forall i, x :: 0 <= i < |r| && x in multiset(WithCode(rows, code)) - multiset(r) ==> r[i].totalPoints >= x.totalPoints
  {
    var r := FirstByKey(rows, code, n, NegPoints);
    PointsOrder(multiset(WithCode(rows, code)) - multiset(r), r);
    r
  }

  /** `get_cheapest_players_by_position(df, position, n)`: the position's rows
      by `now_cost`, cheapest first, cut by `head(n)`. */
  function CheapestPlayersByPosition(rows: seq<Row>, code: int, n: int): (r: seq<Row>)
    ensures forall i :: 0 <= i < |r| ==> r[i].elementType == code
    ensures forall i, j :: 0 <= i < j < |r| ==> r[i].nowCost <= r[j].nowCost
    ensures multiset(r) <= multiset(rows)
    ensures n >= 0 ==> |r| == Min(n, |WithCode(rows, code)|)
    ensures n < 0 ==> |r| == Max(|WithCode(rows, code)| + n, 0)
    ensures forall i, x :: 0 <= i < |r| && x in multiset(WithCode(rows, code)) - multiset(r) ==> r[i].nowCost <= x.nowCost
  {
    var r := FirstByKey(rows, code, n, NowCost);
    CostOrder(multiset(WithCode(rows, code)) - multiset(r), r);
    r
  }

  /** Asking for at least as many rows as the position has returns all of
      them, each as often as it occurs in the table. */
  lemma AskingForEverythingKeepsEverything(rows: seq<Row>, code: int, n: int)
    requires n >= |WithCode(rows, code)|
    ensures multiset(TopPlayersByPosition(rows, code, n)) == multiset(WithCode(rows, code))
    ensures multiset(CheapestPlayersByPosition(rows, code, n)) == multiset(WithCode(rows, code))
  {
    var t := TopPlayersByPosition(rows, code, n);
    var c := CheapestPlayersByPosition(rows, code, n);
    assert |multiset(t)| == |multiset(WithCode(rows, code))|;
    MultisetSubsetOfSameSize(multiset(t), multiset(WithCode(rows, code)));
    MultisetSubsetOfSameSize(multiset(c), multiset(WithCode(rows, code)));
  }

  lemma MultisetSubsetOfSameSize<T>(a: multiset<T>, b: multiset<T>)
    requires a <= b && |a| == |b|
    ensures a == b
  {
    var d := b - a;
    assert b == a + d;
    assert |d| == 0;
  }
}

=== FILE: average.dfy ===
/** The `Average` optimiser: the table is visited from the row whose cost
    column is nearest the mean cost outwards, and each player is taken when
    the position has a free place, the club cap allows it and the budget is
    strictly larger than the price. */
module AverageOptimiser {

  import opened Wrappers
  import opened Players
  import opened Squads
  import opened Seqs
  import opened BaseOptimiser

  function SumCost(rows: seq<Row>): real {
    if |rows| == 0 then 0.0 else SumCost(rows[..|rows| - 1]) + rows[|rows| - 1].cost
  }

  /** `df[cost_col].mean()`; an empty table has no rows to visit, so its
      value is never used. */
  function Mean(rows: seq<Row>): real {
    if |rows| == 0 then 0.0 else SumCost(rows) / |rows| as real
  }

  function Abs(x: real): real {
    if x < 0.0 then -x else x
  }

  /** `delta_mean`: how far a row's cost is from the mean. */
  function Delta(mean: real, r: Row): real {
    Abs(r.cost - mean)
  }

  /** `ranked` is the table sorted by `delta_mean` ascending. */
  predicate RankedByDelta(rows: seq<Row>, ranked: seq<Row>) {
    var mean := Mean(rows);
    multiset(ranked) == multiset(rows) && Ascending(ranked, (r: Row) => Delta(mean, r))
  }

  /** The optimiser's squad and budget. */
  datatype State = State(squad: seq<Player>, budget: int)

  /** The three tests of the loop: a free place in the position, the club cap,
      and a budget strictly above the price. */
  predicate Takes(st: State, p: Player) {
    PositionRule(st.squad, p) && ClubRule(st.squad, p) && st.budget > p.cost
  }

  /** What the loop keeps: the quotas, the club cap, a positive budget that
      is 1000 less what the squad costs. */
  predicate Inv(st: State) {
    && WithinQuotas(st.squad)
    && ClubsAtMost(st.squad, MaxPerClub)
    && st.budget > 0
    && st.budget == InitialBudget - TotalCost(st.squad)
  }

  /** The loop of `optimise`: every row is decoded, and the player is
      appended when it passes the tests. Only the players taken change the
      squad and the budget, and each comes from the table. */
  function Loop(ranked: seq<Row>, st: State): (r: Result<State, PlayerError>)
    ensures r.Success? ==> |r.value.squad| >= |st.squad| && r.value.squad[..|st.squad|] == st.squad
    ensures r.Success? ==> r.value.budget == st.budget - (TotalCost(r.value.squad) - TotalCost(st.squad))
    ensures r.Success? ==> forall i :: |st.squad| <= i < |r.value.squad| ==> FromTable(r.value.squad[i], ranked)
    ensures r.Failure? <==> exists j :: 0 <= j < |ranked| && !HasPosition(ranked[j])
    ensures Inv(st) && r.Success? ==> Inv(r.value)
    ensures r.Success? && CostsNonNegative(ranked) ==> r.value.budget <= st.budget && NoneLeftBehind(ranked, r.value)
    decreases |ranked|
  {
    if |ranked| == 0 then Success(st)
    else
      match FromPandasRow(ranked[0])
      case Failure(e) =>
        Failure(e)
      case Success(p) =>
        var st1 := if Takes(st, p) then State(st.squad + [p], st.budget - p.cost) else st;
        var r := Loop(ranked[1..], st1);
        LoopStep(ranked, st, p, r);
        LoopLeavesNoneBehind(ranked, st, p, r);
        r
  }

  /** Every row's player is in the squad, or fails the three tests against it. */
  predicate NoneLeftBehind(ranked: seq<Row>, st: State) {
    forall j :: 0 <= j < |ranked| && HasPosition(ranked[j]) ==>
      RowPlayer(ranked[j]) in st.squad || !Takes(st, RowPlayer(ranked[j]))
  }

  /** The tests only tighten as the squad grows and the budget shrinks. */
  lemma TakesNarrows(a: State, b: State, p: Player)
    requires |b.squad| >= |a.squad| && b.squad[..|a.squad|] == a.squad && b.budget <= a.budget
    ensures Takes(b, p) ==> Takes(a, p)
  {
    var rest := b.squad[|a.squad|..];
    assert b.squad == a.squad + rest;
    CountsOfConcat(a.squad, rest);
    CountsOfConcat(a.squad, [p]);
    CountsOfConcat(b.squad, [p]);
  }

  /** One row of the loop: a row passed over fails the tests at its turn, so
      it fails them at the end too, and a row taken is in the squad. */
  lemma LoopLeavesNoneBehind(ranked: seq<Row>, st: State, p: Player, r: Result<State, PlayerError>)
    requires |ranked| > 0 && FromPandasRow(ranked[0]) == Success(p)
    requires var st1 := if Takes(st, p) then State(st.squad + [p], st.budget - p.cost) else st;
      && (r.Success? ==> |r.value.squad| >= |st1.squad| && r.value.squad[..|st1.squad|] == st1.squad)
      && (r.Success? && CostsNonNegative(ranked[1..]) ==> r.value.budget <= st1.budget && NoneLeftBehind(ranked[1..], r.value))
    ensures r.Success? && CostsNonNegative(ranked) ==> r.value.budget <= st.budget && NoneLeftBehind(ranked, r.value)
  {
    var st1 := if Takes(st, p) then State(st.squad + [p], st.budget - p.cost) else st;
    if r.Success? && CostsNonNegative(ranked) {
      var fin := r.value;
      assert CostsNonNegative(ranked[1..]) by {
        forall i | 0 <= i < |ranked[1..]| ensures ranked[1..][i].nowCost >= 0 {
          assert ranked[1..][i] == ranked[i + 1];
        }
      }
      assert p.cost >= 0;
      forall j | 0 <= j < |ranked| && HasPosition(ranked[j])
        ensures RowPlayer(ranked[j]) in fin.squad || !Takes(fin, RowPlayer(ranked[j]))
      {
        if j == 0 {
          if Takes(st, p) {
            assert fin.squad[..|st1.squad|][|st.squad|] == p;
          } else {
            TakesNarrows(st, fin, p);
          }
        } else {
          assert ranked[j] == ranked[1..][j - 1];
        }
      }
    }
  }

  /** One row of the loop: the facts about the rest give the facts about all. */
  lemma LoopStep(ranked: seq<Row>, st: State, p: Player, r: Result<State, PlayerError>)
    requires |ranked| > 0 && FromPandasRow(ranked[0]) == Success(p)
    requires var st1 := if Takes(st, p) then State(st.squad + [p], st.budget - p.cost) else st;
      && (r.Success? ==> |r.value.squad| >= |st1.squad| && r.value.squad[..|st1.squad|] == st1.squad)
      && (r.Success? ==> r.value.budget == st1.budget - (TotalCost(r.value.squad) - TotalCost(st1.squad)))
      && (r.Success? ==> forall i :: |st1.squad| <= i < |r.value.squad| ==> FromTable(r.value.squad[i], ranked[1..]))
      && (r.Failure? <==> exists j :: 0 <= j < |ranked[1..]| && !HasPosition(ranked[1..][j]))
      && (Inv(st1) && r.Success? ==> Inv(r.value))
    ensures r.Success? ==> |r.value.squad| >= |st.squad| && r.value.squad[..|st.squad|] == st.squad
    ensures r.Success? ==> r.value.budget == st.budget - (TotalCost(r.value.squad) - TotalCost(st.squad))
    ensures r.Success? ==> forall i :: |st.squad| <= i < |r.value.squad| ==> FromTable(r.value.squad[i], ranked)
    ensures r.Failure? <==> exists j :: 0 <= j < |ranked| && !HasPosition(ranked[j])
    ensures Inv(st) && r.Success? ==> Inv(r.value)
  {
    var st1 := if Takes(st, p) then State(st.squad + [p], st.budget - p.cost) else st;
    assert HasPosition(ranked[0]);
    if exists j :: 0 <= j < |ranked| && !HasPosition(ranked[j]) {
      var j :| 0 <= j < |ranked| && !HasPosition(ranked[j]);
      assert ranked[1..][j - 1] == ranked[j];
    }
    if exists j :: 0 <= j < |ranked[1..]| && !HasPosition(ranked[1..][j]) {
      var j :| 0 <= j < |ranked[1..]| && !HasPosition(ranked[1..][j]);
      assert ranked[j + 1] == ranked[1..][j];
    }
    if Takes(st, p) {
      var s := st.squad + [p];
      assert s[..|s| - 1] == st.squad;
      if Inv(st) {
        RulesKeepLimits(st.squad, p);
      }
    }
    if r.Success? {
      assert r.value.squad[..|st1.squad|][..|st.squad|] == st.squad;
      forall i | |st.squad| <= i < |r.value.squad| ensures FromTable(r.value.squad[i], ranked) {
        if i < |st1.squad| {
          assert r.value.squad[i] == p;
        } else {
          var j :| 0 <= j < |ranked[1..]| && FromPandasRow(ranked[1..][j]) == Success(r.value.squad[i]);
          assert ranked[j + 1] == ranked[1..][j];
        }
      }
    }
  }

  /** `Average(...).optimise(df)` on a fresh optimiser, the rows visited in
      `delta_mean` order. It fails exactly when a row has no valid position;
      otherwise the squad keeps the quotas and the club cap, costs less than
      1000, and, when no price is negative, every row's player it left out
      fails one of the three tests against the final squad and budget. */
  function Optimise(rows: seq<Row>, ranked: seq<Row>): (r: Result<seq<Player>, PlayerError>)
    requires RankedByDelta(rows, ranked)
    ensures r.Failure? <==> exists j :: 0 <= j < |ranked| && !HasPosition(ranked[j])
    ensures r.Success? ==> WithinQuotas(r.value) && ClubsAtMost(r.value, MaxPerClub) && TotalCost(r.value) < InitialBudget
    ensures r.Success? && CostsNonNegative(ranked) ==> NoneLeftBehind(ranked, State(r.value, InitialBudget - TotalCost(r.value)))
  {
    assert Inv(State([], InitialBudget));
    match Loop(ranked, State([], InitialBudget))
    case Success(st) => Success(st.squad)
    case Failure(e) => Failure(e)
  }

  /** What `Average` guarantees: it fails exactly when some row has no valid
      position; otherwise its players come from the table, keep the quotas
      and the club cap, cost strictly less than the budget of 1000, and when
      there are fifteen of them they form a valid squad. Nothing makes the
      squad reach fifteen. */
  lemma OptimiseKeepsRules(rows: seq<Row>, ranked: seq<Row>)
    requires RankedByDelta(rows, ranked)
    ensures Optimise(rows, ranked).Failure? <==> exists j :: 0 <= j < |rows| && !HasPosition(rows[j])
    ensures Optimise(rows, ranked).Success? ==>
      var s := Optimise(rows, ranked).value;
      && WithinQuotas(s) && ClubsAtMost(s, MaxPerClub)
      && |s| <= SquadSize
      && TotalCost(s) < InitialBudget
      && (forall i :: 0 <= i < |s| ==> FromTable(s[i], ranked))
      && (|s| == SquadSize ==> IsValidSquad(s))
  {
    assert Inv(State([], InitialBudget));
    if exists j :: 0 <= j < |rows| && !HasPosition(rows[j]) {
      var j :| 0 <= j < |rows| && !HasPosition(rows[j]);
      assert rows[j] in multiset(ranked);
    }
    if exists j :: 0 <= j < |ranked| && !HasPosition(ranked[j]) {
      var j :| 0 <= j < |ranked| && !HasPosition(ranked[j]);
      assert ranked[j] in multiset(rows);
    }
    if Optimise(rows, ranked).Success? {
      var s := Optimise(rows, ranked).value;
      FullSquadFillsQuotas(s, Player("", GK, 0, 0));
      if |s| == SquadSize {
        BuiltSquadIsValid(s);
      }
    }
  }

  /** The squad can stay short: a table of a single keeper gives a squad of one. */
  lemma SquadCanBeShort()
    ensures var keeper := Row("A", "B", 1, 45, 1, 0, 45.0, 0.0);
      Optimise([keeper], [keeper]) == Success([Player("A B", GK, 45, 1)])
  {
    var keeper := Row("A", "B", 1, 45, 1, 0, 45.0, 0.0);
    assert FullName(keeper) == "A B";
    assert CountPosition([], GK) == 0 && CountClub([], 1) == 0;
  }
}

=== FILE: base_optimiser.dfy ===
/** What the heuristic squad optimisers share: the starting budget, the
    per-position sub-budgets, the two feasibility rules every candidate is
    tested against, and the value ranking. */
module BaseOptimiser {

  import opened Wrappers
  import opened Players
  import opened Squads
  import opened Seqs
  import Analysis

  const InitialBudget: int := 1000

  /** `_squad_position_rule`: the candidate's position still has a free
      place, that is, adding the candidate keeps its position within quota. */
  predicate PositionRule(squad: seq<Player>, p: Player): (ok: bool)
    ensures ok <==> CountPosition(squad + [p], p.position) <= Quota(p.position)
  {
    CountsOfConcat(squad, [p]);
    assert CountPosition([p], p.position) == 1;
    Quota(p.position) - CountPosition(squad, p.position) > 0
  }

  /** `_player_team_squad_rule`: fewer than three squad members share the
      candidate's club, that is, adding the candidate keeps its club within the cap. */
  predicate ClubRule(squad: seq<Player>, p: Player): (ok: bool)
    ensures ok <==> CountClub(squad + [p], p.team) <= MaxPerClub
  {
    CountsOfConcat(squad, [p]);
    assert CountClub([p], p.team) == 1;
    CountClub(squad, p.team) < MaxPerClub
  }

  /** No row of the table has a negative `now_cost`. */
  predicate CostsNonNegative(rows: seq<Row>) {
    forall i :: 0 <= i < |rows| ==> rows[i].nowCost >= 0
  }

  /** `p` is the player of one of the rows. */
  predicate FromTable(p: Player, rows: seq<Row>) {
    exists j :: 0 <= j < |rows| && FromPandasRow(rows[j]) == Success(p)
  }

  /** No position holds more players than its quota. */
  predicate WithinQuotas(squad: seq<Player>) {
    && CountPosition(squad, GK) <= Quota(GK)
    && CountPosition(squad, DEF) <= Quota(DEF)
    && CountPosition(squad, MID) <= Quota(MID)
    && CountPosition(squad, FWD) <= Quota(FWD)
  }

  /** Adding a candidate that passes both rules keeps every quota and the
      club cap, and it fills one more place of its position. */
  lemma RulesKeepLimits(squad: seq<Player>, p: Player)
    requires WithinQuotas(squad) && ClubsAtMost(squad, MaxPerClub)
    requires PositionRule(squad, p) && ClubRule(squad, p)
    ensures WithinQuotas(squad + [p]) && ClubsAtMost(squad + [p], MaxPerClub)
    ensures |squad + [p]| <= SquadSize
  {
    var s := squad + [p];
    assert s[..|s| - 1] == squad;
    forall i | 0 <= i < |s| ensures CountClub(s, s[i].team) <= MaxPerClub {
      if i < |squad| {
        assert s[i] == squad[i];
      }
    }
    PositionCountsSum(s);
  }

  /** A squad within its quotas has at most fifteen players, and one of
      fifteen fills every quota exactly, so then no candidate passes the
      position rule. */
  lemma FullSquadFillsQuotas(squad: seq<Player>, p: Player)
    requires WithinQuotas(squad)
    ensures |squad| <= SquadSize
    ensures |squad| == SquadSize ==> SquadPositionsOk(squad) && !PositionRule(squad, p)
  {
    PositionCountsSum(squad);
  }

  /** A squad the optimisers built under their rules, with fifteen players
      and a cost within the cap, passes the squad setter. */
  lemma BuiltSquadIsValid(squad: seq<Player>)
    requires WithinQuotas(squad) && ClubsAtMost(squad, MaxPerClub)
    requires |squad| == SquadSize && TotalCost(squad) <= BudgetCap
    ensures IsValidSquad(squad)
    ensures CheckSquad(Wrap(squad)) == Success(squad)
  {
    PositionCountsSum(squad);
  }

  /** A budget per position, the `budget_breakdown` dictionary. */
  datatype Breakdown = Breakdown(gk: real, def: real, mid: real, fwd: real) {

    function Get(p: Position): real {
      match p
      case GK => gk
      case DEF => def
      case MID => mid
      case FWD => fwd
    }

    function Set(p: Position, v: real): (b: Breakdown)
      ensures b.Get(p) == v
      ensures forall q :: q != p ==> b.Get(q) == Get(q)
    {
      match p
      case GK => this.(gk := v)
      case DEF => this.(def := v)
      case MID => this.(mid := v)
      case FWD => this.(fwd := v)
    }

    function Sum(): real {
      gk + def + mid + fwd
    }

    predicate NonNegative() {
      gk >= 0.0 && def >= 0.0 && mid >= 0.0 && fwd >= 0.0
    }
  }

  /** The default breakdown: a quarter of the budget for each position. */
  const DefaultBreakdown: Breakdown := Breakdown(250.0, 250.0, 250.0, 250.0)

  /** Changing one position's budget by `d` changes the total by `d`. */
  lemma SetShiftsSum(b: Breakdown, p: Position, d: real)
    ensures b.Set(p, b.Get(p) + d).Sum() == b.Sum() + d
  {
  }

  /** The ranking key of the greedy optimisers: points per unit of cost.
      Rankings are only formed over rows with a non-zero cost column. */
  function Value(r: Row): real {
    if r.cost == 0.0 then 0.0 else r.points / r.cost
  }

  /** `sort_values(by="value", ascending=False)`: a best-value-first order. */
  predicate RankedByValue(ranked: seq<Row>) {
    (forall i :: 0 <= i < |ranked| ==> ranked[i].cost != 0.0) && Descending(ranked, Value)
  }

  function Points(r: Row): real {
    r.points
  }

  /** `sort_values(by=points_col, ascending=False)`. */
  predicate RankedByPoints(ranked: seq<Row>) {
    Descending(ranked, Points)
  }

  /** The rows whose `element_type` is the position's value, in their order. */
  function RowsOf(rows: seq<Row>, pos: Position): (r: seq<Row>)
    ensures forall i :: 0 <= i < |r| ==> r[i].elementType == PositionValue(pos) && HasPosition(r[i])
    ensures forall i :: 0 <= i < |r| ==> RowPlayer(r[i]).position == pos
  {
    var r := Analysis.WithCode(rows, PositionValue(pos));
    PositionValueDecodes(pos);
    r
  }

  lemma PositionValueDecodes(pos: Position)
    ensures forall r: Row :: r.elementType == PositionValue(pos) ==> HasPosition(r) && RowPlayer(r).position == pos
  {
    forall r: Row | r.elementType == PositionValue(pos) ensures HasPosition(r) && RowPlayer(r).position == pos {
      PositionValueRoundTrip(pos, RowPlayer(r).position);
    }
  }

  /** Players per position the team is meant to field, the `formation` dictionary. */
  datatype Formation = Formation(gk: int, def: int, mid: int, fwd: int) {

    function Get(p: Position): int {
      match p
      case GK => gk
      case DEF => def
      case MID => mid
      case FWD => fwd
    }
  }

  /** The formation used when none is given: one keeper, three defenders,
      four midfielders, three forwards. */
  const DefaultFormation: Formation := Formation(1, 3, 4, 3)

  function CostCol(r: Row): real {
    r.cost
  }

  /** One position's part of `_get_cheap_players`: its rows by the cost
      column, cheapest first, cut by `head(squad number - formation number)`.
      A negative count drops rows from the end, as `head` does. */
  function CheapRowsOf(rows: seq<Row>, f: Formation, pos: Position): (r: seq<Row>)
    ensures forall i :: 0 <= i < |r| ==> r[i].elementType == PositionValue(pos) && HasPosition(r[i])
    ensures forall i, j :: 0 <= i < j < |r| ==> r[i].cost <= r[j].cost
    ensures multiset(r) <= multiset(Analysis.WithCode(rows, PositionValue(pos)))
    ensures Quota(pos) - f.Get(pos) >= 0 ==> |r| == Min(Quota(pos) - f.Get(pos), |Analysis.WithCode(rows, PositionValue(pos))|)
    ensures forall i, x :: 0 <= i < |r| && x in multiset(Analysis.WithCode(rows, PositionValue(pos))) - multiset(r) ==> r[i].cost <= x.cost
  {
    CheapRowsFacts(rows, PositionValue(pos), Quota(pos) - f.Get(pos));
    Analysis.FirstByKey(rows, PositionValue(pos), Quota(pos) - f.Get(pos), CostCol)
  }

  /** The facts of `FirstByKey` under the cost column, read as facts about `cost`. */
  lemma CheapRowsFacts(rows: seq<Row>, code: int, n: int)
    requires 1 <= code <= 4
    ensures var r := Analysis.FirstByKey(rows, code, n, CostCol);
      var all := Analysis.WithCode(rows, code);
      && (forall i :: 0 <= i < |r| ==> r[i].elementType == code && HasPosition(r[i]))
      && (forall i, j :: 0 <= i < j < |r| ==> r[i].cost <= r[j].cost)
      && multiset(r) <= multiset(all)
      && (n >= 0 ==> |r| == Min(n, |all|))
      && (forall i, x :: 0 <= i < |r| && x in multiset(all) - multiset(r) ==> r[i].cost <= x.cost)
  {
    var r := Analysis.FirstByKey(rows, code, n, CostCol);
    var all := Analysis.WithCode(rows, code);
    CostColOrder(multiset(all) - multiset(r), r);
  }

  /** The order facts of a ranking by the cost column, read as facts about `cost`. */
  lemma CostColOrder(rest: multiset<Row>, r: seq<Row>)
    requires Ascending(r, CostCol)
    requires forall i, x :: 0 <= i < |r| && x in rest ==> CostCol(r[i]) <= CostCol(x)
    ensures forall i, j :: 0 <= i < j < |r| ==> r[i].cost <= r[j].cost
    ensures forall i, x :: 0 <= i < |r| && x in rest ==> r[i].cost <= x.cost
  {
    forall i, j | 0 <= i < j < |r| ensures r[i].cost <= r[j].cost {
      assert CostCol(r[i]) <= CostCol(r[j]);
    }
    forall i, x | 0 <= i < |r| && x in rest ensures r[i].cost <= x.cost {
      assert CostCol(r[i]) <= CostCol(x);
    }
  }

  /** The players of one position's cheap picks. */
  function CheapPlayersOf(rows: seq<Row>, f: Formation, pos: Position): (ps: seq<Player>)
    ensures |ps| == |CheapRowsOf(rows, f, pos)|
    ensures forall i :: 0 <= i < |ps| ==> ps[i].position == pos && FromPandasRow(CheapRowsOf(rows, f, pos)[i]) == Success(ps[i])
  {
    var cr := CheapRowsOf(rows, f, pos);
    PositionValueDecodes(pos);
    RowPlayers(cr)
  }

  /** `_get_cheap_players(df)`: the cheap picks of every position are appended
      to the squad, keeper picks first and forward picks last, so each
      position gains exactly its picks; but the list the method returns is
      the empty list it started with, and the budget is left as it was. */
  function GetCheapPlayers(squad: seq<Player>, rows: seq<Row>, f: Formation): (r: (seq<Player>, seq<Player>))
    ensures r.0 == squad + CheapPlayersOf(rows, f, GK) + CheapPlayersOf(rows, f, DEF)
      + CheapPlayersOf(rows, f, MID) + CheapPlayersOf(rows, f, FWD)
    ensures forall q :: CountPosition(r.0, q) == CountPosition(squad, q) + |CheapRowsOf(rows, f, q)|
    ensures r.1 == []
  {
    var g := CheapPlayersOf(rows, f, GK);
    var d := CheapPlayersOf(rows, f, DEF);
    var m := CheapPlayersOf(rows, f, MID);
    var w := CheapPlayersOf(rows, f, FWD);
    CountsOfConcat(squad, g);
    CountsOfConcat(squad + g, d);
    CountsOfConcat(squad + g + d, m);
    CountsOfConcat(squad + g + d + m, w);
    forall q ensures CountPosition(squad + g + d + m + w, q) == CountPosition(squad, q) + |CheapRowsOf(rows, f, q)| {
      CountOfUniform(g, GK, q);
      CountOfUniform(d, DEF, q);
      CountOfUniform(m, MID, q);
      CountOfUniform(w, FWD, q);
    }
    (squad + g + d + m + w, [])
  }
}

=== FILE: core.dfy ===
/** The `Season` enumeration of the football package's core module and its
    display string ("2016/17" for the member `S2016_17`). */
module Core {

  import opened Wrappers

  /** The eight seasons of historical data, declared in chronological order. */
  datatype Season = S2016_17 | S2017_18 | S2018_19 | S2019_20 | S2020_21 | S2021_22 | S2022_23 | S2023_24

  /** The member's value: 1 for the oldest season up to 8 for the newest. */
  function Value(s: Season): int {
    match s
    case S2016_17 => 1
    case S2017_18 => 2
    case S2018_19 => 3
    case S2019_20 => 4
    case S2020_21 => 5
    case S2021_22 => 6
    case S2022_23 => 7
    case S2023_24 => 8
  }

  /** `Season(v)`: the member with value `v`; any other value is rejected. */
  function FromValue(v: int): Option<Season> {
    if v == 1 then Some(S2016_17)
    else if v == 2 then Some(S2017_18)
    else if v == 3 then Some(S2018_19)
    else if v == 4 then Some(S2019_20)
    else if v == 5 then Some(S2020_21)
    else if v == 6 then Some(S2021_22)
    else if v == 7 then Some(S2022_23)
    else if v == 8 then Some(S2023_24)
    else None
  }

  /** The member's declared name. */
  function Name(s: Season): string {
    match s
    case S2016_17 => "S2016_17"
    case S2017_18 => "S2017_18"
    case S2018_19 => "S2018_19"
    case S2019_20 => "S2019_20"
    case S2020_21 => "S2020_21"
    case S2021_22 => "S2021_22"
    case S2022_23 => "S2022_23"
    case S2023_24 => "S2023_24"
  }

  /** `str.replace(from, to)` for single characters. */
  function ReplaceChar(s: string, from: char, to: char): (r: string)
    ensures |r| == |s|
    ensures forall i :: 0 <= i < |s| ==> r[i] == (if s[i] == from then to else s[i])
  {
    if |s| == 0 then []
    else [if s[0] == from then to else s[0]] + ReplaceChar(s[1..], from, to)
  }

  /** The display string: the name with every `_` turned into `/`, without
      its first character. */
  function Repr(s: Season): (r: string)
    ensures |r| == |Name(s)| - 1
    ensures forall i :: 0 <= i < |r| ==> r[i] == (if Name(s)[i + 1] == '_' then '/' else Name(s)[i + 1])
    ensures forall i :: 0 <= i < |r| ==> r[i] != '_'
  {
    ReplaceChar(Name(s), '_', '/')[1..]
  }

  function DigitValue(c: char): int {
    if '0' <= c <= '9' then c as int - '0' as int else 0
  }

  /** The number a string of decimal digits denotes. */
  function DecimalValue(ds: string): int {
    if |ds| == 0 then 0 else DecimalValue(ds[..|ds| - 1]) * 10 + DigitValue(ds[|ds| - 1])
  }

  /** Reads a display string back: its first four characters are the season's
      starting year, and the member values count years from 2016. */
  function ParseRepr(r: string): Option<Season> {
    if |r| < 4 then None else FromValue(DecimalValue(r[..4]) - 2015)
  }

  /** `Season(v)` accepts exactly the values 1..8 and inverts `Value`. */
  lemma ValueRoundTrip(s: Season, v: int)
    ensures FromValue(Value(s)) == Some(s)
    ensures 1 <= Value(s) <= 8
    ensures FromValue(v).Some? <==> 1 <= v <= 8
    ensures FromValue(v).Some? ==> Value(FromValue(v).value) == v
  {
  }

  /** Every name is `S`, four digits, `_` and two digits. */
  lemma NameShape(s: Season)
    ensures |Name(s)| == 8 && Name(s)[0] == 'S' && Name(s)[5] == '_'
    ensures forall i :: 1 <= i < 8 && i != 5 ==> '0' <= Name(s)[i] <= '9'
  {
  }

  lemma DecimalValueOfFour(ds: string)
    requires |ds| == 4
    ensures DecimalValue(ds) == 1000 * DigitValue(ds[0]) + 100 * DigitValue(ds[1]) + 10 * DigitValue(ds[2]) + DigitValue(ds[3])
  {
    DecimalValueOfTwo(ds[..2]);
    assert ds[..3][..2] == ds[..2];
    assert DecimalValue(ds[..3]) == DecimalValue(ds[..2]) * 10 + DigitValue(ds[2]);
  }

  lemma DecimalValueOfTwo(ds: string)
    requires |ds| == 2
    ensures DecimalValue(ds) == 10 * DigitValue(ds[0]) + DigitValue(ds[1])
  {
    assert ds[..1][..0] == [];
    assert DecimalValue(ds[..1]) == DigitValue(ds[0]);
  }

  /** The members are numbered in chronological order: the value is the
      starting year written in the name, counted from 2016, and the name's
      last two digits are the following year. */
  lemma ValueIsChronological(s: Season)
    ensures Value(s) == DecimalValue(Name(s)[1..5]) - 2015
    ensures DecimalValue(Name(s)[6..8]) == (DecimalValue(Name(s)[1..5]) + 1) % 100
  {
    NameShape(s);
    DecimalValueOfFour(Name(s)[1..5]);
    DecimalValueOfTwo(Name(s)[6..8]);
  }

  /** The display string drops the leading `S` and shows the years with a slash. */
  lemma ReprExample()
    ensures Repr(S2016_17) == "2016/17"
    ensures Repr(S2023_24) == "2023/24"
  {
    ReprIs(S2016_17, "2016/17");
    ReprIs(S2023_24, "2023/24");
  }

  /** A string is the display string when it is the name, shifted by one,
      with `/` in place of `_`. */
  lemma ReprIs(s: Season, shown: string)
    requires |shown| == 7
    requires forall i :: 0 <= i < 7 ==> shown[i] == (if Name(s)[i + 1] == '_' then '/' else Name(s)[i + 1])
    ensures Repr(s) == shown
  {
    NameShape(s);
  }

  /** Reading the display string back gives the season, so no two seasons share one. */
  lemma ReprRoundTrip(s: Season, t: Season)
    ensures ParseRepr(Repr(s)) == Some(s)
    ensures Repr(s) == Repr(t) ==> s == t
  {
    ParseReprOfRepr(s);
    ParseReprOfRepr(t);
  }

  lemma ParseReprOfRepr(s: Season)
    ensures ParseRepr(Repr(s)) == Some(s)
  {
    var r := Repr(s);
    NameShape(s);
    assert r[..4] == Name(s)[1..5];
    ValueIsChronological(s);
    ValueRoundTrip(s, 0);
  }
}

=== FILE: efficient.dfy ===
/** The `Efficient` optimiser: for each position in turn, take the
    best-value players of that position until its quota is met, charging
    their cost to the position's budget and carrying what is left (possibly
    negative) over to the next position. */
module EfficientOptimiser {

  import opened Wrappers
  import opened Players
  import opened Squads
  import opened Seqs
  import opened BaseOptimiser
  import Analysis

  /** How the `while` loop of `greedy_add` ends: with the players it added
      and the position budget left, with an IndexError once the position's
      rows run out, or never, when the best remaining row fails the club
      rule (the loop then retries that same row forever). */
  datatype GreedyOutcome = Added(players: seq<Player>, leftover: real) | Exhausted | Loops

  /** The loop of `greedy_add` over the position's rows in value order.
      The club rule looks at `squad`, the players of the earlier positions:
      players taken in this loop are not in it yet. */
  function GreedyLoop(subset: seq<Row>, squad: seq<Player>, budget: real, n: nat): (r: GreedyOutcome)
    requires forall i :: 0 <= i < |subset| ==> HasPosition(subset[i])
    ensures r.Added? <==> n <= |subset| && ClubRuleUpTo(squad, subset, n)
    ensures r.Exhausted? <==> |subset| < n && ClubRuleUpTo(squad, subset, n)
    ensures r.Added? ==> |r.players| == n && forall i :: 0 <= i < n ==> r.players[i] == RowPlayer(subset[i])
    ensures r.Added? ==> r.leftover == budget - TotalCost(r.players) as real
    decreases |subset|
  {
    if n == 0 then Added([], budget)
    else if |subset| == 0 then Exhausted
    else
      var p := RowPlayer(subset[0]);
      if !ClubRule(squad, p) then Loops
      else
        var rest := GreedyLoop(subset[1..], squad, budget - p.cost as real, n - 1);
        GreedyStep(subset, squad, budget, n, rest);
        Prepend(p, rest)
  }

  /** The outcome of the loop once the row `p` has been taken before `r`. */
  function Prepend(p: Player, r: GreedyOutcome): GreedyOutcome {
    match r
    case Added(ps, left) => Added([p] + ps, left)
    case Exhausted => Exhausted
    case Loops => Loops
  }

  /** The club rule holds for each of the first `k` rows there are. */
  predicate ClubRuleUpTo(squad: seq<Player>, subset: seq<Row>, k: nat)
    requires forall i :: 0 <= i < |subset| ==> HasPosition(subset[i])
  {
    forall i :: 0 <= i < k && i < |subset| ==> ClubRule(squad, RowPlayer(subset[i]))
  }

  lemma ClubRuleUpToTail(squad: seq<Player>, subset: seq<Row>, k: nat)
    requires forall i :: 0 <= i < |subset| ==> HasPosition(subset[i])
    requires |subset| > 0 && k > 0
    ensures ClubRuleUpTo(squad, subset, k) <==>
      ClubRule(squad, RowPlayer(subset[0])) && ClubRuleUpTo(squad, subset[1..], k - 1)
  {
    var tail := subset[1..];
    if ClubRule(squad, RowPlayer(subset[0])) && ClubRuleUpTo(squad, tail, k - 1) {
      forall i | 0 <= i < k && i < |subset| ensures ClubRule(squad, RowPlayer(subset[i])) {
        if i > 0 {
          assert subset[i] == tail[i - 1];
        }
      }
    }
    if ClubRuleUpTo(squad, subset, k) {
      forall i | 0 <= i < k - 1 && i < |tail| ensures ClubRule(squad, RowPlayer(tail[i])) {
        assert tail[i] == subset[i + 1];
      }
    }
  }

  /** One row of the loop: the facts about the rest give the facts about all. */
  lemma GreedyStep(subset: seq<Row>, squad: seq<Player>, budget: real, n: nat, r: GreedyOutcome)
    requires forall i :: 0 <= i < |subset| ==> HasPosition(subset[i])
    requires n > 0 && |subset| > 0 && ClubRule(squad, RowPlayer(subset[0]))
    requires var tail := subset[1..];
      var p := RowPlayer(subset[0]);
      && (r.Added? <==> n - 1 <= |tail| && ClubRuleUpTo(squad, tail, n - 1))
      && (r.Exhausted? <==> |tail| < n - 1 && ClubRuleUpTo(squad, tail, n - 1))
      && (r.Added? ==> |r.players| == n - 1 && forall i :: 0 <= i < n - 1 ==> r.players[i] == RowPlayer(tail[i]))
      && (r.Added? ==> r.leftover == budget - p.cost as real - TotalCost(r.players) as real)
    ensures var q := Prepend(RowPlayer(subset[0]), r);
      && (q.Added? <==> n <= |subset| && ClubRuleUpTo(squad, subset, n))
      && (q.Exhausted? <==> |subset| < n && ClubRuleUpTo(squad, subset, n))
      && (q.Added? ==> |q.players| == n && forall i :: 0 <= i < n ==> q.players[i] == RowPlayer(subset[i]))
      && (q.Added? ==> q.leftover == budget - TotalCost(q.players) as real)
  {
    ClubRuleUpToTail(squad, subset, n);
    if r.Added? {
      PrependPlayers(subset, r.players, n);
      var p := RowPlayer(subset[0]);
      CountsOfConcat([p], r.players);
      assert TotalCost([p]) == p.cost;
    }
  }

  lemma PrependPlayers(subset: seq<Row>, ps: seq<Player>, n: nat)
    requires forall i :: 0 <= i < |subset| ==> HasPosition(subset[i])
    requires n > 0 && |subset| > 0 && n - 1 <= |subset| - 1
    requires |ps| == n - 1 && forall i :: 0 <= i < n - 1 ==> ps[i] == RowPlayer(subset[1..][i])
    ensures var q := [RowPlayer(subset[0])] + ps;
      |q| == n && forall i :: 0 <= i < n ==> q[i] == RowPlayer(subset[i])
  {
    var q := [RowPlayer(subset[0])] + ps;
    forall i | 0 <= i < n ensures q[i] == RowPlayer(subset[i]) {
      if i > 0 {
        assert q[i] == ps[i - 1] && subset[1..][i - 1] == subset[i];
      }
    }
  }

  /** `greedy_add(df, position, pos_budget, num_to_add)`: the rows of the
      position, best value first, fed to the loop. The budget is only
      decremented, never compared with a cost. */
  function GreedyAdd(ranked: seq<Row>, pos: Position, squad: seq<Player>, budget: real, n: nat): (r: GreedyOutcome)
    ensures var sub := RowsOf(ranked, pos);
      && (r.Added? <==> n <= |sub| && ClubRuleUpTo(squad, sub, n))
      && (r.Exhausted? <==> |sub| < n && ClubRuleUpTo(squad, sub, n))
    ensures r.Added? ==> |r.players| == n
    ensures r.Added? ==> forall i :: 0 <= i < n ==>
      r.players[i] == RowPlayer(RowsOf(ranked, pos)[i]) && r.players[i].position == pos
    ensures r.Added? ==> r.leftover == budget - TotalCost(r.players) as real
  {
    GreedyLoop(RowsOf(ranked, pos), squad, budget, n)
  }

  /** When the loop succeeds it takes exactly the `n` best-value players of the
      position, in value order, whatever the budget. */
  lemma GreedyAddTakesBestOfPosition(ranked: seq<Row>, pos: Position, squad: seq<Player>, budget: real, n: nat)
    requires RankedByValue(ranked)
    requires GreedyAdd(ranked, pos, squad, budget, n).Added?
    ensures var ps := GreedyAdd(ranked, pos, squad, budget, n).players;
      && |ps| == n
      && (forall i :: 0 <= i < n ==> ps[i].position == pos)
      && (forall i :: 0 <= i < n ==> ps[i] == RowPlayer(RowsOf(ranked, pos)[i]))
      && Descending(RowsOf(ranked, pos)[..n], Value)
      && (forall i, j :: 0 <= i < n <= j < |RowsOf(ranked, pos)| ==> Value(RowsOf(ranked, pos)[i]) >= Value(RowsOf(ranked, pos)[j]))
  {
    var sub := RowsOf(ranked, pos);
    Analysis.WithCodeKeepsDescending(ranked, PositionValue(pos), Value);
    assert Descending(sub, Value);
  }

  /** The club rule inside one position ignores the players that position
      has already taken: `n` rows of one club absent from `squad` are all
      taken, so a position can bring more than three players of one club. */
  lemma GreedyLoopIgnoresOwnPicks(subset: seq<Row>, squad: seq<Player>, budget: real, n: nat, club: int)
    requires forall i :: 0 <= i < |subset| ==> HasPosition(subset[i])
    requires n <= |subset|
    requires forall i :: 0 <= i < n ==> subset[i].team == club
    requires CountClub(squad, club) == 0
    ensures GreedyLoop(subset, squad, budget, n).Added?
    ensures CountClub(GreedyLoop(subset, squad, budget, n).players, club) == n
  {
    forall i | 0 <= i < n ensures ClubRule(squad, RowPlayer(subset[i])) {
      assert RowPlayer(subset[i]).team == club;
    }
    assert ClubRuleUpTo(squad, subset, n);
    var ps := GreedyLoop(subset, squad, budget, n).players;
    forall i | 0 <= i < |ps| ensures ps[i].team == club {
      assert ps[i] == RowPlayer(subset[i]);
    }
    CountOfOneClub(ps, club);
  }

  /** A list whose players all belong to one club counts them all for it. */
  lemma {:induction false} CountOfOneClub(s: seq<Player>, club: int)
    requires forall i :: 0 <= i < |s| ==> s[i].team == club
    ensures CountClub(s, club) == |s|
  {
    if |s| > 0 {
      CountOfOneClub(s[..|s| - 1], club);
    }
  }

  /** Quota places of position `q` the listed positions ask for. */
  function QuotaOver(positions: seq<Position>, q: Position): nat {
    if |positions| == 0 then 0
    else (if positions[0] == q then Quota(q) else 0) + QuotaOver(positions[1..], q)
  }

  function BudgetOver(b: Breakdown, positions: seq<Position>): real {
    if |positions| == 0 then 0.0 else b.Get(positions[0]) + BudgetOver(b, positions[1..])
  }

  /** The players `greedy_add` takes for one position when it returns: the
      position's first `Quota(pos)` rows in value order. */
  function PicksOf(ranked: seq<Row>, pos: Position): seq<Player> {
    RowPlayers(Head(RowsOf(ranked, pos), Quota(pos)))
  }

  /** The picks of the listed positions, one position after the other. */
  function Picks(ranked: seq<Row>, positions: seq<Position>): seq<Player>
    decreases |positions|
  {
    if |positions| == 0 then [] else PicksOf(ranked, positions[0]) + Picks(ranked, positions[1..])
  }

  /** `greedy_add` returns for a position's quota exactly when the position
      has that many rows and each of them passes the club rule against the
      players of the earlier positions. No budget takes part. */
  predicate PositionFills(ranked: seq<Row>, pos: Position, squad: seq<Player>) {
    var sub := RowsOf(ranked, pos);
    Quota(pos) <= |sub| && ClubRuleUpTo(squad, sub, Quota(pos))
  }

  /** `greedy_add` for a position's quota returns exactly when the position fills. */
  lemma GreedyAddFills(ranked: seq<Row>, pos: Position, squad: seq<Player>, budget: real)
    ensures GreedyAdd(ranked, pos, squad, budget, Quota(pos)).Added? <==> PositionFills(ranked, pos, squad)
  {
  }

  /** The loop of `optimise` gets through the listed positions: each one in
      turn fills against the picks of the positions before it. */
  predicate FillsAll(ranked: seq<Row>, positions: seq<Position>, squad: seq<Player>)
    decreases |positions|
  {
    |positions| == 0 ||
      (PositionFills(ranked, positions[0], squad)
       && FillsAll(ranked, positions[1..], squad + PicksOf(ranked, positions[0])))
  }

  /** One round of the loop decides `FillsAll` for the whole list:
      `greedy_add` returns for the first position exactly when it fills, and
      then the rest must fill after its picks. */
  lemma FillsAllStep(ranked: seq<Row>, positions: seq<Position>, squad: seq<Player>, g: GreedyOutcome, restOk: bool)
    requires |positions| > 0
    requires g.Added? <==> PositionFills(ranked, positions[0], squad)
    requires g.Added? ==> g.players == PicksOf(ranked, positions[0])
    requires g.Added? ==> (restOk <==> FillsAll(ranked, positions[1..], squad + g.players))
    ensures g.Added? && restOk <==> FillsAll(ranked, positions, squad)
  {
  }

  /** A `greedy_add` that returns for a position's quota takes exactly its picks. */
  lemma GreedyAddIsPicks(ranked: seq<Row>, pos: Position, squad: seq<Player>, budget: real)
    requires GreedyAdd(ranked, pos, squad, budget, Quota(pos)).Added?
    ensures GreedyAdd(ranked, pos, squad, budget, Quota(pos)).players == PicksOf(ranked, pos)
  {
    var ps := GreedyAdd(ranked, pos, squad, budget, Quota(pos)).players;
    DecodedPrefix(RowsOf(ranked, pos), Quota(pos), ps);
  }

  /** A list decoding the first `n` rows pointwise is the decoding of their head. */
  lemma DecodedPrefix(sub: seq<Row>, n: nat, ps: seq<Player>)
    requires forall i :: 0 <= i < |sub| ==> HasPosition(sub[i])
    requires n <= |sub| && |ps| == n
    requires forall i :: 0 <= i < n ==> ps[i] == RowPlayer(sub[i])
    ensures ps == RowPlayers(Head(sub, n))
  {
    var h := Head(sub, n);
    assert h == sub[..n];
    var picks := RowPlayers(h);
    forall i | 0 <= i < n ensures ps[i] == picks[i] {
      assert h[i] == sub[i];
    }
  }

  /** One round of `FillPositions` appends the first position's picks. */
  lemma PicksStep(ranked: seq<Row>, positions: seq<Position>, squad: seq<Player>, ps: seq<Player>, fin: seq<Player>)
    requires |positions| > 0 && ps == PicksOf(ranked, positions[0])
    requires fin == squad + ps + Picks(ranked, positions[1..])
    ensures fin == squad + Picks(ranked, positions)
  {
    PicksUnfold(ranked, positions);
    ConcatAssoc(squad, ps, Picks(ranked, positions[1..]));
  }

  /** Regrouping a concatenation of three lists. */
  lemma ConcatAssoc<T>(a: seq<T>, b: seq<T>, c: seq<T>)
    ensures a + b + c == a + (b + c)
  {
  }

  /** Why `Efficient.optimise` does not return. */
  datatype EfficientError = PositionExhausted(pos: Position) | NeverReturns(pos: Position)

  /** The loop of `optimise` over the positions still to fill: each position
      gets its own budget plus the previous position's leftover. The result
      holds the squad and the last leftover. */
  function FillPositions(ranked: seq<Row>, positions: seq<Position>, b: Breakdown, squad: seq<Player>, wiggle: real)
    : (r: Result<(seq<Player>, real), EfficientError>)
    ensures r.Success? ==> |r.value.0| >= |squad| && r.value.0[..|squad|] == squad
    ensures r.Success? <==> FillsAll(ranked, positions, squad)
    ensures r.Success? ==> r.value.0 == squad + Picks(ranked, positions)
    ensures r.Success? ==> forall q :: q in positions ==> Quota(q) <= |RowsOf(ranked, q)|
    ensures r.Success? ==> forall q :: CountPosition(r.value.0, q) == CountPosition(squad, q) + QuotaOver(positions, q)
    ensures r.Success? ==> r.value.1 == wiggle + BudgetOver(b, positions) - (TotalCost(r.value.0) - TotalCost(squad)) as real
    decreases |positions|
  {
    if |positions| == 0 then Success((squad, wiggle))
    else
      var pos := positions[0];
      match GreedyAdd(ranked, pos, squad, b.Get(pos) + wiggle, Quota(pos))
      case Exhausted =>
        GreedyAddFills(ranked, pos, squad, b.Get(pos) + wiggle);
        FillsAllStep(ranked, positions, squad, Exhausted, false);
        Failure(PositionExhausted(pos))
      case Loops =>
        GreedyAddFills(ranked, pos, squad, b.Get(pos) + wiggle);
        FillsAllStep(ranked, positions, squad, Loops, false);
        Failure(NeverReturns(pos))
      case Added(ps, left) =>
        GreedyAddIsPicks(ranked, pos, squad, b.Get(pos) + wiggle);
        GreedyAddFills(ranked, pos, squad, b.Get(pos) + wiggle);
        var r := FillPositions(ranked, positions[1..], b, squad + ps, left);
        FillsAllStep(ranked, positions, squad, Added(ps, left), r.Success?);
        if r.Success? then
          FillStep(squad, ps, r.value.0, positions, b, wiggle, left, r.value.1);
          PicksStep(ranked, positions, squad, ps, r.value.0);
          r
        else r
  }

  /** One round of `FillPositions`: the facts about the position just filled
      and the rounds after it give the facts about the whole. */
  lemma FillStep(squad: seq<Player>, ps: seq<Player>, rest: seq<Player>, positions: seq<Position>,
                 b: Breakdown, wiggle: real, left: real, last: real)
    requires |positions| > 0
    requires |ps| == Quota(positions[0]) && forall i :: 0 <= i < |ps| ==> ps[i].position == positions[0]
    requires left == b.Get(positions[0]) + wiggle - TotalCost(ps) as real
    requires |rest| >= |squad + ps| && rest[..|squad + ps|] == squad + ps
    requires forall q :: CountPosition(rest, q) == CountPosition(squad + ps, q) + QuotaOver(positions[1..], q)
    requires last == left + BudgetOver(b, positions[1..]) - (TotalCost(rest) - TotalCost(squad + ps)) as real
    ensures |rest| >= |squad| && rest[..|squad|] == squad
    ensures forall q :: CountPosition(rest, q) == CountPosition(squad, q) + QuotaOver(positions, q)
    ensures last == wiggle + BudgetOver(b, positions) - (TotalCost(rest) - TotalCost(squad)) as real
  {
    assert rest[..|squad|] == (squad + ps)[..|squad|];
    CountsOfConcat(squad, ps);
    forall q ensures CountPosition(rest, q) == CountPosition(squad, q) + QuotaOver(positions, q) {
      CountOfUniform(ps, positions[0], q);
    }
  }

  /** The four positions ask for fifteen places in their quotas and for the
      whole breakdown. */
  lemma AllPositionsTotals(b: Breakdown)
    ensures forall q :: QuotaOver(AllPositions, q) == Quota(q)
    ensures BudgetOver(b, AllPositions) == b.Sum()
  {
    var ps := AllPositions;
    assert ps[1..] == [DEF, MID, FWD];
    assert ps[1..][1..] == [MID, FWD];
    assert ps[1..][1..][1..] == [FWD];
    assert ps[1..][1..][1..][1..] == [];
    assert BudgetOver(b, [FWD]) == b.fwd;
    assert BudgetOver(b, [MID, FWD]) == b.mid + b.fwd;
    assert BudgetOver(b, [DEF, MID, FWD]) == b.def + b.mid + b.fwd;
  }

  /** `Efficient.optimise(df)` with the rows in value order. */
  function Optimise(ranked: seq<Row>, b: Breakdown): (r: Result<seq<Player>, EfficientError>)
    requires RankedByValue(ranked)
    ensures r.Success? ==> |r.value| == SquadSize && SquadPositionsOk(r.value)
    ensures r.Success? ==> r.value == PicksOf(ranked, GK) + PicksOf(ranked, DEF) + PicksOf(ranked, MID) + PicksOf(ranked, FWD)
  {
    match FillPositions(ranked, AllPositions, b, [], 0.0)
    case Success(res) =>
      FilledSquadFacts(ranked, res.0);
      Success(res.0)
    case Failure(e) => Failure(e)
  }

  /** A fact about every listed position holds for all four when all four
      are listed. */
  lemma EveryPositionListed(ranked: seq<Row>, positions: seq<Position>)
    requires positions == AllPositions
    requires forall q :: q in positions ==> Quota(q) <= |RowsOf(ranked, q)|
    ensures forall q :: Quota(q) <= |RowsOf(ranked, q)|
  {
    forall q ensures Quota(q) <= |RowsOf(ranked, q)| {
      assert q == positions[0] || q == positions[1] || q == positions[2] || q == positions[3];
    }
  }

  /** A squad that the loop over all four positions built from nothing. */
  lemma FilledSquadFacts(ranked: seq<Row>, s: seq<Player>)
    requires s == [] + Picks(ranked, AllPositions)
    requires forall q :: CountPosition(s, q) == CountPosition([], q) + QuotaOver(AllPositions, q)
    ensures |s| == SquadSize && SquadPositionsOk(s)
    ensures s == PicksOf(ranked, GK) + PicksOf(ranked, DEF) + PicksOf(ranked, MID) + PicksOf(ranked, FWD)
  {
    AllPositionsTotals(Breakdown(0.0, 0.0, 0.0, 0.0));
    PositionCountsSum(s);
    PicksOfAll(ranked);
  }

  /** The picks of all four positions: keepers, defenders, midfielders, forwards. */
  lemma PicksOfAll(ranked: seq<Row>)
    ensures Picks(ranked, AllPositions) == PicksOf(ranked, GK) + PicksOf(ranked, DEF) + PicksOf(ranked, MID) + PicksOf(ranked, FWD)
  {
    assert AllPositions[1..] == [DEF, MID, FWD];
    assert [DEF, MID, FWD][1..] == [MID, FWD];
    assert [MID, FWD][1..] == [FWD];
    assert [FWD][1..] == [];
    PicksUnfold(ranked, AllPositions);
    PicksUnfold(ranked, [DEF, MID, FWD]);
    PicksUnfold(ranked, [MID, FWD]);
    PicksUnfold(ranked, [FWD]);
    ConcatFour(PicksOf(ranked, GK), PicksOf(ranked, DEF), PicksOf(ranked, MID), PicksOf(ranked, FWD), Picks(ranked, []));
  }

  /** Regrouping a concatenation of four lists that ends in the empty list. */
  lemma ConcatFour<T>(a: seq<T>, b: seq<T>, c: seq<T>, d: seq<T>, e: seq<T>)
    requires e == []
    ensures a + (b + (c + (d + e))) == a + b + c + d
  {
  }

  /** The picks of a list of positions start with the first position's. */
  lemma PicksUnfold(ranked: seq<Row>, positions: seq<Position>)
    requires |positions| > 0
    ensures Picks(ranked, positions) == PicksOf(ranked, positions[0]) + Picks(ranked, positions[1..])
  {
  }

  /** When `Efficient` returns, every position had enough rows, and each
      position's picks are its `Quota` best-value players: no row of the
      position left out has a higher value than a row taken. */
  lemma OptimiseTakesBestOfEachPosition(ranked: seq<Row>, b: Breakdown, q: Position)
    requires RankedByValue(ranked)
    requires Optimise(ranked, b).Success?
    ensures Quota(q) <= |RowsOf(ranked, q)|
    ensures |PicksOf(ranked, q)| == Quota(q)
    ensures forall i :: 0 <= i < Quota(q) ==> PicksOf(ranked, q)[i] == RowPlayer(RowsOf(ranked, q)[i])
    ensures forall i, j :: 0 <= i < Quota(q) <= j < |RowsOf(ranked, q)| ==>
      Value(RowsOf(ranked, q)[i]) >= Value(RowsOf(ranked, q)[j])
  {
    OptimiseHasQuotaRows(ranked, b);
    PicksOfRows(ranked, q);
    Analysis.WithCodeKeepsDescending(ranked, PositionValue(q), Value);
    DescendingAcross(RowsOf(ranked, q), Quota(q), Value);
  }

  /** `Efficient` returns exactly when its loop fills all four positions in
      declaration order: each position has its quota of rows, and each of
      those rows passes the club rule against the players of the earlier
      positions (keepers against nobody, defenders against the keepers, and
      so on). */
  lemma OptimiseReturnsWhenEveryPositionFills(ranked: seq<Row>, b: Breakdown)
    requires RankedByValue(ranked)
    ensures Optimise(ranked, b).Success? <==> FillsAll(ranked, AllPositions, [])
  {
    assert Optimise(ranked, b).Success? <==> FillPositions(ranked, AllPositions, b, [], 0.0).Success?;
  }

  /** Whether `Efficient` returns does not depend on the breakdown: `greedy_add`
      never compares a price with a budget. */
  lemma OptimiseReturnsWhateverTheBreakdown(ranked: seq<Row>, b1: Breakdown, b2: Breakdown)
    requires RankedByValue(ranked)
    ensures Optimise(ranked, b1).Success? <==> Optimise(ranked, b2).Success?
  {
    OptimiseReturnsWhenEveryPositionFills(ranked, b1);
    OptimiseReturnsWhenEveryPositionFills(ranked, b2);
  }

  /** `Efficient` returns only when every position had its quota of rows. */
  lemma OptimiseHasQuotaRows(ranked: seq<Row>, b: Breakdown)
    requires RankedByValue(ranked)
    requires Optimise(ranked, b).Success?
    ensures forall q :: Quota(q) <= |RowsOf(ranked, q)|
  {
    assert FillPositions(ranked, AllPositions, b, [], 0.0).Success?;
    EveryPositionListed(ranked, AllPositions);
  }

  /** With enough rows, a position's picks decode its first `Quota` rows. */
  lemma PicksOfRows(ranked: seq<Row>, q: Position)
    requires Quota(q) <= |RowsOf(ranked, q)|
    ensures |PicksOf(ranked, q)| == Quota(q)
    ensures forall i :: 0 <= i < Quota(q) ==> PicksOf(ranked, q)[i] == RowPlayer(RowsOf(ranked, q)[i])
  {
    var sub := RowsOf(ranked, q);
    assert Head(sub, Quota(q)) == sub[..Quota(q)];
  }

  /** In a descending list every element before a cut is at least every
      element after it. */
  lemma DescendingAcross<T>(s: seq<T>, n: nat, key: T -> real)
    requires Descending(s, key) && n <= |s|
    ensures forall i, j :: 0 <= i < n <= j < |s| ==> key(s[i]) >= key(s[j])
  {
  }

  /** What `Efficient` guarantees when it returns: fifteen players with the
      exact position quotas, and the allowance left over is the total of the
      breakdown minus the squad's cost, so it is negative whenever the squad
      costs more than the breakdown. Neither the cost cap nor the club cap is
      guaranteed. */
  lemma OptimiseFillsQuotas(ranked: seq<Row>, b: Breakdown)
    requires RankedByValue(ranked)
    requires Optimise(ranked, b).Success?
    ensures |Optimise(ranked, b).value| == SquadSize
    ensures SquadPositionsOk(Optimise(ranked, b).value)
    ensures FillPositions(ranked, AllPositions, b, [], 0.0).value.1 == b.Sum() - TotalCost(Optimise(ranked, b).value) as real
  {
    var s := Optimise(ranked, b).value;
    AllPositionsTotals(b);
    PositionCountsSum(s);
  }
}

=== FILE: efficientv2.dfy ===
/** The `Efficientv2` optimiser: a forward pass over the table in value
    order that takes every player fitting the position quota, the position's
    sub-budget and the club cap, handing the sub-budget of a filled position
    to the positions still open; then a backward pass that tries to replace
    each team player, lowest points first, with the highest-scoring
    affordable player of the same position. */
module Efficientv2Optimiser {

  import opened Wrappers
  import opened Players
  import opened Squads
  import opened Seqs
  import opened BaseOptimiser

  /** The optimiser's attributes that the passes change. */
  datatype State = State(squad: seq<Player>, team: seq<Player>, budget: int, breakdown: Breakdown)

  datatype V2Error =
    | BreakdownNotBudget          // the constructor's ValueError
    | BudgetNotPositive           // "Budget is negative" in the forward pass
    | UnknownPosition(cause: PlayerError)  // a row whose `element_type` names no position
    | NotInList                   // `list.remove` of a player the list does not hold

  /** `Efficientv2(...)`: the breakdown must add up to the budget of 1000. */
  function New(b: Breakdown): (r: Result<State, V2Error>)
    ensures r.Success? <==> b.Sum() == InitialBudget as real
    ensures r.Failure? ==> r.error == BreakdownNotBudget
  {
    if b.Sum() != InitialBudget as real then Failure(BreakdownNotBudget)
    else Success(State([], [], InitialBudget, b))
  }

  // ---------------------------------------------------------------------
  // Budget redistribution

  /** How many players of each position the squad holds. */
  datatype Tally = Tally(gk: nat, def: nat, mid: nat, fwd: nat) {

    function Get(p: Position): nat {
      match p
      case GK => gk
      case DEF => def
      case MID => mid
      case FWD => fwd
    }
  }

  function TallyOf(squad: seq<Player>): (t: Tally)
    ensures forall p :: t.Get(p) == CountPosition(squad, p)
  {
    Tally(CountPosition(squad, GK), CountPosition(squad, DEF), CountPosition(squad, MID), CountPosition(squad, FWD))
  }

  /** A position whose quota is met and whose sub-budget is positive gives
      that sub-budget up. */
  predicate Reclaimed(t: Tally, b: Breakdown, p: Position) {
    t.Get(p) == Quota(p) && b.Get(p) > 0.0
  }

  /** A position with places still free. */
  predicate Open(t: Tally, p: Position) {
    t.Get(p) < Quota(p)
  }

  function ReclaimedFrom(t: Tally, b: Breakdown, p: Position): real {
    if Reclaimed(t, b, p) then b.Get(p) else 0.0
  }

  /** `wiggle_room`: the total given up. */
  function Wiggle(t: Tally, b: Breakdown): real {
    ReclaimedFrom(t, b, GK) + ReclaimedFrom(t, b, DEF) + ReclaimedFrom(t, b, MID) + ReclaimedFrom(t, b, FWD)
  }

  function Indicator(c: bool): nat {
    if c then 1 else 0
  }

  function ReclaimedCount(t: Tally, b: Breakdown): nat {
    Indicator(Reclaimed(t, b, GK)) + Indicator(Reclaimed(t, b, DEF))
      + Indicator(Reclaimed(t, b, MID)) + Indicator(Reclaimed(t, b, FWD))
  }

  function OpenCount(t: Tally): nat {
    Indicator(Open(t, GK)) + Indicator(Open(t, DEF)) + Indicator(Open(t, MID)) + Indicator(Open(t, FWD))
  }

  /** `num_to_redistribute`: four less one per position given up. An open
      position is never given up, so the divisor is positive whenever some
      position receives a share. */
  function Divisor(t: Tally, b: Breakdown): (num: int)
    ensures OpenCount(t) <= num <= 4
  {
    4 - ReclaimedCount(t, b)
  }

  /** What each open position receives: the given-up total over the divisor. */
  function Share(t: Tally, b: Breakdown): (share: real)
    ensures share >= 0.0
    ensures Wiggle(t, b) == 0.0 ==> share == 0.0
  {
    var w := Wiggle(t, b);
    var num := Divisor(t, b);
    if w > 0.0 && num > 0 then w / num as real else 0.0
  }

  function NewShare(t: Tally, b: Breakdown, p: Position): real {
    if Reclaimed(t, b, p) then 0.0
    else if Open(t, p) then b.Get(p) + Share(t, b)
    else b.Get(p)
  }

  function Spread(t: Tally, b: Breakdown): Breakdown {
    Breakdown(NewShare(t, b, GK), NewShare(t, b, DEF), NewShare(t, b, MID), NewShare(t, b, FWD))
  }

  /** `redistribute_budget()`: filled positions give their positive budget up
      and each open position gets the total divided by the divisor. */
  function Redistribute(squad: seq<Player>, b: Breakdown): (r: Breakdown)
    ensures forall p :: Reclaimed(TallyOf(squad), b, p) ==> r.Get(p) == 0.0
    ensures forall p :: !Open(TallyOf(squad), p) ==> r.Get(p) <= b.Get(p)
    ensures forall p :: Open(TallyOf(squad), p) ==> r.Get(p) >= b.Get(p)
    ensures forall p, q :: Open(TallyOf(squad), p) && Open(TallyOf(squad), q) ==> r.Get(p) - b.Get(p) == r.Get(q) - b.Get(q)
    ensures b.NonNegative() ==> r.NonNegative()
    ensures r.Sum() <= b.Sum()
  {
    var t := TallyOf(squad);
    RedistributionNeverAdds(t, b);
    SpreadPerPosition(t, b);
    Spread(t, b)
  }

  lemma SpreadPerPosition(t: Tally, b: Breakdown)
    ensures forall p :: Reclaimed(t, b, p) ==> Spread(t, b).Get(p) == 0.0
    ensures forall p :: !Open(t, p) ==> Spread(t, b).Get(p) <= b.Get(p)
    ensures forall p :: Open(t, p) ==> Spread(t, b).Get(p) == b.Get(p) + Share(t, b)
    ensures b.NonNegative() ==> Spread(t, b).NonNegative()
  {
    forall p ensures Spread(t, b).Get(p) == NewShare(t, b, p) {
    }
  }

  function ShareIf(c: bool, share: real): real {
    if c then share else 0.0
  }

  /** The total the open positions receive. */
  function Handed(t: Tally, b: Breakdown): real {
    var share := Share(t, b);
    ShareIf(Open(t, GK), share) + ShareIf(Open(t, DEF), share)
      + ShareIf(Open(t, MID), share) + ShareIf(Open(t, FWD), share)
  }

  /** How much the total changes: the open positions share the given-up
      total, but a position that is full with no positive budget still
      counts in the divisor while receiving nothing. */
  lemma RedistributedSum(t: Tally, b: Breakdown)
    ensures Wiggle(t, b) >= 0.0
    ensures Wiggle(t, b) == 0.0 ==> Spread(t, b) == b
    ensures Spread(t, b).Sum() == b.Sum() - Wiggle(t, b) + OpenCount(t) as real * Share(t, b)
  {
    WiggleFacts(t, b);
    SumFormula(t, b);
  }

  /** The total never grows, and it stays the same exactly when nothing is
      given up or every position counted in the divisor is open. */
  lemma RedistributionNeverAdds(t: Tally, b: Breakdown)
    ensures Spread(t, b).Sum() <= b.Sum()
    ensures Spread(t, b).Sum() == b.Sum() <==> Wiggle(t, b) == 0.0 || (OpenCount(t) == Divisor(t, b) && Divisor(t, b) > 0)
  {
    WiggleFacts(t, b);
    SumFormula(t, b);
    SumChange(Spread(t, b).Sum(), b.Sum(), Wiggle(t, b), OpenCount(t), Divisor(t, b), Share(t, b));
  }

  lemma WiggleFacts(t: Tally, b: Breakdown)
    ensures Wiggle(t, b) >= 0.0
    ensures Wiggle(t, b) == 0.0 ==> Spread(t, b) == b
  {
    if Wiggle(t, b) == 0.0 {
      assert forall p :: !Reclaimed(t, b, p);
    }
  }

  lemma SumFormula(t: Tally, b: Breakdown)
    ensures Spread(t, b).Sum() == b.Sum() - Wiggle(t, b) + OpenCount(t) as real * Share(t, b)
  {
    SharesAddUp(t, b);
    HandedIsSharesTimesCount(t, b);
  }

  /** The arithmetic of the total: `k <= num` positions receive a share of
      `w / num` after `w` was taken away. */
  lemma SumChange(after: real, before: real, w: real, k: nat, num: int, share: real)
    requires w >= 0.0 && k <= num <= 4
    requires share == (if w > 0.0 && num > 0 then w / num as real else 0.0)
    requires after == before - w + k as real * share
    ensures after <= before
    ensures after == before <==> w == 0.0 || (k == num && num > 0)
  {
    if w > 0.0 && num > 0 {
      ShareBound(w, k, num);
    } else if w > 0.0 {
      assert k == 0;
    }
  }

  lemma SharesAddUp(t: Tally, b: Breakdown)
    ensures Spread(t, b).Sum() == b.Sum() - Wiggle(t, b) + Handed(t, b)
  {
    var share := Share(t, b);
    forall p ensures NewShare(t, b, p) == b.Get(p) - ReclaimedFrom(t, b, p) + ShareIf(Open(t, p), share) {
    }
  }

  lemma HandedIsSharesTimesCount(t: Tally, b: Breakdown)
    ensures Handed(t, b) == OpenCount(t) as real * Share(t, b)
  {
    SharesTimesCount(Open(t, GK), Open(t, DEF), Open(t, MID), Open(t, FWD), Share(t, b));
  }

  /** Four conditional shares add up to one share per condition that holds. */
  lemma SharesTimesCount(a: bool, b: bool, c: bool, d: bool, share: real)
    ensures ShareIf(a, share) + ShareIf(b, share) + ShareIf(c, share) + ShareIf(d, share)
      == (Indicator(a) + Indicator(b) + Indicator(c) + Indicator(d)) as real * share
  {
    var k := Indicator(a) + Indicator(b) + Indicator(c) + Indicator(d);
    var total := ShareIf(a, share) + ShareIf(b, share) + ShareIf(c, share) + ShareIf(d, share);
    if k == 0 {
      assert total == 0.0;
    } else if k == 1 {
      assert total == share;
    } else if k == 2 {
      assert total == 2.0 * share;
    } else if k == 3 {
      assert total == 3.0 * share;
    } else {
      assert total == 4.0 * share;
    }
  }

  /** `k` shares of `w / num` are at most `w` when `k <= num`, and exactly
      `w` only when `k == num`. */
  lemma ShareBound(w: real, k: nat, num: int)
    requires w > 0.0 && 0 < num <= 4 && k <= num
    ensures k as real * (w / num as real) <= w
    ensures k as real * (w / num as real) == w <==> k == num
  {
    if num == 1 {
    } else if num == 2 {
      if k == 1 { assert w / 2.0 < w; }
    } else if num == 3 {
      if k == 1 { assert w / 3.0 < w; }
      if k == 2 { assert 2.0 * (w / 3.0) < w; }
    } else {
      if k == 1 { assert w / 4.0 < w; }
      if k == 2 { assert 2.0 * (w / 4.0) < w; }
      if k == 3 { assert 3.0 * (w / 4.0) < w; }
    }
  }

  /** Redistributing twice is redistributing once: afterwards no filled
      position has a positive budget left to give. */
  lemma RedistributeIdempotent(squad: seq<Player>, b: Breakdown)
    ensures Redistribute(squad, Redistribute(squad, b)) == Redistribute(squad, b)
  {
    var t := TallyOf(squad);
    var r := Redistribute(squad, b);
    assert forall p :: !Reclaimed(t, r, p);
    assert Wiggle(t, r) == 0.0;
    RedistributedSum(t, r);
  }

  /** Budget can leak: with both keepers picked and their budget spent to
      exactly zero, and the defenders full with 60 left, the 60 is split by
      three but only the two open positions receive a third each. */
  lemma RedistributeCanLoseBudget()
    ensures var b := Breakdown(0.0, 60.0, 100.0, 100.0);
      && Spread(Tally(2, 5, 0, 0), b) == Breakdown(0.0, 0.0, 120.0, 120.0)
      && Spread(Tally(2, 5, 0, 0), b).Sum() < b.Sum()
  {
  }

  // ---------------------------------------------------------------------
  // The invariant of a fresh optimiser

  /** What holds of a fresh optimiser between steps of either pass: the
      quotas and the club cap hold, the sub-budgets are non-negative and add
      up to at most the budget, the budget is 1000 less what the squad costs,
      the team is the squad, and no squad member has a negative price. */
  predicate Inv(st: State) {
    && WithinQuotas(st.squad)
    && ClubsAtMost(st.squad, MaxPerClub)
    && st.breakdown.NonNegative()
    && st.breakdown.Sum() <= st.budget as real
    && st.budget == InitialBudget - TotalCost(st.squad)
    && st.team == st.squad
    && (forall i :: 0 <= i < |st.squad| ==> st.squad[i].cost >= 0)
  }

  /** A fresh optimiser with a non-negative breakdown satisfies the invariant. */
  lemma NewSatisfiesInv(b: Breakdown)
    requires New(b).Success? && b.NonNegative()
    ensures Inv(New(b).value)
    ensures New(b).value.squad == [] && New(b).value.budget == InitialBudget
  {
  }

  /** While the invariant holds the budget never goes below zero, so a full
      squad it describes is a valid squad. */
  lemma InvFullSquadIsValid(st: State)
    requires Inv(st) && |st.squad| == SquadSize
    ensures IsValidSquad(st.squad)
    ensures st.budget >= 0
  {
    BuiltSquadIsValid(st.squad);
  }

  // ---------------------------------------------------------------------
  // Forward pass

  /** `check_position_budget`: the price fits the position's sub-budget. */
  predicate FitsPositionBudget(st: State, p: Player) {
    p.cost as real <= st.breakdown.Get(p.position)
  }

  /** The three tests a candidate must pass in either pass. */
  predicate Admissible(st: State, p: Player) {
    PositionRule(st.squad, p) && FitsPositionBudget(st, p) && ClubRule(st.squad, p)
  }

  /** Appends the player to squad and team and charges both budgets: the
      player's position pays the price, the other positions keep their
      sub-budgets, and the budget left over the sub-budgets stays the same. */
  function Accept(st: State, p: Player): (r: State)
    ensures r.squad == st.squad + [p] && r.team == st.team + [p]
    ensures r.budget == st.budget - p.cost
    ensures r.breakdown.Get(p.position) == st.breakdown.Get(p.position) - p.cost as real
    ensures forall q :: q != p.position ==> r.breakdown.Get(q) == st.breakdown.Get(q)
    ensures r.budget as real - r.breakdown.Sum() == st.budget as real - st.breakdown.Sum()
    ensures FitsPositionBudget(st, p) <==> r.breakdown.Get(p.position) >= 0.0
  {
    SetShiftsSum(st.breakdown, p.position, -(p.cost as real));
    State(st.squad + [p], st.team + [p], st.budget - p.cost,
          st.breakdown.Set(p.position, st.breakdown.Get(p.position) - p.cost as real))
  }

  lemma AcceptKeepsInv(st: State, p: Player)
    requires Inv(st) && Admissible(st, p) && p.cost >= 0
    ensures Inv(Accept(st, p))
    ensures |Accept(st, p).squad| == |st.squad| + 1
  {
    RulesKeepLimits(st.squad, p);
    SetShiftsSum(st.breakdown, p.position, -(p.cost as real));
    var s := st.squad + [p];
    assert s[..|s| - 1] == st.squad;
  }

  lemma RedistributeKeepsInv(st: State)
    requires Inv(st)
    ensures Inv(st.(breakdown := Redistribute(st.squad, st.breakdown)))
  {
  }

  /** One row of the forward pass keeps the invariant. */
  lemma ForwardStepKeepsInv(st: State, rows: seq<Row>, p: Player)
    requires |rows| > 0 && FromPandasRow(rows[0]) == Success(p)
    requires Inv(st) && CostsNonNegative(rows)
    ensures CostsNonNegative(rows[1..]) && Inv(ForwardNext(st, p))
  {
    var st1 := st.(breakdown := Redistribute(st.squad, st.breakdown));
    RedistributeKeepsInv(st);
    assert p.cost == rows[0].nowCost;
    if Admissible(st1, p) {
      AcceptKeepsInv(st1, p);
    }
    assert CostsNonNegative(rows[1..]) by {
      forall i | 0 <= i < |rows[1..]| ensures rows[1..][i].nowCost >= 0 {
        assert rows[1..][i] == rows[i + 1];
      }
    }
  }

  /** The state after one row of the forward pass: redistributed, and with
      the row's player taken when admissible. */
  function ForwardNext(st: State, p: Player): State {
    var st1 := st.(breakdown := Redistribute(st.squad, st.breakdown));
    if Admissible(st1, p) then Accept(st1, p) else st1
  }

  /** The loop of `forward_pass` over the rows in value order: it stops at
      fifteen players, redistributes before every row, fails once the budget
      is not positive, decodes the row, and takes the player if admissible.
      It only appends, every player it appends is decoded from one of the
      rows, and from the invariant it keeps the invariant. */
  function ForwardPass(rows: seq<Row>, st: State): (r: Result<State, V2Error>)
    ensures r.Success? ==> |r.value.squad| >= |st.squad| && r.value.squad[..|st.squad|] == st.squad
    ensures r.Success? ==> forall k :: |st.squad| <= k < |r.value.squad| ==> FromTable(r.value.squad[k], rows)
    ensures r.Failure? ==> r.error == BudgetNotPositive || r.error.UnknownPosition?
    ensures Inv(st) && CostsNonNegative(rows) && r.Success? ==> Inv(r.value)
    decreases |rows|
  {
    if |rows| == 0 || |st.squad| == SquadSize then Success(st)
    else if st.budget <= 0 then Failure(BudgetNotPositive)
    else
      match FromPandasRow(rows[0])
      case Failure(e) => Failure(UnknownPosition(e))
      case Success(p) =>
        var r := ForwardPass(rows[1..], ForwardNext(st, p));
        ForwardStep(rows, st, p, r);
        r
  }

  /** One row of the forward pass: the facts about the rest give the facts about all. */
  lemma ForwardStep(rows: seq<Row>, st: State, p: Player, r: Result<State, V2Error>)
    requires |rows| > 0 && FromPandasRow(rows[0]) == Success(p)
    requires var st2 := ForwardNext(st, p);
      && (r.Success? ==> |r.value.squad| >= |st2.squad| && r.value.squad[..|st2.squad|] == st2.squad)
      && (r.Success? ==> forall k :: |st2.squad| <= k < |r.value.squad| ==> FromTable(r.value.squad[k], rows[1..]))
      && (Inv(st2) && CostsNonNegative(rows[1..]) && r.Success? ==> Inv(r.value))
    ensures r.Success? ==> |r.value.squad| >= |st.squad| && r.value.squad[..|st.squad|] == st.squad
    ensures r.Success? ==> forall k :: |st.squad| <= k < |r.value.squad| ==> FromTable(r.value.squad[k], rows)
    ensures Inv(st) && CostsNonNegative(rows) && r.Success? ==> Inv(r.value)
  {
    if Inv(st) && CostsNonNegative(rows) {
      ForwardStepKeepsInv(st, rows, p);
    }
    ForwardNextAppends(st, p);
    if r.Success? {
      AppendedFromTable(rows, st.squad, ForwardNext(st, p).squad, r.value.squad, p);
    }
  }

  /** One row of the forward pass appends its player or nothing. */
  lemma ForwardNextAppends(st: State, p: Player)
    ensures ForwardNext(st, p).squad == st.squad || ForwardNext(st, p).squad == st.squad + [p]
  {
  }

  /** Provenance over one row: `mid` is `s` or `s` with the row's player, and
      what `fin` appends to `mid` comes from the other rows. */
  lemma AppendedFromTable(rows: seq<Row>, s: seq<Player>, mid: seq<Player>, fin: seq<Player>, p: Player)
    requires |rows| > 0 && FromPandasRow(rows[0]) == Success(p)
    requires mid == s || mid == s + [p]
    requires |fin| >= |mid| && fin[..|mid|] == mid
    requires forall k :: |mid| <= k < |fin| ==> FromTable(fin[k], rows[1..])
    ensures |fin| >= |s| && fin[..|s|] == s
    ensures forall k :: |s| <= k < |fin| ==> FromTable(fin[k], rows)
  {
    assert fin[..|mid|][..|s|] == s;
    forall k | |s| <= k < |fin| ensures FromTable(fin[k], rows) {
      if k < |mid| {
        assert fin[k] == mid[k] == p;
      } else {
        var j :| 0 <= j < |rows[1..]| && FromPandasRow(rows[1..][j]) == Success(fin[k]);
        assert rows[j + 1] == rows[1..][j];
      }
    }
  }

  /** How one row of the forward pass ends: a full squad stops the pass, a
      budget that is not positive raises, and otherwise the pass goes on from
      the redistributed state, with the row's player appended and charged
      to its position exactly when it passes the three tests. */
  lemma ForwardPassStep(rows: seq<Row>, st: State, p: Player)
    requires |rows| > 0 && FromPandasRow(rows[0]) == Success(p)
    ensures |st.squad| == SquadSize ==> ForwardPass(rows, st) == Success(st)
    ensures |st.squad| != SquadSize && st.budget <= 0 ==> ForwardPass(rows, st) == Failure(BudgetNotPositive)
    ensures |st.squad| != SquadSize && st.budget > 0 ==>
      var st1 := st.(breakdown := Redistribute(st.squad, st.breakdown));
      && (Admissible(st1, p) ==> ForwardPass(rows, st) == ForwardPass(rows[1..], Accept(st1, p)))
      && (Admissible(st1, p) && ForwardPass(rows, st).Success? ==> ForwardPass(rows, st).value.squad[|st.squad|] == p)
      && (!Admissible(st1, p) ==> ForwardPass(rows, st) == ForwardPass(rows[1..], st1))
  {
    if |st.squad| != SquadSize && st.budget > 0 {
      var st1 := st.(breakdown := Redistribute(st.squad, st.breakdown));
      if Admissible(st1, p) && ForwardPass(rows, st).Success? {
        var r := ForwardPass(rows[1..], Accept(st1, p)).value;
        assert r.squad[..|st.squad| + 1][|st.squad|] == p;
      }
    }
  }

  /** A squad that does not fill up stays short; nothing tops it up. */
  lemma ForwardPassStopsAtFifteen(rows: seq<Row>, st: State)
    requires Inv(st) && CostsNonNegative(rows)
    requires ForwardPass(rows, st).Success?
    ensures |ForwardPass(rows, st).value.squad| <= SquadSize
    ensures |ForwardPass(rows, st).value.squad| == SquadSize ==> IsValidSquad(ForwardPass(rows, st).value.squad)
  {
    var r := ForwardPass(rows, st).value;
    FullSquadFillsQuotas(r.squad, Player("", GK, 0, 0));
    if |r.squad| == SquadSize {
      InvFullSquadIsValid(r);
    }
  }

  // ---------------------------------------------------------------------
  // Backward pass

  /** `[p.name for p in self.team]`: one name per team player, and exactly
      the team players' names. */
  function TeamNames(team: seq<Player>): (names: seq<string>)
    ensures |names| == |team|
    ensures forall p :: p in team ==> p.name in names
    ensures forall n :: n in names ==> exists p :: p in team && p.name == n
  {
    var names := seq(|team|, i requires 0 <= i < |team| => team[i].name);
    forall p | p in team ensures p.name in names {
      var i :| 0 <= i < |team| && team[i] == p;
      assert names[i] == p.name;
    }
    names
  }

  /** `only_team` sorted by points ascending: the rows whose full name is a
      team player's name, taken from the points ranking and reversed. Every
      such row of the table is there, as often as the table holds it, and
      no other row. */
  function TeamRows(byPoints: seq<Row>, team: seq<Player>): (r: seq<Row>)
    ensures forall i :: 0 <= i < |r| ==> FullName(r[i]) in TeamNames(team)
    ensures forall i :: 0 <= i < |r| ==> r[i] in byPoints
    ensures forall i :: 0 <= i < |byPoints| && FullName(byPoints[i]) in TeamNames(team) ==> byPoints[i] in r
    ensures forall x: Row :: multiset(r)[x] == if FullName(x) in TeamNames(team) then multiset(byPoints)[x] else 0
    ensures RankedByPoints(byPoints) ==> Ascending(r, Points)
  {
    var names := TeamNames(team);
    var keep := (row: Row) => FullName(row) in names;
    var kept := Filter(byPoints, keep);
    TeamRowsOrder(byPoints, names);
    forall x: Row ensures multiset(kept)[x] == if FullName(x) in names then multiset(byPoints)[x] else 0 {
      FilterMultiplicity(byPoints, keep, x);
    }
    var r := Reverse(kept);
    forall i | 0 <= i < |byPoints| && FullName(byPoints[i]) in names ensures byPoints[i] in r {
      assert byPoints[i] in multiset(kept);
    }
    r
  }

  lemma TeamRowsOrder(byPoints: seq<Row>, names: seq<string>)
    ensures RankedByPoints(byPoints) ==> Ascending(Reverse(Filter(byPoints, (row: Row) => FullName(row) in names)), Points)
  {
    if RankedByPoints(byPoints) {
      FilterKeepsDescending(byPoints, (row: Row) => FullName(row) in names, Points);
      ReverseOfDescendingIsAscending(Filter(byPoints, (row: Row) => FullName(row) in names), Points);
    }
  }

  /** A row `available_players` keeps for the leaving player. */
  predicate Affordable(row: Row, st: State, leaving: Player) {
    row.elementType == PositionValue(leaving.position) && row.cost < (st.budget + leaving.cost) as real
  }

  /** `available_players` in points order: the table's rows of the leaving
      player's position whose cost column is below the budget plus the
      leaving player's price, each as often as the table holds it, highest
      points first. */
  function Candidates(byPoints: seq<Row>, st: State, leaving: Player): (r: seq<Row>)
    ensures forall i :: 0 <= i < |r| ==> HasPosition(r[i]) && RowPlayer(r[i]).position == leaving.position
    ensures forall i :: 0 <= i < |r| ==> r[i].cost < (st.budget + leaving.cost) as real && r[i] in byPoints
    ensures forall i :: 0 <= i < |byPoints| && Affordable(byPoints[i], st, leaving) ==> byPoints[i] in r
    ensures forall x: Row :: multiset(r)[x] == if Affordable(x, st, leaving) then multiset(byPoints)[x] else 0
    ensures RankedByPoints(byPoints) ==> Descending(r, Points)
  {
    var keep := (row: Row) => Affordable(row, st, leaving);
    var r := Filter(byPoints, keep);
    PositionValueDecodes(leaving.position);
    forall x: Row ensures multiset(r)[x] == if Affordable(x, st, leaving) then multiset(byPoints)[x] else 0 {
      FilterMultiplicity(byPoints, keep, x);
    }
    CandidatesOrder(byPoints, keep);
    r
  }

  lemma CandidatesOrder(byPoints: seq<Row>, keep: Row -> bool)
    ensures RankedByPoints(byPoints) ==> Descending(Filter(byPoints, keep), Points)
  {
    if RankedByPoints(byPoints) {
      FilterKeepsDescending(byPoints, keep, Points);
    }
  }

  /** `p` is the player of the first candidate that is admissible. */
  predicate IsFirstAdmissible(cands: seq<Row>, st: State, p: Player)
    requires forall i :: 0 <= i < |cands| ==> HasPosition(cands[i])
  {
    exists j :: 0 <= j < |cands| && p == RowPlayer(cands[j]) && forall k :: 0 <= k < j ==> !Admissible(st, RowPlayer(cands[k]))
  }

  /** The inner loop's `break`: the first candidate whose player is admissible. */
  function FirstAdmissible(cands: seq<Row>, st: State): (r: Option<Player>)
    requires forall i :: 0 <= i < |cands| ==> HasPosition(cands[i])
    ensures r.None? <==> forall i :: 0 <= i < |cands| ==> !Admissible(st, RowPlayer(cands[i]))
    ensures r.Some? ==> Admissible(st, r.value)
    ensures r.Some? ==> IsFirstAdmissible(cands, st, r.value)
  {
    if |cands| == 0 then None
    else if Admissible(st, RowPlayer(cands[0])) then Some(RowPlayer(cands[0]))
    else
      var r := FirstAdmissible(cands[1..], st);
      FirstAdmissibleOfTail(cands, st, r);
      r
  }

  /** When the first candidate fails, the first admissible candidate of the
      rest is the first admissible candidate of all. */
  lemma FirstAdmissibleOfTail(cands: seq<Row>, st: State, r: Option<Player>)
    requires forall i :: 0 <= i < |cands| ==> HasPosition(cands[i])
    requires |cands| > 0 && !Admissible(st, RowPlayer(cands[0]))
    requires r.None? <==> forall i :: 0 <= i < |cands[1..]| ==> !Admissible(st, RowPlayer(cands[1..][i]))
    requires r.Some? ==> IsFirstAdmissible(cands[1..], st, r.value)
    ensures r.None? <==> forall i :: 0 <= i < |cands| ==> !Admissible(st, RowPlayer(cands[i]))
    ensures r.Some? ==> IsFirstAdmissible(cands, st, r.value)
  {
    if r.Some? {
      var j :| 0 <= j < |cands[1..]| && r.value == RowPlayer(cands[1..][j])
        && forall k :: 0 <= k < j ==> !Admissible(st, RowPlayer(cands[1..][k]));
      assert r.value == RowPlayer(cands[j + 1]);
      forall k | 0 <= k < j + 1 ensures !Admissible(st, RowPlayer(cands[k])) {
        if k > 0 { assert cands[k] == cands[1..][k - 1]; }
      }
    } else {
      forall i | 0 <= i < |cands| ensures !Admissible(st, RowPlayer(cands[i])) {
        if i > 0 { assert cands[i] == cands[1..][i - 1]; }
      }
    }
  }

  /** The replacement: `remove` the leaving player from squad and team, append the
      new one to both, and move the prices between the budgets. */
  function Swap(st: State, leaving: Player, np: Player): (r: Result<State, V2Error>)
    ensures r.Failure? <==> leaving !in st.squad || leaving !in st.team
    ensures r.Failure? ==> r.error == NotInList
    ensures r.Success? ==> r.value.budget == st.budget + leaving.cost - np.cost
    ensures r.Success? ==> |r.value.squad| == |st.squad| && r.value.squad[|st.squad| - 1] == np
    ensures r.Success? ==> multiset(r.value.squad) == multiset(st.squad) - multiset{leaving} + multiset{np}
    ensures r.Success? ==> |r.value.team| == |st.team| && r.value.team[|st.team| - 1] == np
    ensures r.Success? ==> multiset(r.value.team) == multiset(st.team) - multiset{leaving} + multiset{np}
    ensures r.Success? ==> forall q ::
      r.value.breakdown.Get(q) == st.breakdown.Get(q)
        + (if q == leaving.position then leaving.cost as real else 0.0)
        - (if q == np.position then np.cost as real else 0.0)
  {
    match (RemoveFirst(st.squad, leaving), RemoveFirst(st.team, leaving))
    case (None, _) => Failure(NotInList)
    case (_, None) => Failure(NotInList)
    case (Some(s), Some(t)) =>
      var b1 := st.breakdown.Set(leaving.position, st.breakdown.Get(leaving.position) + leaving.cost as real);
      var b2 := b1.Set(np.position, b1.Get(np.position) - np.cost as real);
      Success(State(s + [np], t + [np], st.budget + leaving.cost - np.cost, b2))
  }

  /** Counts after replacing one occurrence of `leaving` by `np`. */
  lemma {:induction false} ReplaceCounts(s: seq<Player>, rem: seq<Player>, leaving: Player, np: Player)
    requires leaving in s && multiset(rem) == multiset(s) - multiset{leaving}
    ensures forall q :: CountPosition(rem + [np], q) + Indicator(leaving.position == q) == CountPosition(s, q) + Indicator(np.position == q)
    ensures forall c :: CountClub(rem + [np], c) + Indicator(leaving.team == c) == CountClub(s, c) + Indicator(np.team == c)
    ensures TotalCost(rem + [np]) == TotalCost(s) - leaving.cost + np.cost
    ensures forall x :: x in rem ==> x in s
  {
    assert multiset(rem + [leaving]) == multiset(s);
    CountsOfPermutation(rem + [leaving], s);
    CountsOfConcat(rem, [leaving]);
    CountsOfConcat(rem, [np]);
    forall x | x in rem ensures x in s {
      assert x in multiset(rem);
    }
  }

  /** The club cap survives the replacement when the newcomer passed the club rule. */
  lemma ReplaceKeepsClubs(s: seq<Player>, rem: seq<Player>, leaving: Player, np: Player)
    requires leaving in s && multiset(rem) == multiset(s) - multiset{leaving}
    requires ClubsAtMost(s, MaxPerClub) && ClubRule(s, np)
    ensures ClubsAtMost(rem + [np], MaxPerClub)
  {
    ReplaceCounts(s, rem, leaving, np);
    var s' := rem + [np];
    forall i | 0 <= i < |s'| ensures CountClub(s', s'[i].team) <= MaxPerClub {
      if i < |rem| {
        assert s'[i] == rem[i] && rem[i] in rem;
        var k :| 0 <= k < |s| && s[k] == rem[i];
        assert CountClub(s, s[k].team) <= MaxPerClub;
      }
    }
  }

  /** A swap within one position keeps the invariant, with the squad size. */
  lemma SwapKeepsInv(st: State, leaving: Player, np: Player)
    requires Inv(st) && Admissible(st, np) && np.position == leaving.position && np.cost >= 0
    requires Swap(st, leaving, np).Success?
    ensures Inv(Swap(st, leaving, np).value)
    ensures |Swap(st, leaving, np).value.squad| == |st.squad|
  {
    SwapKeepsSquadRules(st, leaving, np);
    SwapKeepsBreakdown(st, leaving, np);
  }

  /** The squad half of the invariant: quotas, club cap, budget, team, prices. */
  lemma SwapKeepsSquadRules(st: State, leaving: Player, np: Player)
    requires Inv(st) && Admissible(st, np) && np.position == leaving.position && np.cost >= 0
    requires Swap(st, leaving, np).Success?
    ensures var st' := Swap(st, leaving, np).value;
      && WithinQuotas(st'.squad)
      && ClubsAtMost(st'.squad, MaxPerClub)
      && st'.budget == InitialBudget - TotalCost(st'.squad)
      && st'.team == st'.squad
      && (forall i :: 0 <= i < |st'.squad| ==> st'.squad[i].cost >= 0)
  {
    var s := st.squad;
    var rem := RemoveFirst(s, leaving).value;
    var st' := Swap(st, leaving, np).value;
    assert st'.squad == rem + [np] && st'.team == st'.squad;
    ReplaceCounts(s, rem, leaving, np);
    ReplaceKeepsClubs(s, rem, leaving, np);
    var oi :| 0 <= oi < |s| && s[oi] == leaving;
    assert leaving.cost >= 0;
    forall i | 0 <= i < |st'.squad| ensures st'.squad[i].cost >= 0 {
      if i < |rem| {
        assert rem[i] in rem;
      }
    }
  }

  /** The breakdown half: the leaving player's price goes back to the
      position and the newcomer's, which fits, is charged to it. */
  lemma SwapKeepsBreakdown(st: State, leaving: Player, np: Player)
    requires Inv(st) && FitsPositionBudget(st, np) && np.position == leaving.position
    requires Swap(st, leaving, np).Success?
    ensures var st' := Swap(st, leaving, np).value;
      st'.breakdown.NonNegative() && st'.breakdown.Sum() <= st'.budget as real
  {
    var pos := leaving.position;
    var b1 := st.breakdown.Set(pos, st.breakdown.Get(pos) + leaving.cost as real);
    var b2 := b1.Set(pos, b1.Get(pos) - np.cost as real);
    assert Swap(st, leaving, np).value.breakdown == b2;
    SetShiftsSum(st.breakdown, pos, leaving.cost as real);
    SetShiftsSum(b1, pos, -(np.cost as real));
    assert b2.Get(pos) >= 0.0;
  }

  /** A swap the backward pass makes keeps the invariant. */
  lemma BackwardStepKeepsInv(st: State, byPoints: seq<Row>, leaving: Player, np: Player)
    requires FirstAdmissible(Candidates(byPoints, st, leaving), st) == Some(np)
    requires Swap(st, leaving, np).Success?
    ensures Inv(st) && CostsNonNegative(byPoints) ==>
      Inv(Swap(st, leaving, np).value) && |Swap(st, leaving, np).value.squad| == |st.squad|
  {
    if Inv(st) && CostsNonNegative(byPoints) {
      var cands := Candidates(byPoints, st, leaving);
      var j :| 0 <= j < |cands| && np == RowPlayer(cands[j]);
      assert cands[j] in byPoints;
      SwapKeepsInv(st, leaving, np);
    }
  }

  /** Every player of `s` was already in the squad of `st` or is decoded from a row. */
  predicate KeptOrFromTable(s: seq<Player>, st: State, byPoints: seq<Row>) {
    forall x :: x in s ==> x in st.squad || FromTable(x, byPoints)
  }

  /** The backward pass's loop over the team rows, lowest points first. It
      fails only on a bad row or a player missing from the lists; its squad
      holds only players it started with or decoded from the table; and from
      the invariant it keeps the invariant and the squad's size. */
  function BackwardLoop(teamRows: seq<Row>, byPoints: seq<Row>, st: State): (r: Result<State, V2Error>)
    ensures r.Failure? ==> r.error == NotInList || r.error.UnknownPosition?
    ensures r.Success? ==> KeptOrFromTable(r.value.squad, st, byPoints)
    ensures Inv(st) && CostsNonNegative(byPoints) && r.Success? ==> Inv(r.value) && |r.value.squad| == |st.squad|
    decreases |teamRows|
  {
    if |teamRows| == 0 then Success(st)
    else
      match FromPandasRow(teamRows[0])
      case Failure(e) => Failure(UnknownPosition(e))
      case Success(leaving) =>
        var cands := Candidates(byPoints, st, leaving);
        match FirstAdmissible(cands, st)
        case None => BackwardLoop(teamRows[1..], byPoints, st)
        case Some(np) =>
          match Swap(st, leaving, np)
          case Failure(e) => Failure(e)
          case Success(st') =>
            var r := BackwardLoop(teamRows[1..], byPoints, st');
            BackwardStepKeepsInv(st, byPoints, leaving, np);
            SwapFromTable(byPoints, st, leaving, np, r);
            r
  }

  /** Provenance over one swap: the newcomer is decoded from a row of the table. */
  lemma SwapFromTable(byPoints: seq<Row>, st: State, leaving: Player, np: Player, r: Result<State, V2Error>)
    requires FirstAdmissible(Candidates(byPoints, st, leaving), st) == Some(np)
    requires Swap(st, leaving, np).Success?
    requires r.Success? ==> KeptOrFromTable(r.value.squad, Swap(st, leaving, np).value, byPoints)
    ensures r.Success? ==> KeptOrFromTable(r.value.squad, st, byPoints)
  {
    if r.Success? {
      var cands := Candidates(byPoints, st, leaving);
      var j :| 0 <= j < |cands| && np == RowPlayer(cands[j]);
      assert cands[j] in byPoints;
      var k :| 0 <= k < |byPoints| && byPoints[k] == cands[j];
      assert FromTable(np, byPoints);
      var mid := Swap(st, leaving, np).value.squad;
      forall x | x in r.value.squad ensures x in st.squad || FromTable(x, byPoints) {
        if x in mid && x != np {
          assert x in multiset(mid);
          assert x in multiset(st.squad);
        }
      }
    }
  }

  /** `np` is the player of a candidate scoring at least as many points as
      every admissible candidate. */
  predicate ScoresMost(cands: seq<Row>, st: State, np: Player)
    requires forall i :: 0 <= i < |cands| ==> HasPosition(cands[i])
  {
    exists j :: 0 <= j < |cands| && np == RowPlayer(cands[j]) && BeatsAdmissible(cands, st, j)
  }

  predicate BeatsAdmissible(cands: seq<Row>, st: State, j: int)
    requires 0 <= j < |cands| && forall i :: 0 <= i < |cands| ==> HasPosition(cands[i])
  {
    forall i :: 0 <= i < |cands| && Admissible(st, RowPlayer(cands[i])) ==> cands[j].points >= cands[i].points
  }

  /** The replacement the inner loop picks scores at least as many points
      as every admissible candidate, when the candidates are in points order. */
  lemma FirstAdmissibleScoresMost(cands: seq<Row>, st: State, np: Player)
    requires forall i :: 0 <= i < |cands| ==> HasPosition(cands[i])
    requires Descending(cands, Points)
    requires FirstAdmissible(cands, st) == Some(np)
    ensures ScoresMost(cands, st, np)
  {
    var j :| 0 <= j < |cands| && np == RowPlayer(cands[j]) && forall k :: 0 <= k < j ==> !Admissible(st, RowPlayer(cands[k]));
    forall i | 0 <= i < |cands| && Admissible(st, RowPlayer(cands[i])) ensures cands[j].points >= cands[i].points {
      assert !(i < j);
      if i > j {
        assert Points(cands[j]) >= Points(cands[i]);
      }
    }
  }

  /** How one team row of the backward loop ends: a row with no position
      raises; a row with no admissible candidate leaves the state as it is
      for the next row; otherwise the first admissible candidate, which
      scores most among the admissible ones, replaces the leaving player
      before the next row, or the loop fails when that player is not in
      the lists. */
  lemma BackwardLoopStep(teamRows: seq<Row>, byPoints: seq<Row>, st: State)
    requires |teamRows| > 0
    ensures !HasPosition(teamRows[0]) ==> BackwardLoop(teamRows, byPoints, st).Failure?
    ensures HasPosition(teamRows[0]) && !FindsReplacement(teamRows[0], byPoints, st) ==>
      BackwardLoop(teamRows, byPoints, st) == BackwardLoop(teamRows[1..], byPoints, st)
    ensures FindsReplacement(teamRows[0], byPoints, st) ==>
      var leaving := RowPlayer(teamRows[0]);
      var np := FirstAdmissible(Candidates(byPoints, st, leaving), st).value;
      && Admissible(st, np) && np.position == leaving.position
      && (RankedByPoints(byPoints) ==> ScoresMost(Candidates(byPoints, st, leaving), st, np))
      && (Swap(st, leaving, np).Failure? ==> BackwardLoop(teamRows, byPoints, st) == Failure(NotInList))
      && (Swap(st, leaving, np).Success? ==> BackwardLoop(teamRows, byPoints, st) == BackwardLoop(teamRows[1..], byPoints, Swap(st, leaving, np).value))
  {
    if FindsReplacement(teamRows[0], byPoints, st) {
      var leaving := RowPlayer(teamRows[0]);
      var cands := Candidates(byPoints, st, leaving);
      var np := FirstAdmissible(cands, st).value;
      if RankedByPoints(byPoints) {
        FirstAdmissibleScoresMost(cands, st, np);
      }
    }
  }

  /** `backward_pass()` with players compared by their fields, over the team
      rows from the points ranking. */
  function BackwardPass(byPoints: seq<Row>, st: State): (r: Result<State, V2Error>)
    ensures r.Failure? ==> r.error == NotInList || r.error.UnknownPosition?
    ensures r.Success? ==> KeptOrFromTable(r.value.squad, st, byPoints)
    ensures Inv(st) && CostsNonNegative(byPoints) && r.Success? ==> Inv(r.value) && |r.value.squad| == |st.squad|
  {
    BackwardLoop(TeamRows(byPoints, st.team), byPoints, st)
  }

  /** The position rule is tested while the leaving player is still in the squad,
      so once every position is full no candidate passes it and the backward
      pass changes nothing. */
  lemma {:induction false} FullSquadIsNotChanged(teamRows: seq<Row>, byPoints: seq<Row>, st: State)
    requires Inv(st) && |st.squad| == SquadSize
    requires forall i :: 0 <= i < |teamRows| ==> HasPosition(teamRows[i])
    ensures BackwardLoop(teamRows, byPoints, st) == Success(st)
    decreases |teamRows|
  {
    if |teamRows| > 0 {
      var leaving := RowPlayer(teamRows[0]);
      var cands := Candidates(byPoints, st, leaving);
      forall i | 0 <= i < |cands| ensures !Admissible(st, RowPlayer(cands[i])) {
        FullSquadFillsQuotas(st.squad, RowPlayer(cands[i]));
      }
      FullSquadIsNotChanged(teamRows[1..], byPoints, st);
    }
  }

  /** A team row finds a replacement: it decodes, and some candidate for it passes. */
  predicate FindsReplacement(row: Row, byPoints: seq<Row>, st: State) {
    HasPosition(row) && FirstAdmissible(Candidates(byPoints, st, RowPlayer(row)), st).Some?
  }

  /** The loop as written: `Player` objects compare by identity, and the old
      player is a new object decoded from its row, so it is never in the
      squad and `remove` raises as soon as a replacement is found. */
  function BackwardLoopAsWritten(teamRows: seq<Row>, byPoints: seq<Row>, st: State): (r: Result<State, V2Error>)
    ensures r.Success? ==> r.value == st
    ensures r == Success(st) <==> NoneReplaced(teamRows, byPoints, st)
    decreases |teamRows|
  {
    if |teamRows| == 0 then Success(st)
    else
      match FromPandasRow(teamRows[0])
      case Failure(e) => Failure(UnknownPosition(e))
      case Success(leaving) =>
        match FirstAdmissible(Candidates(byPoints, st, leaving), st)
        case None => BackwardLoopAsWritten(teamRows[1..], byPoints, st)
        case Some(_) => Failure(NotInList)
  }

  /** Every team row decodes and none finds a replacement. */
  predicate NoneReplaced(teamRows: seq<Row>, byPoints: seq<Row>, st: State)
    decreases |teamRows|
  {
    |teamRows| == 0 ||
    (HasPosition(teamRows[0]) && !FindsReplacement(teamRows[0], byPoints, st) && NoneReplaced(teamRows[1..], byPoints, st))
  }

  /** As written the backward pass fails on the first team row with a
      replacement, where the intended pass (players compared by their
      fields) swaps the player in: the squad then holds the replacement in
      the leaving player's place and the budget is adjusted by the price gap. */
  lemma AsWrittenFailsWhereSwapSucceeds(teamRows: seq<Row>, byPoints: seq<Row>, st: State)
    requires |teamRows| > 0 && FindsReplacement(teamRows[0], byPoints, st)
    requires RowPlayer(teamRows[0]) in st.squad && RowPlayer(teamRows[0]) in st.team
    ensures BackwardLoopAsWritten(teamRows, byPoints, st) == Failure(NotInList)
    ensures var leaving := RowPlayer(teamRows[0]);
      var np := FirstAdmissible(Candidates(byPoints, st, leaving), st).value;
      && Swap(st, leaving, np).Success?
      && Swap(st, leaving, np).value.squad[|st.squad| - 1] == np
      && Swap(st, leaving, np).value.budget == st.budget + leaving.cost - np.cost
      && BackwardLoop(teamRows, byPoints, st) == BackwardLoop(teamRows[1..], byPoints, Swap(st, leaving, np).value)
  {
  }

  /** Where the as-written pass returns, the intended pass returns the same. */
  lemma {:induction false} AsWrittenAgreesWhenNothingIsReplaced(teamRows: seq<Row>, byPoints: seq<Row>, st: State)
    requires BackwardLoopAsWritten(teamRows, byPoints, st).Success?
    ensures BackwardLoop(teamRows, byPoints, st) == Success(st)
    decreases |teamRows|
  {
    if |teamRows| > 0 {
      AsWrittenAgreesWhenNothingIsReplaced(teamRows[1..], byPoints, st);
    }
  }

  // ---------------------------------------------------------------------
  // The whole optimiser

  /** `optimise(df)`: the squad is replaced by the list `_get_cheap_players`
      returns, then the two passes run. `byValue` and `byPoints` are the
      table in value order and in points order. */
  function Optimise(st: State, f: Formation, byValue: seq<Row>, byPoints: seq<Row>): (r: Result<State, V2Error>)
    requires RankedByValue(byValue) && RankedByPoints(byPoints)
    requires multiset(byValue) == multiset(byPoints)
    ensures r.Failure? ==> r.error != BreakdownNotBudget
    ensures r.Success? ==> forall x :: x in r.value.squad ==> FromTable(x, byPoints)
    ensures Inv(st.(squad := [])) && CostsNonNegative(byPoints) && r.Success? ==> Inv(r.value) && |r.value.squad| <= SquadSize
  {
    var cheap := GetCheapPlayers(st.squad, byValue, f);
    var st0 := st.(squad := cheap.1);
    var fw := ForwardPass(byValue, st0);
    var r := if fw.Failure? then Failure(fw.error) else BackwardPass(byPoints, fw.value);
    NeverBreakdownError(fw, r, byPoints);
    if fw.Failure? || r.Failure? then r
    else
      PassesFromTable(byValue, byPoints, fw.value, r.value.squad);
      PassesKeepInv(byValue, byPoints, st0, fw.value, r);
      r
  }

  /** The forward pass's players come from the value ranking, which holds the
      same rows as the points ranking, and the backward pass keeps them or
      takes players from the table. */
  lemma PassesFromTable(byValue: seq<Row>, byPoints: seq<Row>, fw: State, s: seq<Player>)
    requires multiset(byValue) == multiset(byPoints)
    requires forall k :: 0 <= k < |fw.squad| ==> FromTable(fw.squad[k], byValue)
    requires KeptOrFromTable(s, fw, byPoints)
    ensures forall x :: x in s ==> FromTable(x, byPoints)
  {
    forall x | x in s ensures FromTable(x, byPoints) {
      if x in fw.squad {
        var k :| 0 <= k < |fw.squad| && fw.squad[k] == x;
        SameRowsFromTable(x, byValue, byPoints);
      }
    }
  }

  /** Two orderings of the same rows offer the same players. */
  lemma SameRowsFromTable(x: Player, a: seq<Row>, b: seq<Row>)
    requires multiset(a) == multiset(b) && FromTable(x, a)
    ensures FromTable(x, b)
  {
    var j :| 0 <= j < |a| && FromPandasRow(a[j]) == Success(x);
    assert a[j] in multiset(b);
    var i :| 0 <= i < |b| && b[i] == a[j];
  }

  /** Both passes keep the invariant, and the squad never exceeds fifteen. */
  lemma PassesKeepInv(byValue: seq<Row>, byPoints: seq<Row>, st0: State, fw: State, r: Result<State, V2Error>)
    requires multiset(byValue) == multiset(byPoints)
    requires ForwardPass(byValue, st0) == Success(fw)
    requires r == BackwardPass(byPoints, fw)
    ensures Inv(st0) && CostsNonNegative(byPoints) && r.Success? ==> Inv(r.value) && |r.value.squad| <= SquadSize
  {
    if Inv(st0) && CostsNonNegative(byPoints) && r.Success? {
      forall i | 0 <= i < |byValue| ensures byValue[i].nowCost >= 0 {
        assert byValue[i] in multiset(byPoints);
      }
      FullSquadFillsQuotas(r.value.squad, Player("", GK, 0, 0));
    }
  }

  /** Neither pass reports the constructor's error. */
  lemma NeverBreakdownError(fwr: Result<State, V2Error>, r: Result<State, V2Error>, byPoints: seq<Row>)
    requires fwr.Failure? ==> fwr.error == BudgetNotPositive || fwr.error.UnknownPosition?
    requires r == if fwr.Failure? then Failure(fwr.error) else BackwardPass(byPoints, fwr.value)
    ensures r.Failure? ==> r.error != BreakdownNotBudget
  {
  }

  /** The squad the optimiser held before `optimise` plays no part in the result. */
  lemma OptimiseIgnoresHeldSquad(st: State, held: seq<Player>, f: Formation, byValue: seq<Row>, byPoints: seq<Row>)
    requires RankedByValue(byValue) && RankedByPoints(byPoints)
    requires multiset(byValue) == multiset(byPoints)
    ensures Optimise(st.(squad := held), f, byValue, byPoints) == Optimise(st.(squad := []), f, byValue, byPoints)
  {
  }

  /** What a fresh `Efficientv2` returns: the forward pass starts from an
      empty squad whatever the formation; the squad keeps the quotas, the
      club cap and the budget; it can be short of fifteen; and when it is
      full it is a valid squad that the backward pass left alone. */
  lemma OptimiseFromFreshState(b: Breakdown, f: Formation, byValue: seq<Row>, byPoints: seq<Row>)
    requires New(b).Success? && b.NonNegative()
    requires RankedByValue(byValue) && RankedByPoints(byPoints)
    requires multiset(byValue) == multiset(byPoints)
    requires CostsNonNegative(byPoints)
    requires forall i :: 0 <= i < |byPoints| ==> HasPosition(byPoints[i])
    requires Optimise(New(b).value, f, byValue, byPoints).Success?
    ensures var st := New(b).value;
      var fw := ForwardPass(byValue, st);
      var r := Optimise(st, f, byValue, byPoints).value;
      && fw.Success?
      && Inv(r)
      && |r.squad| <= SquadSize
      && TotalCost(r.squad) <= InitialBudget
      && (|r.squad| == SquadSize ==> IsValidSquad(r.squad) && r == fw.value)
  {
    var st := New(b).value;
    NewSatisfiesInv(b);
    assert GetCheapPlayers(st.squad, byValue, f).1 == [];
    assert st.(squad := []) == st;
    forall i | 0 <= i < |byValue| ensures byValue[i].nowCost >= 0 {
      assert byValue[i] in multiset(byPoints);
    }
    var fw := ForwardPass(byValue, st).value;
    ForwardPassStopsAtFifteen(byValue, st);
    var r := Optimise(st, f, byValue, byPoints).value;
    FullSquadFillsQuotas(r.squad, Player("", GK, 0, 0));
    if |r.squad| == SquadSize {
      InvFullSquadIsValid(r);
      var teamRows := TeamRows(byPoints, fw.team);
      forall i | 0 <= i < |teamRows| ensures HasPosition(teamRows[i]) {
        assert teamRows[i] in byPoints;
      }
      FullSquadIsNotChanged(teamRows, byPoints, fw);
    }
  }
}

=== FILE: optimisers.dfy ===
/** The integer-programming optimisers `MIPSquad` and `MIPTeam`: each
    builds a 0/1 program with one variable per table row, asks a solver for
    an optimum and reads the chosen rows back. The solver is modelled by
    exhaustive search over all selections, which returns an optimum whenever
    one exists; which of several optima it returns is a property of the
    search order, not of the program. */
module Optimisers {

  import opened Wrappers
  import opened Players
  import opened Squads
  import opened Seqs

  // ---------------------------------------------------------------------
  // Python values compared with `==`

  /** The two kinds of value the constraint filters compare: integers from
      the table and members of the `Position` enumeration. */
  datatype PyValue = PyInt(i: int) | PyEnum(p: Position)

  /** Python's `==`: an integer never equals an enumeration member. */
  function PyEq(a: PyValue, b: PyValue): (r: bool)
    ensures r <==> a == b
    ensures a.PyInt? && b.PyEnum? ==> !r
  {
    match (a, b)
    case (PyInt(x), PyInt(y)) => x == y
    case (PyEnum(x), PyEnum(y)) => x == y
    case _ => false
  }

  // ---------------------------------------------------------------------
  // 0/1 programs

  datatype Relation = AtMost | Exactly | AtLeast

  /** `sum(coef[i] * y[i]) <relation> bound`. */
  datatype Constraint = Constraint(coef: seq<real>, rel: Relation, bound: real)

  /** Maximise `sum(objective[i] * y[i])` subject to every constraint. */
  datatype Program = Program(objective: seq<real>, constraints: seq<Constraint>)

  /** `sum(c[i] * y[i])`, a missing coefficient counting as zero. */
  function Dot(c: seq<real>, y: seq<bool>): real {
    if |y| == 0 then 0.0
    else Dot(c, y[..|y| - 1]) + (if y[|y| - 1] && |y| - 1 < |c| then c[|y| - 1] else 0.0)
  }

  predicate Holds(k: Constraint, y: seq<bool>) {
    match k.rel
    case AtMost => Dot(k.coef, y) <= k.bound
    case Exactly => Dot(k.coef, y) == k.bound
    case AtLeast => Dot(k.coef, y) >= k.bound
  }

  predicate Feasible(prog: Program, y: seq<bool>) {
    forall k :: 0 <= k < |prog.constraints| ==> Holds(prog.constraints[k], y)
  }

  function Objective(prog: Program, y: seq<bool>): real {
    Dot(prog.objective, y)
  }

  /** The better of two candidate completions; on a tie the first is kept. */
  function Better(prog: Program, a: Option<seq<bool>>, b: Option<seq<bool>>): (r: Option<seq<bool>>)
    ensures r == a || r == b
    ensures r.None? ==> a.None? && b.None?
    ensures r.Some? && a.Some? ==> Objective(prog, a.value) <= Objective(prog, r.value)
    ensures r.Some? && b.Some? ==> Objective(prog, b.value) <= Objective(prog, r.value)
  {
    match (a, b)
    case (None, _) => b
    case (_, None) => a
    case (Some(x), Some(z)) => if Objective(prog, z) > Objective(prog, x) then b else a
  }

  /** The best feasible selection of `n` rows that starts with `prefix`. */
  function Search(prog: Program, n: nat, prefix: seq<bool>): Option<seq<bool>>
    requires |prefix| <= n
    decreases n - |prefix|
  {
    if |prefix| == n then (if Feasible(prog, prefix) then Some(prefix) else None)
    else Better(prog, Search(prog, n, prefix + [false]), Search(prog, n, prefix + [true]))
  }

  /** The search is a correct solver: what it finds is feasible, extends the
      prefix and is at least as good as every feasible selection extending
      the prefix, and it finds nothing only when there is no such selection. */
  lemma {:induction false} SearchIsOptimal(prog: Program, n: nat, prefix: seq<bool>)
    requires |prefix| <= n
    ensures Search(prog, n, prefix).Some? ==>
      var y := Search(prog, n, prefix).value;
      |y| == n && y[..|prefix|] == prefix && Feasible(prog, y)
    ensures forall z :: |z| == n && z[..|prefix|] == prefix && Feasible(prog, z) ==>
      Search(prog, n, prefix).Some? && Objective(prog, z) <= Objective(prog, Search(prog, n, prefix).value)
    decreases n - |prefix|
  {
    if |prefix| < n {
      var f := prefix + [false];
      var t := prefix + [true];
      SearchIsOptimal(prog, n, f);
      SearchIsOptimal(prog, n, t);
      if Search(prog, n, prefix).Some? {
        var y := Search(prog, n, prefix).value;
        if Search(prog, n, prefix) == Search(prog, n, f) {
          assert y[..|f|][..|prefix|] == prefix;
        } else {
          assert y[..|t|][..|prefix|] == prefix;
        }
      }
      forall z | |z| == n && z[..|prefix|] == prefix && Feasible(prog, z)
        ensures Search(prog, n, prefix).Some? && Objective(prog, z) <= Objective(prog, Search(prog, n, prefix).value)
      {
        if z[|prefix|] {
          assert z[..|t|] == t;
        } else {
          assert z[..|f|] == f;
        }
      }
    } else {
      forall z | |z| == n && z[..|prefix|] == prefix && Feasible(prog, z)
        ensures Search(prog, n, prefix).Some? && Objective(prog, z) <= Objective(prog, Search(prog, n, prefix).value)
      {
        assert z == prefix;
      }
    }
  }

  /** `m.optimize()` on a program over `n` binary variables. */
  function Solve(prog: Program, n: nat): (r: Option<seq<bool>>)
    ensures r.Some? ==> |r.value| == n && Feasible(prog, r.value)
    ensures r.None? ==> forall z :: |z| == n ==> !Feasible(prog, z)
    ensures r.Some? ==> forall z :: |z| == n && Feasible(prog, z) ==> Objective(prog, z) <= Objective(prog, r.value)
  {
    SearchIsOptimal(prog, n, []);
    assert forall z: seq<bool> :: z[..0] == [];
    Search(prog, n, [])
  }

  // ---------------------------------------------------------------------
  // Reading the solution back

  /** The value the solver reports for each variable of a selection. */
  function Values(y: seq<bool>): (x: seq<real>)
    ensures |x| == |y|
    ensures forall i :: 0 <= i < |y| ==> x[i] == (if y[i] then 1.0 else 0.0)
  {
    seq(|y|, i requires 0 <= i < |y| => if y[i] then 1.0 else 0.0)
  }

  /** Every row whose variable reads at least 0.99 has a position. */
  predicate Readable(pool: seq<Row>, x: seq<real>)
    requires |x| == |pool|
  {
    forall i :: 0 <= i < |pool| && x[i] >= 0.99 ==> HasPosition(pool[i])
  }

  /** The rows whose variable reads at least 0.99, in table order, decoded. */
  function Readback(pool: seq<Row>, x: seq<real>): (r: Result<seq<Player>, PlayerError>)
    requires |x| == |pool|
    ensures r.Success? <==> Readable(pool, x)
    decreases |pool|
  {
    if |pool| == 0 then Success([])
    else
      ReadableSplit(pool, x);
      var rest :- Readback(pool[..|pool| - 1], x[..|x| - 1]);
      if x[|x| - 1] >= 0.99 then
        var p :- FromPandasRow(pool[|pool| - 1]);
        Success(rest + [p])
      else
        Success(rest)
  }

  lemma ReadableSplit(pool: seq<Row>, x: seq<real>)
    requires |x| == |pool| > 0
    ensures Readable(pool, x) <==>
      Readable(pool[..|pool| - 1], x[..|x| - 1]) && (x[|x| - 1] >= 0.99 ==> HasPosition(pool[|pool| - 1]))
  {
    var n := |pool| - 1;
    if Readable(pool[..n], x[..n]) && (x[n] >= 0.99 ==> HasPosition(pool[n])) {
      forall i | 0 <= i < |pool| && x[i] >= 0.99 ensures HasPosition(pool[i]) {
        if i < n {
          assert pool[..n][i] == pool[i] && x[..n][i] == x[i];
        }
      }
    }
  }

  /** The players of the selected rows, in table order. */
  function Selected(pool: seq<Row>, y: seq<bool>): (s: seq<Player>)
    requires |y| == |pool| && forall i :: 0 <= i < |pool| ==> HasPosition(pool[i])
    ensures |s| <= |pool|
  {
    if |pool| == 0 then []
    else
      var rest := Selected(pool[..|pool| - 1], y[..|y| - 1]);
      if y[|y| - 1] then rest + [RowPlayer(pool[|pool| - 1])] else rest
  }

  /** Solver values within 0.01 of a selection read back as that selection:
      the 0.99 threshold tolerates the solver's rounding. */
  lemma {:induction false} ReadbackTolerates(pool: seq<Row>, y: seq<bool>, x: seq<real>)
    requires |y| == |pool| == |x|
    requires forall i :: 0 <= i < |pool| ==> HasPosition(pool[i])
    requires forall i :: 0 <= i < |x| ==> (if y[i] then 1.0 - x[i] < 0.01 else x[i] < 0.99)
    ensures Readback(pool, x) == Success(Selected(pool, y))
    decreases |pool|
  {
    if |pool| > 0 {
      ReadbackTolerates(pool[..|pool| - 1], y[..|y| - 1], x[..|x| - 1]);
    }
  }

  /** Every selected row has a position. */
  predicate SelectedHavePositions(pool: seq<Row>, y: seq<bool>)
    requires |y| == |pool|
  {
    forall i :: 0 <= i < |pool| && y[i] ==> HasPosition(pool[i])
  }

  /** The solver's values for a selection read back exactly when every
      selected row has a position, and then as the selected players. */
  lemma ReadbackOfSelection(pool: seq<Row>, y: seq<bool>)
    requires |y| == |pool|
    ensures Readback(pool, Values(y)).Success? <==> SelectedHavePositions(pool, y)
    ensures (forall i :: 0 <= i < |pool| ==> HasPosition(pool[i])) ==>
      Readback(pool, Values(y)) == Success(Selected(pool, y))
  {
    var x := Values(y);
    assert Readable(pool, x) <==> SelectedHavePositions(pool, y);
    if forall i :: 0 <= i < |pool| ==> HasPosition(pool[i]) {
      ReadbackTolerates(pool, y, x);
    }
  }

  // ---------------------------------------------------------------------
  // The two programs

  function Indicators(pool: seq<Row>, pick: Row -> bool): (c: seq<real>)
    ensures |c| == |pool|
    ensures forall i :: 0 <= i < |pool| ==> c[i] == (if pick(pool[i]) then 1.0 else 0.0)
  {
    seq(|pool|, i requires 0 <= i < |pool| => if pick(pool[i]) then 1.0 else 0.0)
  }

  function Points(pool: seq<Row>): (c: seq<real>)
    ensures |c| == |pool| && forall i :: 0 <= i < |pool| ==> c[i] == pool[i].points
  {
    seq(|pool|, i requires 0 <= i < |pool| => pool[i].points)
  }

  function Costs(pool: seq<Row>): (c: seq<real>)
    ensures |c| == |pool| && forall i :: 0 <= i < |pool| ==> c[i] == pool[i].cost
  {
    seq(|pool|, i requires 0 <= i < |pool| => pool[i].cost)
  }

  /** The club constraints `for team in range(1, 21)`, from club `first` on. */
  function ClubConstraints(pool: seq<Row>, first: int): (ks: seq<Constraint>)
    requires 1 <= first <= 21
    ensures |ks| == 21 - first
    ensures forall k :: 0 <= k < |ks| ==> ks[k] == Constraint(Indicators(pool, (r: Row) => r.team == first + k), AtMost, 3.0)
    decreases 21 - first
  {
    if first == 21 then []
    else [Constraint(Indicators(pool, (r: Row) => r.team == first), AtMost, 3.0)] + ClubConstraints(pool, first + 1)
  }

  function PositionConstraint(pool: seq<Row>, p: Position): Constraint {
    Constraint(Indicators(pool, (r: Row) => r.elementType == PositionValue(p)), Exactly, Quota(p) as real)
  }

  /** `MIPSquad`'s program: maximise points subject to a cost of at most
      1000, the four position quotas, and at most three players from each
      of the clubs 1 to 20. */
  function SquadProgram(pool: seq<Row>): Program {
    Program(Points(pool),
      [Constraint(Costs(pool), AtMost, BudgetCap as real),
       PositionConstraint(pool, GK), PositionConstraint(pool, DEF),
       PositionConstraint(pool, MID), PositionConstraint(pool, FWD)]
      + ClubConstraints(pool, 1))
  }

  /** `MIPTeam`'s program as written: the row's `element_type`, an integer,
      is compared with members of `Position`. */
  function TeamProgramAsWritten(pool: seq<Row>): (prog: Program)
    ensures |prog.constraints| == 4
    ensures forall k :: 0 <= k < 3 ==> |prog.constraints[k].coef| == |pool|
    ensures forall k, i :: 0 <= k < 3 && 0 <= i < |prog.constraints[k].coef| ==> prog.constraints[k].coef[i] == 0.0
  {
    Program(Points(pool),
      [Constraint(Indicators(pool, (r: Row) => PyEq(PyInt(r.elementType), PyEnum(GK))), Exactly, 1.0),
       Constraint(Indicators(pool, (r: Row) => PyEq(PyInt(r.elementType), PyEnum(DEF))), AtLeast, 3.0),
       Constraint(Indicators(pool, (r: Row) => PyEq(PyInt(r.elementType), PyEnum(FWD))), AtLeast, 1.0),
       Constraint(Indicators(pool, (r: Row) => true), Exactly, TeamSize as real)])
  }

  /** `MIPTeam`'s program comparing with the members' values, as intended:
      one keeper, at least three defenders, at least one forward, eleven
      players. */
  function TeamProgram(pool: seq<Row>): Program {
    Program(Points(pool),
      [Constraint(Indicators(pool, (r: Row) => PyEq(PyInt(r.elementType), PyInt(PositionValue(GK)))), Exactly, 1.0),
       Constraint(Indicators(pool, (r: Row) => PyEq(PyInt(r.elementType), PyInt(PositionValue(DEF)))), AtLeast, 3.0),
       Constraint(Indicators(pool, (r: Row) => PyEq(PyInt(r.elementType), PyInt(PositionValue(FWD)))), AtLeast, 1.0),
       Constraint(Indicators(pool, (r: Row) => true), Exactly, TeamSize as real)])
  }

  // ---------------------------------------------------------------------
  // Sums over a selection and counts over the selected players

  /** Only the coefficients of selected rows count. */
  lemma {:induction false} DotOfUnpicked(c: seq<real>, y: seq<bool>)
    requires forall i :: 0 <= i < |y| && i < |c| && y[i] ==> c[i] == 0.0
    ensures Dot(c, y) == 0.0
  {
    if |y| > 0 {
      DotOfUnpicked(c, y[..|y| - 1]);
    }
  }

  /** A selection's sum of position indicators counts its players of that
      position; its club sum counts its players of that club; its sum of
      ones counts its players; its cost sum is the players' price when the
      cost column is `now_cost`. */
  lemma DotCounts(pool: seq<Row>, y: seq<bool>, p: Position, club: int)
    requires |y| == |pool| && forall i :: 0 <= i < |pool| ==> HasPosition(pool[i])
    ensures Dot(Indicators(pool, (r: Row) => r.elementType == PositionValue(p)), y) == CountPosition(Selected(pool, y), p) as real
    ensures Dot(Indicators(pool, (r: Row) => r.team == club), y) == CountClub(Selected(pool, y), club) as real
    ensures Dot(Indicators(pool, (r: Row) => true), y) == |Selected(pool, y)| as real
    ensures (forall i :: 0 <= i < |pool| ==> pool[i].cost == pool[i].nowCost as real) ==>
      Dot(Costs(pool), y) == TotalCost(Selected(pool, y)) as real
  {
    DotCountsPosition(pool, y, p);
    DotCountsClub(pool, y, club);
    DotCountsSize(pool, y);
    if forall i :: 0 <= i < |pool| ==> pool[i].cost == pool[i].nowCost as real {
      DotCountsCost(pool, y);
    }
  }

  /** The last row of a non-empty table adds its coefficient when selected. */
  lemma DotLast(c: seq<real>, d: seq<real>, y: seq<bool>)
    requires 0 < |y| <= |c| && |d| == |y| - 1 && forall i :: 0 <= i < |d| ==> c[i] == d[i]
    ensures Dot(c, y) == Dot(d, y[..|y| - 1]) + (if y[|y| - 1] then c[|y| - 1] else 0.0)
  {
    DotPrefix(c, d, y[..|y| - 1]);
  }

  /** The selection of a non-empty table: that of the table without its last
      row, followed by the last row's player when it is selected. */
  lemma SelectedLast(pool: seq<Row>, y: seq<bool>)
    requires 0 < |y| == |pool| && forall i :: 0 <= i < |pool| ==> HasPosition(pool[i])
    ensures var rest := Selected(pool[..|pool| - 1], y[..|y| - 1]);
      var s := Selected(pool, y);
      if y[|y| - 1] then |s| == |rest| + 1 && s[..|rest|] == rest && s[|rest|] == RowPlayer(pool[|pool| - 1])
      else s == rest
  {
    var rest := Selected(pool[..|pool| - 1], y[..|y| - 1]);
    if y[|y| - 1] {
      assert (rest + [RowPlayer(pool[|pool| - 1])])[..|rest|] == rest;
    }
  }

  lemma {:induction false} DotCountsPosition(pool: seq<Row>, y: seq<bool>, p: Position)
    requires |y| == |pool| && forall i :: 0 <= i < |pool| ==> HasPosition(pool[i])
    ensures Dot(Indicators(pool, (r: Row) => r.elementType == PositionValue(p)), y) == CountPosition(Selected(pool, y), p) as real
    decreases |pool|
  {
    if |pool| > 0 {
      var pool' := pool[..|pool| - 1];
      DotCountsPosition(pool', y[..|y| - 1], p);
      DotLast(Indicators(pool, (r: Row) => r.elementType == PositionValue(p)), Indicators(pool', (r: Row) => r.elementType == PositionValue(p)), y);
      SelectedLast(pool, y);
      var s := Selected(pool, y);
      if y[|y| - 1] {
        assert s[..|s| - 1] == Selected(pool', y[..|y| - 1]);
        PositionValueRoundTrip(p, s[|s| - 1].position);
      }
    }
  }

  lemma {:induction false} DotCountsClub(pool: seq<Row>, y: seq<bool>, club: int)
    requires |y| == |pool| && forall i :: 0 <= i < |pool| ==> HasPosition(pool[i])
    ensures Dot(Indicators(pool, (r: Row) => r.team == club), y) == CountClub(Selected(pool, y), club) as real
    decreases |pool|
  {
    if |pool| > 0 {
      var pool' := pool[..|pool| - 1];
      DotCountsClub(pool', y[..|y| - 1], club);
      DotLast(Indicators(pool, (r: Row) => r.team == club), Indicators(pool', (r: Row) => r.team == club), y);
      SelectedLast(pool, y);
      var s := Selected(pool, y);
      if y[|y| - 1] {
        assert s[..|s| - 1] == Selected(pool', y[..|y| - 1]);
      }
    }
  }

  lemma {:induction false} DotCountsSize(pool: seq<Row>, y: seq<bool>)
    requires |y| == |pool| && forall i :: 0 <= i < |pool| ==> HasPosition(pool[i])
    ensures Dot(Indicators(pool, (r: Row) => true), y) == |Selected(pool, y)| as real
    decreases |pool|
  {
    if |pool| > 0 {
      var pool' := pool[..|pool| - 1];
      DotCountsSize(pool', y[..|y| - 1]);
      DotLast(Indicators(pool, (r: Row) => true), Indicators(pool', (r: Row) => true), y);
      SelectedLast(pool, y);
    }
  }

  lemma {:induction false} DotCountsCost(pool: seq<Row>, y: seq<bool>)
    requires |y| == |pool| && forall i :: 0 <= i < |pool| ==> HasPosition(pool[i])
    requires forall i :: 0 <= i < |pool| ==> pool[i].cost == pool[i].nowCost as real
    ensures Dot(Costs(pool), y) == TotalCost(Selected(pool, y)) as real
    decreases |pool|
  {
    if |pool| > 0 {
      var pool' := pool[..|pool| - 1];
      DotCountsCost(pool', y[..|y| - 1]);
      DotLast(Costs(pool), Costs(pool'), y);
      SelectedLast(pool, y);
      var s := Selected(pool, y);
      if y[|y| - 1] {
        assert s[..|s| - 1] == Selected(pool', y[..|y| - 1]);
      }
    }
  }

  /** Coefficients beyond the selection's length do not matter. */
  lemma {:induction false} DotPrefix(c: seq<real>, d: seq<real>, y: seq<bool>)
    requires |y| <= |d| <= |c| && forall i :: 0 <= i < |d| ==> c[i] == d[i]
    ensures Dot(c, y) == Dot(d, y)
  {
    if |y| > 0 {
      DotPrefix(c, d, y[..|y| - 1]);
    }
  }

  // ---------------------------------------------------------------------
  // MIPSquad

  datatype MipError = NoSolution | Undecodable(cause: PlayerError)

  /** `MIPSquad.optimise(df)`: the chosen rows are appended to the squad the
      optimiser already holds. Without a solution the readback fails at the
      first row; an empty table has no row to read. */
  function MipSquadOptimise(prior: seq<Player>, pool: seq<Row>): (r: Result<seq<Player>, MipError>)
    ensures r.Success? ==> |r.value| >= |prior| && r.value[..|prior|] == prior
    ensures Solve(SquadProgram(pool), |pool|).None? ==> r == (if |pool| == 0 then Success(prior) else Failure(NoSolution))
    ensures Solve(SquadProgram(pool), |pool|).Some? ==>
      var y := Solve(SquadProgram(pool), |pool|).value;
      && (r.Success? <==> SelectedHavePositions(pool, y))
      && ((forall i :: 0 <= i < |pool| ==> HasPosition(pool[i])) ==> r == Success(prior + Selected(pool, y)))
  {
    match Solve(SquadProgram(pool), |pool|)
    case None => if |pool| == 0 then Success(prior) else Failure(NoSolution)
    case Some(y) =>
      ReadbackOfSelection(pool, y);
      match Readback(pool, Values(y))
      case Failure(e) => Failure(Undecodable(e))
      case Success(chosen) =>
        assert (prior + chosen)[..|prior|] == prior;
        Success(prior + chosen)
  }

  /** A feasible selection of a table whose rows all have a position, whose
      cost column is `now_cost` and whose clubs are numbered 1 to 20, is a
      valid squad. */
  lemma FeasibleSquadIsValid(pool: seq<Row>, y: seq<bool>)
    requires |y| == |pool| && forall i :: 0 <= i < |pool| ==> HasPosition(pool[i])
    requires forall i :: 0 <= i < |pool| ==> pool[i].cost == pool[i].nowCost as real
    requires forall i :: 0 <= i < |pool| ==> 1 <= pool[i].team <= 20
    requires Feasible(SquadProgram(pool), y)
    ensures IsValidSquad(Selected(pool, y))
  {
    FeasibleSquadHasQuotas(pool, y);
    FeasibleSquadKeepsClubCap(pool, y);
  }

  /** The budget and position constraints give the cost cap and the quotas. */
  lemma FeasibleSquadHasQuotas(pool: seq<Row>, y: seq<bool>)
    requires |y| == |pool| && forall i :: 0 <= i < |pool| ==> HasPosition(pool[i])
    requires forall i :: 0 <= i < |pool| ==> pool[i].cost == pool[i].nowCost as real
    requires Feasible(SquadProgram(pool), y)
    ensures var s := Selected(pool, y);
      && |s| == SquadSize && SquadPositionsOk(s) && TotalCost(s) <= BudgetCap
  {
    var s := Selected(pool, y);
    var prog := SquadProgram(pool);
    DotCounts(pool, y, GK, 0);
    DotCounts(pool, y, DEF, 0);
    DotCounts(pool, y, MID, 0);
    DotCounts(pool, y, FWD, 0);
    assert Holds(prog.constraints[0], y);
    assert Holds(prog.constraints[1], y) && Holds(prog.constraints[2], y);
    assert Holds(prog.constraints[3], y) && Holds(prog.constraints[4], y);
    PositionCountsSum(s);
  }

  /** The club constraints give the club cap when every club is numbered 1 to 20. */
  lemma FeasibleSquadKeepsClubCap(pool: seq<Row>, y: seq<bool>)
    requires |y| == |pool| && forall i :: 0 <= i < |pool| ==> HasPosition(pool[i])
    requires forall i :: 0 <= i < |pool| ==> 1 <= pool[i].team <= 20
    requires Feasible(SquadProgram(pool), y)
    ensures ClubsAtMost(Selected(pool, y), MaxPerClub)
  {
    var s := Selected(pool, y);
    var prog := SquadProgram(pool);
    forall i | 0 <= i < |s| ensures CountClub(s, s[i].team) <= MaxPerClub {
      SelectedFromPool(pool, y, i);
      var c := s[i].team;
      DotCountsClub(pool, y, c);
      assert Holds(prog.constraints[5 + (c - 1)], y);
    }
  }

  /** Conversely, a selection that is a valid squad meets every constraint of
      the program, when the cost column is `now_cost`; clubs without a
      selected player count zero. */
  lemma ValidSquadIsFeasible(pool: seq<Row>, y: seq<bool>)
    requires |y| == |pool| && forall i :: 0 <= i < |pool| ==> HasPosition(pool[i])
    requires forall i :: 0 <= i < |pool| ==> pool[i].cost == pool[i].nowCost as real
    requires IsValidSquad(Selected(pool, y))
    ensures Feasible(SquadProgram(pool), y)
  {
    var prog := SquadProgram(pool);
    var ks := ClubConstraints(pool, 1);
    ValidSquadMeetsClubConstraints(pool, y);
    forall k | 0 <= k < |prog.constraints| ensures Holds(prog.constraints[k], y) {
      if k == 0 {
        DotCountsCost(pool, y);
      } else if k < 5 {
        var p := AllPositions[k - 1];
        assert prog.constraints[k] == PositionConstraint(pool, p);
        DotCountsPosition(pool, y, p);
      } else {
        assert prog.constraints[k] == ks[k - 5];
      }
    }
  }

  /** The club cap of a valid squad meets each club constraint. */
  lemma ValidSquadMeetsClubConstraints(pool: seq<Row>, y: seq<bool>)
    requires |y| == |pool| && forall i :: 0 <= i < |pool| ==> HasPosition(pool[i])
    requires ClubsAtMost(Selected(pool, y), MaxPerClub)
    ensures forall k :: 0 <= k < |ClubConstraints(pool, 1)| ==> Holds(ClubConstraints(pool, 1)[k], y)
  {
    var ks := ClubConstraints(pool, 1);
    forall k | 0 <= k < |ks| ensures Holds(ks[k], y) {
      DotCountsClub(pool, y, k + 1);
      ClubsAtMostAnyClub(Selected(pool, y), MaxPerClub, k + 1);
    }
  }

  /** `y` scores at least as many points as every selection that is a valid squad. */
  ghost predicate BestSquadSelection(pool: seq<Row>, y: seq<bool>)
    requires |y| == |pool| && forall i :: 0 <= i < |pool| ==> HasPosition(pool[i])
  {
    forall z :: |z| == |pool| && IsValidSquad(Selected(pool, z)) ==>
      Objective(SquadProgram(pool), z) <= Objective(SquadProgram(pool), y)
  }

  /** A selection that is a valid squad is feasible, so the solver finds a
      selection scoring at least as much. */
  lemma ValidSelectionIsSolved(pool: seq<Row>, z: seq<bool>)
    requires forall i :: 0 <= i < |pool| ==> HasPosition(pool[i])
    requires forall i :: 0 <= i < |pool| ==> pool[i].cost == pool[i].nowCost as real
    requires |z| == |pool| && IsValidSquad(Selected(pool, z))
    ensures |pool| > 0 && Solve(SquadProgram(pool), |pool|).Some?
    ensures Objective(SquadProgram(pool), z) <= Objective(SquadProgram(pool), Solve(SquadProgram(pool), |pool|).value)
  {
    ValidSquadIsFeasible(pool, z);
  }

  /** The solver finds a selection exactly when some selection is a valid
      squad, and what it finds is the valid squad of most points. */
  lemma SquadSolveFindsBestSquad(pool: seq<Row>)
    requires forall i :: 0 <= i < |pool| ==> HasPosition(pool[i])
    requires forall i :: 0 <= i < |pool| ==> pool[i].cost == pool[i].nowCost as real
    requires forall i :: 0 <= i < |pool| ==> 1 <= pool[i].team <= 20
    ensures Solve(SquadProgram(pool), |pool|).Some? <==> exists z :: |z| == |pool| && IsValidSquad(Selected(pool, z))
    ensures Solve(SquadProgram(pool), |pool|).Some? ==>
      var y := Solve(SquadProgram(pool), |pool|).value;
      |pool| > 0 && IsValidSquad(Selected(pool, y)) && BestSquadSelection(pool, y)
  {
    var prog := SquadProgram(pool);
    forall z | |z| == |pool| && IsValidSquad(Selected(pool, z)) ensures Solve(prog, |pool|).Some? {
      ValidSelectionIsSolved(pool, z);
    }
    if Solve(prog, |pool|).Some? {
      var y := Solve(prog, |pool|).value;
      FeasibleSquadIsValid(pool, y);
      forall z | |z| == |pool| && IsValidSquad(Selected(pool, z))
        ensures Objective(prog, z) <= Objective(prog, y)
      {
        ValidSelectionIsSolved(pool, z);
      }
    }
  }

  /** Every selected player comes from a row of the table. */
  lemma {:induction false} SelectedFromPool(pool: seq<Row>, y: seq<bool>, i: int)
    requires |y| == |pool| && forall k :: 0 <= k < |pool| ==> HasPosition(pool[k])
    requires 0 <= i < |Selected(pool, y)|
    ensures exists j :: 0 <= j < |pool| && Selected(pool, y)[i] == RowPlayer(pool[j])
    decreases |pool|
  {
    var pool' := pool[..|pool| - 1];
    var rest := Selected(pool', y[..|y| - 1]);
    if i < |rest| {
      SelectedFromPool(pool', y[..|y| - 1], i);
      var j :| 0 <= j < |pool'| && rest[i] == RowPlayer(pool'[j]);
      assert pool'[j] == pool[j];
    } else {
      assert Selected(pool, y)[i] == RowPlayer(pool[|pool| - 1]);
    }
  }

  /** The club constraints stop at club 20: a selection whose players all
      belong to clubs numbered outside 1 to 20 meets every club constraint,
      however many players of one club it holds. */
  lemma ClubsOutsideOneToTwentyAreUnconstrained(pool: seq<Row>, y: seq<bool>)
    requires |y| == |pool|
    requires forall i :: 0 <= i < |pool| && y[i] ==> pool[i].team < 1 || pool[i].team > 20
    ensures forall k :: 0 <= k < |ClubConstraints(pool, 1)| ==> Holds(ClubConstraints(pool, 1)[k], y)
  {
    var ks := ClubConstraints(pool, 1);
    forall k | 0 <= k < |ks| ensures Holds(ks[k], y) {
      DotOfUnpicked(ks[k].coef, y);
    }
  }

  /** The optimiser keeps its list: a second call on the same table appends
      a second selection to the first, so the result cannot be a squad. */
  lemma SecondCallAppends(pool: seq<Row>)
    requires MipSquadOptimise([], pool).Success?
    requires MipSquadOptimise(MipSquadOptimise([], pool).value, pool).Success?
    ensures var first := MipSquadOptimise([], pool).value;
      var second := MipSquadOptimise(first, pool).value;
      |second| == 2 * |first| && second[..|first|] == first && second[|first|..] == first
  {
    var first := MipSquadOptimise([], pool).value;
    var second := MipSquadOptimise(first, pool).value;
    if Solve(SquadProgram(pool), |pool|).Some? {
      var y := Solve(SquadProgram(pool), |pool|).value;
      var chosen := Readback(pool, Values(y)).value;
      assert first == chosen;
      assert second == first + chosen;
    }
  }

  // ---------------------------------------------------------------------
  // MIPTeam

  /** As written, no selection satisfies the keeper constraint: no integer
      equals `Position.GK`, so its sum is always 0, never 1. */
  lemma MipTeamAsWrittenInfeasible(pool: seq<Row>, y: seq<bool>)
    ensures !Feasible(TeamProgramAsWritten(pool), y)
  {
    var c := Indicators(pool, (r: Row) => PyEq(PyInt(r.elementType), PyEnum(GK)));
    DotOfUnpicked(c, y);
    assert !Holds(TeamProgramAsWritten(pool).constraints[0], y);
  }

  /** `MIPTeam.optimise(df)`: the chosen rows are appended to the team it holds.
      The program is a parameter so that both readings can be stated:
      `TeamProgramAsWritten(pool)` is the program the code builds, with the
      position constraints comparing integers with `Position` members (see
      `MipTeamAsWrittenNeverSelects`); `TeamProgram(pool)` is the intended
      program, comparing with the positions' values (see
      `TeamSolveFindsBestTeam` and the `MipTeamSelection` lemmas). */
  function MipTeamOptimise(prog: Program, prior: seq<Player>, pool: seq<Row>): (r: Result<seq<Player>, MipError>)
    ensures r.Success? ==> |r.value| >= |prior| && r.value[..|prior|] == prior
    ensures Solve(prog, |pool|).None? ==> r == (if |pool| == 0 then Success(prior) else Failure(NoSolution))
    ensures Solve(prog, |pool|).Some? ==>
      var y := Solve(prog, |pool|).value;
      && (r.Success? <==> SelectedHavePositions(pool, y))
      && ((forall i :: 0 <= i < |pool| ==> HasPosition(pool[i])) ==> r == Success(prior + Selected(pool, y)))
  {
    match Solve(prog, |pool|)
    case None => if |pool| == 0 then Success(prior) else Failure(NoSolution)
    case Some(y) =>
      ReadbackOfSelection(pool, y);
      match Readback(pool, Values(y))
      case Failure(e) => Failure(Undecodable(e))
      case Success(chosen) =>
        assert (prior + chosen)[..|prior|] == prior;
        Success(prior + chosen)
  }

  /** As written, `MIPTeam` never returns a team: on any non-empty table the
      readback of the unsolved program fails. */
  lemma MipTeamAsWrittenNeverSelects(prior: seq<Player>, pool: seq<Row>)
    requires |pool| > 0
    ensures MipTeamOptimise(TeamProgramAsWritten(pool), prior, pool) == Failure(NoSolution)
  {
    forall z | |z| == |pool| ensures !Feasible(TeamProgramAsWritten(pool), z) {
      MipTeamAsWrittenInfeasible(pool, z);
    }
  }

  /** With the intended comparison, the selection from a table of squad
      players is a team of that squad: eleven players, one keeper, at least
      three defenders and at least one forward, all from the squad. */
  lemma MipTeamSelectionIsTeam(squad: seq<Player>, pool: seq<Row>, y: seq<bool>)
    requires |y| == |pool| && forall i :: 0 <= i < |pool| ==> HasPosition(pool[i])
    requires forall i :: 0 <= i < |pool| ==> RowPlayer(pool[i]) in squad
    requires Feasible(TeamProgram(pool), y)
    ensures IsValidTeam(squad, Selected(pool, y))
  {
    MipTeamSelectionHasTeamShape(pool, y);
    var t := Selected(pool, y);
    forall i | 0 <= i < |t| ensures t[i] in squad {
      SelectedFromPool(pool, y, i);
    }
  }

  /** With the intended comparison the constraints give a team's shape:
      eleven players, one keeper, at least three defenders, at least one forward. */
  lemma MipTeamSelectionHasTeamShape(pool: seq<Row>, y: seq<bool>)
    requires |y| == |pool| && forall i :: 0 <= i < |pool| ==> HasPosition(pool[i])
    requires Feasible(TeamProgram(pool), y)
    ensures |Selected(pool, y)| == TeamSize && TeamPositionsOk(Selected(pool, y))
  {
    var prog := TeamProgram(pool);
    DotCounts(pool, y, GK, 0);
    DotCounts(pool, y, DEF, 0);
    DotCounts(pool, y, FWD, 0);
    assert Holds(prog.constraints[0], y) && Holds(prog.constraints[1], y);
    assert Holds(prog.constraints[2], y) && Holds(prog.constraints[3], y);
    assert Indicators(pool, (r: Row) => PyEq(PyInt(r.elementType), PyInt(PositionValue(GK))))
      == Indicators(pool, (r: Row) => r.elementType == PositionValue(GK));
    assert Indicators(pool, (r: Row) => PyEq(PyInt(r.elementType), PyInt(PositionValue(DEF))))
      == Indicators(pool, (r: Row) => r.elementType == PositionValue(DEF));
    assert Indicators(pool, (r: Row) => PyEq(PyInt(r.elementType), PyInt(PositionValue(FWD))))
      == Indicators(pool, (r: Row) => r.elementType == PositionValue(FWD));
  }

  /** Conversely, a selection with a team's shape meets every constraint of
      the intended program. */
  lemma TeamShapeIsFeasible(pool: seq<Row>, y: seq<bool>)
    requires |y| == |pool| && forall i :: 0 <= i < |pool| ==> HasPosition(pool[i])
    requires |Selected(pool, y)| == TeamSize && TeamPositionsOk(Selected(pool, y))
    ensures Feasible(TeamProgram(pool), y)
  {
    var prog := TeamProgram(pool);
    DotCountsPosition(pool, y, GK);
    DotCountsPosition(pool, y, DEF);
    DotCountsPosition(pool, y, FWD);
    DotCountsSize(pool, y);
    assert Indicators(pool, (r: Row) => PyEq(PyInt(r.elementType), PyInt(PositionValue(GK))))
      == Indicators(pool, (r: Row) => r.elementType == PositionValue(GK));
    assert Indicators(pool, (r: Row) => PyEq(PyInt(r.elementType), PyInt(PositionValue(DEF))))
      == Indicators(pool, (r: Row) => r.elementType == PositionValue(DEF));
    assert Indicators(pool, (r: Row) => PyEq(PyInt(r.elementType), PyInt(PositionValue(FWD))))
      == Indicators(pool, (r: Row) => r.elementType == PositionValue(FWD));
    assert Holds(prog.constraints[0], y) && Holds(prog.constraints[1], y);
    assert Holds(prog.constraints[2], y) && Holds(prog.constraints[3], y);
  }

  /** `y` scores at least as many points as every selection with a team's shape. */
  ghost predicate BestTeamSelection(pool: seq<Row>, y: seq<bool>)
    requires |y| == |pool| && forall i :: 0 <= i < |pool| ==> HasPosition(pool[i])
  {
    forall z :: |z| == |pool| && |Selected(pool, z)| == TeamSize && TeamPositionsOk(Selected(pool, z)) ==>
      Objective(TeamProgram(pool), z) <= Objective(TeamProgram(pool), y)
  }

  /** With the intended comparison, on a table of squad players the solver
      finds a selection exactly when some selection has a team's shape, and
      what it finds is a team of the squad with the most points. */
  lemma TeamSolveFindsBestTeam(squad: seq<Player>, pool: seq<Row>)
    requires forall i :: 0 <= i < |pool| ==> HasPosition(pool[i])
    requires forall i :: 0 <= i < |pool| ==> RowPlayer(pool[i]) in squad
    ensures Solve(TeamProgram(pool), |pool|).Some? <==>
      exists z :: |z| == |pool| && |Selected(pool, z)| == TeamSize && TeamPositionsOk(Selected(pool, z))
    ensures Solve(TeamProgram(pool), |pool|).Some? ==>
      var y := Solve(TeamProgram(pool), |pool|).value;
      IsValidTeam(squad, Selected(pool, y)) && BestTeamSelection(pool, y)
  {
    var prog := TeamProgram(pool);
    forall z | |z| == |pool| && |Selected(pool, z)| == TeamSize && TeamPositionsOk(Selected(pool, z))
      ensures Solve(prog, |pool|).Some? && Objective(prog, z) <= Objective(prog, Solve(prog, |pool|).value)
    {
      TeamShapeIsFeasible(pool, z);
    }
    if Solve(prog, |pool|).Some? {
      var y := Solve(prog, |pool|).value;
      MipTeamSelectionIsTeam(squad, pool, y);
      MipTeamSelectionHasTeamShape(pool, y);
    }
  }
}

=== FILE: player.dfy ===
/** Players: the four-way `Position` enumeration, the `Player` record built
    from one row of the player table, and counts over lists of players that
    the squad rules and the optimisers share. */
module Players {

  import opened Wrappers

  /** Playing positions; `PositionValue` gives the enumeration's values. */
  datatype Position = GK | DEF | MID | FWD

  /** The positions in declaration order, the order `for position in Position` visits them. */
  const AllPositions: seq<Position> := [GK, DEF, MID, FWD]

  function PositionValue(p: Position): int {
    match p
    case GK => 1
    case DEF => 2
    case MID => 3
    case FWD => 4
  }

  /** Raised by `Position(code)` when no member has the value `code`. */
  datatype PlayerError = InvalidPosition(code: int)

  /** `Position(code)`: the member whose value is `code`. */
  function PositionFromValue(code: int): (r: Result<Position, PlayerError>)
    ensures r.Success? <==> 1 <= code <= 4
    ensures r.Success? ==> PositionValue(r.value) == code
    ensures r.Failure? ==> r.error == InvalidPosition(code)
  {
    if code == 1 then Success(GK)
    else if code == 2 then Success(DEF)
    else if code == 3 then Success(MID)
    else if code == 4 then Success(FWD)
    else Failure(InvalidPosition(code))
  }

  /** The values 1..4 name the four positions and nothing else does. */
  lemma PositionValueRoundTrip(p: Position, q: Position)
    ensures PositionFromValue(PositionValue(p)) == Success(p)
    ensures PositionValue(p) == PositionValue(q) ==> p == q
    ensures 1 <= PositionValue(p) <= 4
  {
  }

  /** A player: display name, position, cost in budget units and club id.
      Two players are the same player when all four fields agree. */
  datatype Player = Player(name: string, position: Position, cost: int, team: int)

  /** `repr(player)`. */
  function Repr(p: Player): string {
    p.name
  }

  /** One row of the player table. `cost` and `points` hold the values of the
      cost and points columns an optimiser is configured with; `nowCost` is the
      fixed `now_cost` column. */
  datatype Row = Row(
    firstName: string,
    secondName: string,
    elementType: int,
    nowCost: int,
    team: int,
    totalPoints: int,
    cost: real,
    points: real)

  /** `first_name + " " + second_name`. */
  function FullName(r: Row): string {
    r.firstName + " " + r.secondName
  }

  /** `Player.from_pandas_row`: the position is decoded from `element_type`,
      the cost is always `now_cost`, the club is `team`. */
  function FromPandasRow(r: Row): (res: Result<Player, PlayerError>)
    ensures res.Success? <==> 1 <= r.elementType <= 4
    ensures res.Failure? ==> res.error == InvalidPosition(r.elementType)
    ensures res.Success? ==>
      && PositionValue(res.value.position) == r.elementType
      && res.value.cost == r.nowCost
      && res.value.team == r.team
      && |res.value.name| == |r.firstName| + 1 + |r.secondName|
      && res.value.name[..|r.firstName|] == r.firstName
      && res.value.name[|r.firstName|] == ' '
      && res.value.name[|r.firstName| + 1..] == r.secondName
      && Repr(res.value) == res.value.name
  {
    var position :- PositionFromValue(r.elementType);
    Success(Player(FullName(r), position, r.nowCost, r.team))
  }

  /** A row whose `element_type` names a position. */
  predicate HasPosition(r: Row) {
    1 <= r.elementType <= 4
  }

  /** `from_pandas_row` on a row known to have a valid position. */
  function RowPlayer(r: Row): (p: Player)
    requires HasPosition(r)
    ensures FromPandasRow(r) == Success(p)
  {
    FromPandasRow(r).value
  }

  /** `from_pandas_row` on each of a list of rows known to have valid positions. */
  function RowPlayers(rows: seq<Row>): (ps: seq<Player>)
    requires forall i :: 0 <= i < |rows| ==> HasPosition(rows[i])
    ensures |ps| == |rows|
    ensures forall i :: 0 <= i < |rows| ==> ps[i] == RowPlayer(rows[i])
  {
    seq(|rows|, i requires 0 <= i < |rows| => RowPlayer(rows[i]))
  }

  /** `[Player.from_pandas_row(row) for row in rows]`: fails on the first bad row. */
  function FromPandasRows(rows: seq<Row>): (r: Result<seq<Player>, PlayerError>)
    ensures r.Success? <==> forall i :: 0 <= i < |rows| ==> HasPosition(rows[i])
    ensures r.Success? ==> |r.value| == |rows| && forall i :: 0 <= i < |rows| ==> r.value[i] == RowPlayer(rows[i])
  {
    if |rows| == 0 then Success([])
    else
      var p :- FromPandasRow(rows[0]);
      var rest :- FromPandasRows(rows[1..]);
      Success([p] + rest)
  }

  // Counts over a list of players, `Counter`-style.

  function CountPosition(s: seq<Player>, p: Position): nat {
    if |s| == 0 then 0
    else CountPosition(s[..|s| - 1], p) + (if s[|s| - 1].position == p then 1 else 0)
  }

  function CountClub(s: seq<Player>, club: int): nat {
    if |s| == 0 then 0
    else CountClub(s[..|s| - 1], club) + (if s[|s| - 1].team == club then 1 else 0)
  }

  function TotalCost(s: seq<Player>): int {
    if |s| == 0 then 0 else TotalCost(s[..|s| - 1]) + s[|s| - 1].cost
  }

  /** Every club in the list has at most `cap` players in it. */
  predicate ClubsAtMost(s: seq<Player>, cap: nat) {
    forall i :: 0 <= i < |s| ==> CountClub(s, s[i].team) <= cap
  }

  lemma {:induction false} CountsOfConcat(a: seq<Player>, b: seq<Player>)
    ensures forall p :: CountPosition(a + b, p) == CountPosition(a, p) + CountPosition(b, p)
    ensures forall c :: CountClub(a + b, c) == CountClub(a, c) + CountClub(b, c)
    ensures TotalCost(a + b) == TotalCost(a) + TotalCost(b)
    decreases |b|
  {
    if |b| > 0 {
      var b' := b[..|b| - 1];
      assert (a + b)[..|a + b| - 1] == a + b';
      CountsOfConcat(a, b');
    } else {
      assert a + b == a;
    }
  }

  /** The four position counts add up to the list's length. */
  lemma {:induction false} PositionCountsSum(s: seq<Player>)
    ensures CountPosition(s, GK) + CountPosition(s, DEF) + CountPosition(s, MID) + CountPosition(s, FWD) == |s|
  {
    if |s| > 0 {
      PositionCountsSum(s[..|s| - 1]);
    }
  }

  lemma {:induction false} CountClubOfMember(s: seq<Player>, i: int)
    requires 0 <= i < |s|
    ensures CountClub(s, s[i].team) >= 1
  {
    if i < |s| - 1 {
      CountClubOfMember(s[..|s| - 1], i);
    }
  }

  /** A club counted in the list is the club of one of its members. */
  lemma {:induction false} CountClubHasMember(s: seq<Player>, club: int)
    requires CountClub(s, club) > 0
    ensures exists i :: 0 <= i < |s| && s[i].team == club
  {
    var n := |s| - 1;
    if s[n].team != club {
      CountClubHasMember(s[..n], club);
      var i :| 0 <= i < n && s[..n][i].team == club;
      assert s[i] == s[..n][i];
    }
  }

  /** The cap on the members' clubs bounds every club. */
  lemma ClubsAtMostAnyClub(s: seq<Player>, cap: nat, club: int)
    requires ClubsAtMost(s, cap)
    ensures CountClub(s, club) <= cap
  {
    if CountClub(s, club) > 0 {
      CountClubHasMember(s, club);
    }
  }

  /** Counts only depend on how often each player occurs. */
  lemma {:induction false} CountsOfPermutation(a: seq<Player>, b: seq<Player>)
    requires multiset(a) == multiset(b)
    ensures forall p :: CountPosition(a, p) == CountPosition(b, p)
    ensures forall c :: CountClub(a, c) == CountClub(b, c)
    ensures TotalCost(a) == TotalCost(b)
    decreases |a|
  {
    if |a| > 0 {
      var x := a[|a| - 1];
      var a' := a[..|a| - 1];
      assert a == a' + [x];
      assert x in multiset(b);
      var k :| 0 <= k < |b| && b[k] == x;
      var b' := b[..k] + b[k + 1..];
      assert b == b[..k] + [x] + b[k + 1..];
      assert multiset(b) == multiset(b') + multiset{x};
      assert multiset(a) == multiset(a') + multiset{x};
      assert multiset(a') == multiset(a) - multiset{x};
      assert multiset(b') == multiset(b) - multiset{x};
      CountsOfPermutation(a', b');
      CountsOfConcat(a', [x]);
      CountsOfConcat(b[..k], [x]);
      CountsOfConcat(b[..k] + [x], b[k + 1..]);
      CountsOfConcat(b[..k], b[k + 1..]);
    } else {
      assert b == [];
    }
  }
}

=== FILE: seqs.dfy ===
/** Sequence helpers standing in for the list and data-frame operations
    the program uses: boolean-mask filtering, `list.remove`, `head(n)`,
    reversal and sorting by a key. */
module Seqs {

  import opened Wrappers

  function Min(a: int, b: int): int { if a <= b then a else b }

  function Max(a: int, b: int): int { if a >= b then a else b }

  /** Key order of a ranking: every element ranks no later than the ones after it. */
  predicate Ascending<T>(s: seq<T>, key: T -> real) {
    forall i, j :: 0 <= i < j < |s| ==> key(s[i]) <= key(s[j])
  }

  predicate Descending<T>(s: seq<T>, key: T -> real) {
    forall i, j :: 0 <= i < j < |s| ==> key(s[i]) >= key(s[j])
  }

  /** The rows of `s` that `keep` selects, in their original order
      (a boolean-mask selection `df[mask]`). */
  function Filter<T>(s: seq<T>, keep: T -> bool): (r: seq<T>)
    ensures |r| <= |s|
    ensures forall i :: 0 <= i < |r| ==> keep(r[i])
    ensures forall i :: 0 <= i < |r| ==> r[i] in s
    ensures forall i :: 0 <= i < |s| && keep(s[i]) ==> s[i] in r
    ensures multiset(r) <= multiset(s)
  {
    if |s| == 0 then []
    else
      var rest := Filter(s[1..], keep);
      assert s == [s[0]] + s[1..];
      if keep(s[0]) then [s[0]] + rest else rest
  }

  /** Filtering keeps every selected element as often as it occurs and
      drops every other occurrence. */
  lemma {:induction false} FilterMultiplicity<T>(s: seq<T>, keep: T -> bool, x: T)
    ensures multiset(Filter(s, keep))[x] == if keep(x) then multiset(s)[x] else 0
  {
    if |s| > 0 {
      FilterMultiplicity(s[1..], keep, x);
      assert s == [s[0]] + s[1..];
      assert multiset(s) == multiset{s[0]} + multiset(s[1..]);
    }
  }

  lemma {:induction false} FilterKeepsLowerBound<T>(s: seq<T>, keep: T -> bool, key: T -> real, v: real)
    requires forall i :: 0 <= i < |s| ==> v <= key(s[i])
    ensures forall i :: 0 <= i < |Filter(s, keep)| ==> v <= key(Filter(s, keep)[i])
  {
    if |s| > 0 {
      FilterKeepsLowerBound(s[1..], keep, key, v);
    }
  }

  lemma {:induction false} FilterKeepsAscending<T>(s: seq<T>, keep: T -> bool, key: T -> real)
    requires Ascending(s, key)
    ensures Ascending(Filter(s, keep), key)
  {
    if |s| > 0 {
      var tail := s[1..];
      assert Ascending(tail, key) by {
        forall i, j | 0 <= i < j < |tail| ensures key(tail[i]) <= key(tail[j]) {
          assert tail[i] == s[i + 1] && tail[j] == s[j + 1];
        }
      }
      assert forall i :: 0 <= i < |tail| ==> key(s[0]) <= key(tail[i]) by {
        forall i | 0 <= i < |tail| ensures key(s[0]) <= key(tail[i]) {
          assert tail[i] == s[i + 1];
        }
      }
      FilterKeepsAscending(tail, keep, key);
      FilterKeepsLowerBound(tail, keep, key, key(s[0]));
      if keep(s[0]) {
        AscendingCons(s[0], Filter(tail, keep), key);
      }
    }
  }

  /** An element no greater than an ascending sequence can go in front of it. */
  lemma AscendingCons<T>(x: T, t: seq<T>, key: T -> real)
    requires Ascending(t, key)
    requires forall i :: 0 <= i < |t| ==> key(x) <= key(t[i])
    ensures Ascending([x] + t, key)
  {
    var r := [x] + t;
    forall i, j | 0 <= i < j < |r| ensures key(r[i]) <= key(r[j]) {
      assert r[j] == t[j - 1];
      if i > 0 {
        assert r[i] == t[i - 1];
      }
    }
  }

  lemma FilterKeepsDescending<T>(s: seq<T>, keep: T -> bool, key: T -> real)
    requires Descending(s, key)
    ensures Descending(Filter(s, keep), key)
  {
    var neg := (x: T) => -key(x);
    assert Ascending(s, neg);
    FilterKeepsAscending(s, keep, neg);
    var r := Filter(s, keep);
    assert forall i, j :: 0 <= i < j < |r| ==> neg(r[i]) <= neg(r[j]);
  }

  /** `s` read back to front. */
  function Reverse<T>(s: seq<T>): (r: seq<T>)
    ensures |r| == |s|
    ensures forall i :: 0 <= i < |s| ==> r[i] == s[|s| - 1 - i]
    ensures multiset(r) == multiset(s)
  {
    if |s| == 0 then []
    else
      assert s == [s[0]] + s[1..];
      Reverse(s[1..]) + [s[0]]
  }

  lemma ReverseOfDescendingIsAscending<T>(s: seq<T>, key: T -> real)
    requires Descending(s, key)
    ensures Ascending(Reverse(s), key)
  {
    var r := Reverse(s);
    forall i, j | 0 <= i < j < |r| ensures key(r[i]) <= key(r[j]) {
      assert r[i] == s[|s| - 1 - i] && r[j] == s[|s| - 1 - j];
    }
  }

  /** Python's `list.remove(x)`: drops the first element equal to `x`, and
      fails (ValueError) when there is none. */
  function RemoveFirst<T(==)>(s: seq<T>, x: T): (r: Option<seq<T>>)
    ensures r.None? <==> x !in s
    ensures r.Some? ==> |r.value| == |s| - 1 && multiset(r.value) == multiset(s) - multiset{x}
  {
    if |s| == 0 then None
    else if s[0] == x then
      assert s == [s[0]] + s[1..];
      Some(s[1..])
    else
      assert s == [s[0]] + s[1..];
      match RemoveFirst(s[1..], x)
      case None => None
      case Some(rest) => Some([s[0]] + rest)
  }

  /** `head(n)` of a data frame: the first `n` rows, or all but the last `-n`
      rows when `n` is negative. */
  function Head<T>(s: seq<T>, n: int): (r: seq<T>)
    ensures r <= s
    ensures n >= 0 ==> |r| == Min(n, |s|)
    ensures n < 0 ==> |r| == Max(|s| + n, 0)
  {
    if n >= 0 then s[..Min(n, |s|)] else s[..Max(|s| + n, 0)]
  }

  /** Inserts `x` into an ascending sequence before the first element with a larger key. */
  function Insert<T>(x: T, s: seq<T>, key: T -> real): (r: seq<T>)
    requires Ascending(s, key)
    ensures |r| == |s| + 1
    ensures r[0] == x || (|s| > 0 && r[0] == s[0])
    ensures multiset(r) == multiset(s) + multiset{x}
    ensures Ascending(r, key)
  {
    if |s| == 0 then [x]
    else if key(x) <= key(s[0]) then [x] + s
    else
      assert s == [s[0]] + s[1..];
      assert Ascending(s[1..], key);
      [s[0]] + Insert(x, s[1..], key)
  }

  /** A ranking of `s` by ascending key (insertion sort). */
  function SortBy<T>(s: seq<T>, key: T -> real): (r: seq<T>)
    ensures |r| == |s|
    ensures multiset(r) == multiset(s)
    ensures Ascending(r, key)
  {
    if |s| == 0 then []
    else
      assert s == [s[0]] + s[1..];
      Insert(s[0], SortBy(s[1..], key), key)
  }
}

=== FILE: squad.dfy ===
/** The validated squad aggregate: fifteen players, an eleven-player team
    drawn from them, a captain and a vice-captain. Every property setter of
    the original class is a function that either returns the updated squad
    or the error it raises; the checks run in the same order and the first
    failing one decides the error. */
module Squads {

  import opened Wrappers
  import opened Players
  import Seqs

  const SquadSize: nat := 15
  const TeamSize: nat := 11
  const BudgetCap: int := 1000
  const MaxPerClub: nat := 3

  /** Squad places per position. */
  function Quota(p: Position): nat {
    match p
    case GK => 2
    case DEF => 5
    case MID => 5
    case FWD => 3
  }

  // The setters receive untyped Python values and test them with `isinstance`.

  datatype Dyn = PlayerValue(player: Player) | OtherValue

  datatype DynList = ListValue(items: seq<Dyn>) | NotAList

  predicate IsPlayerList(v: DynList) {
    v.ListValue? && forall i :: 0 <= i < |v.items| ==> v.items[i].PlayerValue?
  }

  function PlayersOf(v: DynList): (s: seq<Player>)
    requires IsPlayerList(v)
    ensures |s| == |v.items|
    ensures forall i :: 0 <= i < |s| ==> v.items[i] == PlayerValue(s[i])
  {
    seq(|v.items|, i requires 0 <= i < |v.items| => v.items[i].player)
  }

  /** A Python list holding exactly the given players. */
  function Wrap(s: seq<Player>): (v: DynList)
    ensures IsPlayerList(v) && PlayersOf(v) == s
  {
    var v := ListValue(seq(|s|, i requires 0 <= i < |s| => PlayerValue(s[i])));
    assert PlayersOf(v) == s;
    v
  }

  predicate SquadPositionsOk(s: seq<Player>) {
    && CountPosition(s, GK) == Quota(GK)
    && CountPosition(s, DEF) == Quota(DEF)
    && CountPosition(s, MID) == Quota(MID)
    && CountPosition(s, FWD) == Quota(FWD)
  }

  predicate SquadCostOk(s: seq<Player>) {
    TotalCost(s) <= BudgetCap
  }

  predicate Max3FromSameClub(s: seq<Player>) {
    ClubsAtMost(s, MaxPerClub)
  }

  predicate TeamPositionsOk(t: seq<Player>) {
    CountPosition(t, GK) == 1 && CountPosition(t, DEF) >= 3 && CountPosition(t, FWD) >= 1
  }

  /** Every rule a stored squad satisfies. */
  predicate IsValidSquad(s: seq<Player>) {
    |s| == SquadSize && SquadPositionsOk(s) && SquadCostOk(s) && Max3FromSameClub(s)
  }

  /** Every rule a stored team satisfies, relative to the stored squad. */
  predicate IsValidTeam(squad: seq<Player>, t: seq<Player>) {
    (forall i :: 0 <= i < |t| ==> t[i] in squad) && |t| == TeamSize && TeamPositionsOk(t)
  }

  /** The messages of the `SquadError`s the setters raise. */
  datatype SquadError =
    | SquadNotAListOfPlayers
    | WrongSquadSize
    | InvalidSquadPositions
    | SquadTooExpensive
    | TooManyFromOneClub
    | TeamNotAListOfPlayers
    | TeamNotInSquad
    | WrongTeamSize
    | InvalidTeamPositions
    | CaptainNotAPlayer
    | CaptainNotInTeam
    | ViceCaptainNotAPlayer
    | ViceCaptainNotInTeam

  /** The `squad` setter's checks: type, size, positions, cost, club cap. */
  function CheckSquad(v: DynList): (r: Result<seq<Player>, SquadError>)
    ensures r.Success? <==> IsPlayerList(v) && IsValidSquad(PlayersOf(v))
    ensures r.Success? ==> r.value == PlayersOf(v)
    ensures r == Failure(SquadNotAListOfPlayers) <==> !IsPlayerList(v)
    ensures r == Failure(WrongSquadSize) <==> IsPlayerList(v) && |PlayersOf(v)| != SquadSize
    ensures r == Failure(InvalidSquadPositions) <==>
      IsPlayerList(v) && |PlayersOf(v)| == SquadSize && !SquadPositionsOk(PlayersOf(v))
    ensures r == Failure(SquadTooExpensive) <==>
      IsPlayerList(v) && |PlayersOf(v)| == SquadSize && SquadPositionsOk(PlayersOf(v)) && !SquadCostOk(PlayersOf(v))
    ensures r == Failure(TooManyFromOneClub) <==>
      IsPlayerList(v) && |PlayersOf(v)| == SquadSize && SquadPositionsOk(PlayersOf(v)) && SquadCostOk(PlayersOf(v))
      && !Max3FromSameClub(PlayersOf(v))
  {
    if !IsPlayerList(v) then Failure(SquadNotAListOfPlayers)
    else
      var s := PlayersOf(v);
      if |s| != SquadSize then Failure(WrongSquadSize)
      else if !SquadPositionsOk(s) then Failure(InvalidSquadPositions)
      else if !SquadCostOk(s) then Failure(SquadTooExpensive)
      else if !Max3FromSameClub(s) then Failure(TooManyFromOneClub)
      else Success(s)
  }

  /** The `team` setter's checks against the current squad: type, subset, size, positions. */
  function CheckTeam(squad: seq<Player>, v: DynList): (r: Result<seq<Player>, SquadError>)
    ensures r.Success? <==> IsPlayerList(v) && IsValidTeam(squad, PlayersOf(v))
    ensures r.Success? ==> r.value == PlayersOf(v)
    ensures r == Failure(TeamNotAListOfPlayers) <==> !IsPlayerList(v)
    ensures r == Failure(TeamNotInSquad) <==>
      IsPlayerList(v) && exists i :: 0 <= i < |PlayersOf(v)| && PlayersOf(v)[i] !in squad
    ensures r == Failure(WrongTeamSize) <==>
      IsPlayerList(v) && (forall i :: 0 <= i < |PlayersOf(v)| ==> PlayersOf(v)[i] in squad) && |PlayersOf(v)| != TeamSize
    ensures r == Failure(InvalidTeamPositions) <==>
      IsPlayerList(v) && (forall i :: 0 <= i < |PlayersOf(v)| ==> PlayersOf(v)[i] in squad) && |PlayersOf(v)| == TeamSize
      && !TeamPositionsOk(PlayersOf(v))
  {
    if !IsPlayerList(v) then Failure(TeamNotAListOfPlayers)
    else
      var t := PlayersOf(v);
      if !(forall i :: 0 <= i < |t| ==> t[i] in squad) then Failure(TeamNotInSquad)
      else if |t| != TeamSize then Failure(WrongTeamSize)
      else if !TeamPositionsOk(t) then Failure(InvalidTeamPositions)
      else Success(t)
  }

  /** The `captain` setter's checks: a player, and a member of the current team. */
  function CheckCaptain(team: seq<Player>, v: Dyn): (r: Result<Player, SquadError>)
    ensures r.Success? <==> v.PlayerValue? && v.player in team
    ensures r.Success? ==> r.value == v.player
    ensures r == Failure(CaptainNotAPlayer) <==> !v.PlayerValue?
    ensures r == Failure(CaptainNotInTeam) <==> v.PlayerValue? && v.player !in team
  {
    if !v.PlayerValue? then Failure(CaptainNotAPlayer)
    else if v.player !in team then Failure(CaptainNotInTeam)
    else Success(v.player)
  }

  /** The `vice_captain` setter's checks: the same as the captain's; in
      particular it may be the captain. */
  function CheckViceCaptain(team: seq<Player>, v: Dyn): (r: Result<Player, SquadError>)
    ensures r.Success? <==> v.PlayerValue? && v.player in team
    ensures r.Success? ==> r.value == v.player
    ensures r == Failure(ViceCaptainNotAPlayer) <==> !v.PlayerValue?
    ensures r == Failure(ViceCaptainNotInTeam) <==> v.PlayerValue? && v.player !in team
  {
    if !v.PlayerValue? then Failure(ViceCaptainNotAPlayer)
    else if v.player !in team then Failure(ViceCaptainNotInTeam)
    else Success(v.player)
  }

  /** A `Squad` object once its constructor has completed. */
  datatype Squad = Squad(squad: seq<Player>, team: seq<Player>, captain: Player, viceCaptain: Player)

  /** What a fully constructed squad guarantees. */
  predicate SquadInvariant(s: Squad) {
    && IsValidSquad(s.squad)
    && IsValidTeam(s.squad, s.team)
    && s.captain in s.team
    && s.viceCaptain in s.team
  }

  /** `Squad(squad, team, captain, vice_captain)`: the four setters in order;
      the first failure is raised. */
  function NewSquad(squad: DynList, team: DynList, captain: Dyn, viceCaptain: Dyn): (r: Result<Squad, SquadError>)
    ensures r.Success? ==> SquadInvariant(r.value)
    ensures r.Success? <==>
      && CheckSquad(squad).Success?
      && CheckTeam(PlayersOf(squad), team).Success?
      && CheckCaptain(PlayersOf(team), captain).Success?
      && CheckViceCaptain(PlayersOf(team), viceCaptain).Success?
    ensures r.Success? ==> r.value == Squad(PlayersOf(squad), PlayersOf(team), captain.player, viceCaptain.player)
    ensures CheckSquad(squad).Failure? ==> r == Failure(CheckSquad(squad).error)
  {
    var s :- CheckSquad(squad);
    var t :- CheckTeam(s, team);
    var c :- CheckCaptain(t, captain);
    var vc :- CheckViceCaptain(t, viceCaptain);
    Success(Squad(s, t, c, vc))
  }

  /** Assigning `squad` on a built object: only the squad is replaced, and the
      team is not checked again. */
  function SetSquad(s: Squad, v: DynList): (r: Result<Squad, SquadError>)
    ensures r.Success? <==> IsPlayerList(v) && IsValidSquad(PlayersOf(v))
    ensures r.Success? ==> r.value == s.(squad := PlayersOf(v))
    ensures r.Failure? ==> r.error == CheckSquad(v).error
  {
    var squad :- CheckSquad(v);
    Success(s.(squad := squad))
  }

  function SetTeam(s: Squad, v: DynList): (r: Result<Squad, SquadError>)
    ensures r.Success? <==> IsPlayerList(v) && IsValidTeam(s.squad, PlayersOf(v))
    ensures r.Success? ==> r.value == s.(team := PlayersOf(v))
  {
    var team :- CheckTeam(s.squad, v);
    Success(s.(team := team))
  }

  function SetCaptain(s: Squad, v: Dyn): (r: Result<Squad, SquadError>)
    ensures r.Success? <==> v.PlayerValue? && v.player in s.team
    ensures r.Success? ==> r.value == s.(captain := v.player)
  {
    var c :- CheckCaptain(s.team, v);
    Success(s.(captain := c))
  }

  function SetViceCaptain(s: Squad, v: Dyn): (r: Result<Squad, SquadError>)
    ensures r.Success? <==> v.PlayerValue? && v.player in s.team
    ensures r.Success? ==> r.value == s.(viceCaptain := v.player)
  {
    var vc :- CheckViceCaptain(s.team, v);
    Success(s.(viceCaptain := vc))
  }

  /** The team and captaincy setters keep a valid squad valid, and a failed
      assignment stores nothing. */
  lemma SettersKeepInvariant(s: Squad, team: DynList, player: Dyn)
    requires SquadInvariant(s)
    ensures SetTeam(s, team).Success? && SetTeam(s, team).value.captain in SetTeam(s, team).value.team
              && SetTeam(s, team).value.viceCaptain in SetTeam(s, team).value.team
            ==> SquadInvariant(SetTeam(s, team).value)
    ensures SetCaptain(s, player).Success? ==> SquadInvariant(SetCaptain(s, player).value)
    ensures SetViceCaptain(s, player).Success? ==> SquadInvariant(SetViceCaptain(s, player).value)
  {
  }

  /** Replacing the squad of a built object can leave a team that is no longer
      part of the squad: the setter does not look at the team. */
  lemma SetSquadDoesNotRecheckTeam(s: Squad, other: seq<Player>)
    requires SquadInvariant(s)
    requires IsValidSquad(other)
    requires s.team[0] !in other
    ensures SetSquad(s, Wrap(other)).Success?
    ensures !SquadInvariant(SetSquad(s, Wrap(other)).value)
  {
  }

  /** Nothing stops the captain from also being the vice-captain. */
  lemma CaptainMayBeViceCaptain(squad: seq<Player>, team: seq<Player>, p: Player)
    requires IsValidSquad(squad) && IsValidTeam(squad, team) && p in team
    ensures NewSquad(Wrap(squad), Wrap(team), PlayerValue(p), PlayerValue(p)).Success?
  {
  }

  /** The cost rule is inclusive: a total of exactly 1000 is accepted, one more is not. */
  lemma CostBoundary(s: seq<Player>)
    requires |s| == SquadSize && SquadPositionsOk(s) && Max3FromSameClub(s)
    ensures TotalCost(s) == BudgetCap ==> CheckSquad(Wrap(s)).Success?
    ensures TotalCost(s) == BudgetCap + 1 ==> CheckSquad(Wrap(s)) == Failure(SquadTooExpensive)
  {
  }

  // The default derivation of `from_pandas_df`.

  /** `s[k]` is `x`, a player of position `pos` with exactly `i` players of
      that position before it: the `i`-th of them in squad order, counting from 0. */
  predicate IsNthOfPosition(s: seq<Player>, pos: Position, i: int, k: int, x: Player) {
    0 <= k < |s| && s[k] == x && x.position == pos && CountPosition(s[..k], pos) == i
  }

  /** Each element of `r` is the squad's player of `pos` with as many players
      of that position before it as `r` has elements before it. */
  predicate InSquadOrder(s: seq<Player>, pos: Position, r: seq<Player>) {
    forall i :: 0 <= i < |r| ==> HasNthOfPosition(s, pos, i, r[i])
  }

  /** `x` is the `i`-th player of position `pos` in `s`. */
  predicate HasNthOfPosition(s: seq<Player>, pos: Position, i: int, x: Player) {
    exists k :: 0 <= k < |s| && IsNthOfPosition(s, pos, i, k, x)
  }

  /** `[p for p in s if p.position == pos]`: the players of the position in
      squad order, each element being the squad's next player of the position. */
  function OfPosition(s: seq<Player>, pos: Position): (r: seq<Player>)
    ensures |r| == CountPosition(s, pos)
    ensures forall i :: 0 <= i < |r| ==> r[i].position == pos && r[i] in s
    ensures InSquadOrder(s, pos, r)
  {
    if |s| == 0 then []
    else
      var last := s[|s| - 1];
      var rest := OfPosition(s[..|s| - 1], pos);
      var r := rest + (if last.position == pos then [last] else []);
      OfPositionStep(s, pos, rest, r);
      r
  }

  /** The order clause of `OfPosition` extends from all but the last player to all. */
  lemma OfPositionStep(s: seq<Player>, pos: Position, rest: seq<Player>, r: seq<Player>)
    requires |s| > 0
    requires |rest| == CountPosition(s[..|s| - 1], pos)
    requires InSquadOrder(s[..|s| - 1], pos, rest)
    requires r == rest + (if s[|s| - 1].position == pos then [s[|s| - 1]] else [])
    ensures InSquadOrder(s, pos, r)
  {
    var n := |s| - 1;
    forall i | 0 <= i < |r| ensures HasNthOfPosition(s, pos, i, r[i]) {
      if i < |rest| {
        assert HasNthOfPosition(s[..n], pos, i, rest[i]);
        var k :| 0 <= k < |s[..n]| && IsNthOfPosition(s[..n], pos, i, k, rest[i]);
        assert s[..n][..k] == s[..k] && s[..n][k] == s[k] && r[i] == rest[i];
        assert IsNthOfPosition(s, pos, i, k, r[i]);
      } else {
        assert IsNthOfPosition(s, pos, i, n, r[i]);
      }
    }
  }

  /** At most one player is the `i`-th of a position, so "the first keeper"
      and "the first defender" name one squad place each. */
  lemma NthOfPositionIsUnique(s: seq<Player>, pos: Position, i: int, k1: int, k2: int, x1: Player, x2: Player)
    requires IsNthOfPosition(s, pos, i, k1, x1) && IsNthOfPosition(s, pos, i, k2, x2)
    ensures k1 == k2 && x1 == x2
  {
    if k1 < k2 {
      PrefixCountGrows(s, pos, k1, k2);
    } else if k2 < k1 {
      PrefixCountGrows(s, pos, k2, k1);
    }
  }

  /** A player of the position at `k` makes every longer prefix count more. */
  lemma PrefixCountGrows(s: seq<Player>, pos: Position, k: int, m: int)
    requires 0 <= k < m <= |s| && s[k].position == pos
    ensures CountPosition(s[..m], pos) > CountPosition(s[..k], pos)
  {
    assert s[..m] == s[..k + 1] + s[k + 1..m];
    CountsOfConcat(s[..k + 1], s[k + 1..m]);
    assert s[..k + 1][..k] == s[..k];
  }

  /** The placeholder 4-4-2: first keeper, first four defenders, first four
      midfielders, first two forwards, in squad order. */
  function DefaultTeam(s: seq<Player>): seq<Player>
    requires CountPosition(s, GK) >= 1
  {
    [OfPosition(s, GK)[0]]
      + Seqs.Head(OfPosition(s, DEF), 4)
      + Seqs.Head(OfPosition(s, MID), 4)
      + Seqs.Head(OfPosition(s, FWD), 2)
  }

  datatype BuildError =
    | BadRow(rowError: PlayerError)    // `Position(...)` rejects a row
    | NoGoalkeeper                     // `[...][0]` on an empty keeper list
    | NoViceCaptain                    // `team[1]` on a one-player team
    | Rejected(squadError: SquadError) // a setter of the constructor fails

  /** `Squad.from_pandas_df`: every row becomes a squad player; team, captain
      (the first team member) and vice-captain (the second) come from the
      default derivation. */
  function FromPandasDf(rows: seq<Row>): (r: Result<Squad, BuildError>)
    ensures r.Success? ==> SquadInvariant(r.value)
  {
    match FromPandasRows(rows)
    case Failure(e) => Failure(BadRow(e))
    case Success(players) =>
      if CountPosition(players, GK) == 0 then Failure(NoGoalkeeper)
      else
        var team := DefaultTeam(players);
        if |team| < 2 then Failure(NoViceCaptain)
        else
          match NewSquad(Wrap(players), Wrap(team), PlayerValue(team[0]), PlayerValue(team[1]))
          case Failure(e) => Failure(Rejected(e))
          case Success(s) => Success(s)
  }

  lemma {:induction false} CountOfUniform(x: seq<Player>, p: Position, q: Position)
    requires forall i :: 0 <= i < |x| ==> x[i].position == p
    ensures CountPosition(x, q) == if p == q then |x| else 0
  {
    if |x| > 0 {
      CountOfUniform(x[..|x| - 1], p, q);
    }
  }

  /** A squad built from a table has the table's players in table order,
      the default team, the first keeper as captain and the first defender
      as vice-captain. */
  lemma FromPandasDfDefaults(rows: seq<Row>)
    requires FromPandasDf(rows).Success?
    ensures FromPandasRows(rows).Success?
    ensures var s := FromPandasDf(rows).value;
      && s.squad == FromPandasRows(rows).value
      && CountPosition(s.squad, GK) >= 1
      && s.team == DefaultTeam(s.squad)
      && s.captain == OfPosition(s.squad, GK)[0]
      && CountPosition(s.squad, DEF) >= 1
      && s.viceCaptain == OfPosition(s.squad, DEF)[0]
      && HasNthOfPosition(s.squad, GK, 0, s.captain)
      && HasNthOfPosition(s.squad, DEF, 0, s.viceCaptain)
  {
    FromPandasDfBuilds(rows);
    var players := FromPandasRows(rows).value;
    assert IsValidSquad(FromPandasDf(rows).value.squad);
    DefaultTeamHeads(players);
  }

  /** The default team starts with the first keeper, then the first defender. */
  lemma DefaultTeamHeads(players: seq<Player>)
    requires CountPosition(players, GK) >= 1 && CountPosition(players, DEF) >= 1
    ensures |DefaultTeam(players)| >= 2
    ensures DefaultTeam(players)[0] == OfPosition(players, GK)[0]
    ensures DefaultTeam(players)[1] == OfPosition(players, DEF)[0]
    ensures HasNthOfPosition(players, GK, 0, DefaultTeam(players)[0])
    ensures HasNthOfPosition(players, DEF, 0, DefaultTeam(players)[1])
  {
    var gk := [OfPosition(players, GK)[0]];
    var od := OfPosition(players, DEF);
    var defs := Seqs.Head(od, 4);
    assert |defs| >= 1 && defs[0] == od[0];
    var gd := gk + defs;
    assert gd[1] == defs[0];
    var gdm := gd + Seqs.Head(OfPosition(players, MID), 4);
    assert gdm[1] == gd[1];
    var t := gdm + Seqs.Head(OfPosition(players, FWD), 2);
    assert t[0] == gk[0] && t[1] == gdm[1];
    assert DefaultTeam(players) == t;
  }

  /** The default team, piece by piece: the first keeper, then the first
      (up to) four defenders, four midfielders and two forwards of the squad,
      each piece in squad order. */
  lemma DefaultTeamPieces(s: seq<Player>)
    requires CountPosition(s, GK) >= 1
    ensures var nd := Seqs.Min(4, CountPosition(s, DEF));
      var nm := Seqs.Min(4, CountPosition(s, MID));
      var nf := Seqs.Min(2, CountPosition(s, FWD));
      var t := DefaultTeam(s);
      && |t| == 1 + nd + nm + nf
      && InSquadOrder(s, GK, t[..1])
      && InSquadOrder(s, DEF, t[1..1 + nd])
      && InSquadOrder(s, MID, t[1 + nd..1 + nd + nm])
      && InSquadOrder(s, FWD, t[1 + nd + nm..])
  {
    var og := OfPosition(s, GK);
    var g := [og[0]];
    var d := Seqs.Head(OfPosition(s, DEF), 4);
    var m := Seqs.Head(OfPosition(s, MID), 4);
    var f := Seqs.Head(OfPosition(s, FWD), 2);
    assert HasNthOfPosition(s, GK, 0, og[0]);
    assert InSquadOrder(s, GK, g);
    InSquadOrderPrefix(s, DEF, OfPosition(s, DEF), d);
    InSquadOrderPrefix(s, MID, OfPosition(s, MID), m);
    InSquadOrderPrefix(s, FWD, OfPosition(s, FWD), f);
    PiecesInSquadOrder(s, g, d, m, f);
  }

  /** Four blocks, each in squad order for its position, are the slices of
      their concatenation. */
  lemma PiecesInSquadOrder(s: seq<Player>, g: seq<Player>, d: seq<Player>, m: seq<Player>, f: seq<Player>)
    requires InSquadOrder(s, GK, g) && InSquadOrder(s, DEF, d)
    requires InSquadOrder(s, MID, m) && InSquadOrder(s, FWD, f)
    ensures var t := g + d + m + f;
      && InSquadOrder(s, GK, t[..|g|])
      && InSquadOrder(s, DEF, t[|g|..|g| + |d|])
      && InSquadOrder(s, MID, t[|g| + |d|..|g| + |d| + |m|])
      && InSquadOrder(s, FWD, t[|g| + |d| + |m|..])
  {
    SlicesOfFour(g, d, m, f);
  }

  /** The four parts of a concatenation are its consecutive slices. */
  lemma SlicesOfFour<T>(a: seq<T>, b: seq<T>, c: seq<T>, d: seq<T>)
    ensures var t := a + b + c + d;
      && t[..|a|] == a
      && t[|a|..|a| + |b|] == b
      && t[|a| + |b|..|a| + |b| + |c|] == c
      && t[|a| + |b| + |c|..] == d
  {
  }

  /** A prefix of a list in squad order is in squad order. */
  lemma InSquadOrderPrefix(s: seq<Player>, pos: Position, r: seq<Player>, p: seq<Player>)
    requires InSquadOrder(s, pos, r) && p <= r
    ensures InSquadOrder(s, pos, p)
  {
    forall i | 0 <= i < |p| ensures HasNthOfPosition(s, pos, i, p[i]) {
      assert p[i] == r[i];
    }
  }

  /** The squad a successful build holds: the table's players, the default
      team, and its first two members as captain and vice-captain. */
  lemma FromPandasDfBuilds(rows: seq<Row>)
    requires FromPandasDf(rows).Success?
    ensures FromPandasRows(rows).Success?
    ensures var players := FromPandasRows(rows).value;
      && CountPosition(players, GK) != 0
      && |DefaultTeam(players)| >= 2
      && var team := DefaultTeam(players);
         FromPandasDf(rows).value == Squad(players, team, team[0], team[1])
  {
    var players := FromPandasRows(rows).value;
    var team := DefaultTeam(players);
    var r := NewSquad(Wrap(players), Wrap(team), PlayerValue(team[0]), PlayerValue(team[1]));
    assert FromPandasDf(rows).value == r.value;
  }

  lemma UniformPiece(s: seq<Player>, pos: Position, n: nat, piece: seq<Player>)
    requires piece == Seqs.Head(OfPosition(s, pos), n)
    ensures forall i :: 0 <= i < |piece| ==> piece[i].position == pos && piece[i] in s
    ensures forall q :: CountPosition(piece, q) == if pos == q then |piece| else 0
  {
    forall i | 0 <= i < |piece| ensures piece[i].position == pos && piece[i] in s {
      assert piece[i] == OfPosition(s, pos)[i];
    }
    forall q ensures CountPosition(piece, q) == if pos == q then |piece| else 0 {
      CountOfUniform(piece, pos, q);
    }
  }

  /** On a valid squad the default team is a valid team. */
  lemma DefaultTeamIsValid(s: seq<Player>)
    requires IsValidSquad(s)
    ensures IsValidTeam(s, DefaultTeam(s))
  {
    var gk := [OfPosition(s, GK)[0]];
    var d := Seqs.Head(OfPosition(s, DEF), 4);
    var m := Seqs.Head(OfPosition(s, MID), 4);
    var f := Seqs.Head(OfPosition(s, FWD), 2);
    assert DefaultTeam(s) == gk + d + m + f;
    assert gk == Seqs.Head(OfPosition(s, GK), 1);
    UniformPiece(s, GK, 1, gk);
    UniformPiece(s, DEF, 4, d);
    UniformPiece(s, MID, 4, m);
    UniformPiece(s, FWD, 2, f);
    DefaultTeamShape(s, gk, d, m, f);
  }

  /** Four pieces of one position each, of sizes 1, 4, 4 and 2 and drawn
      from the squad, form a valid team. */
  lemma DefaultTeamShape(s: seq<Player>, gk: seq<Player>, d: seq<Player>, m: seq<Player>, f: seq<Player>)
    requires |gk| == 1 && |d| == 4 && |m| == 4 && |f| == 2
    requires forall q :: CountPosition(gk, q) == if GK == q then |gk| else 0
    requires forall q :: CountPosition(d, q) == if DEF == q then |d| else 0
    requires forall q :: CountPosition(m, q) == if MID == q then |m| else 0
    requires forall q :: CountPosition(f, q) == if FWD == q then |f| else 0
    requires forall i :: 0 <= i < |gk| ==> gk[i] in s
    requires forall i :: 0 <= i < |d| ==> d[i] in s
    requires forall i :: 0 <= i < |m| ==> m[i] in s
    requires forall i :: 0 <= i < |f| ==> f[i] in s
    ensures IsValidTeam(s, gk + d + m + f)
  {
    CountsOfConcat(gk, d);
    CountsOfConcat(gk + d, m);
    CountsOfConcat(gk + d + m, f);
    var team := gk + d + m + f;
    assert forall i :: 0 <= i < |team| ==> team[i] in s;
  }

  /** The default derivation never fails on a valid squad: whenever the rows
      form a valid squad, `from_pandas_df` succeeds. */
  lemma FromPandasDfAcceptsValidSquads(rows: seq<Row>)
    requires FromPandasRows(rows).Success?
    requires IsValidSquad(FromPandasRows(rows).value)
    ensures FromPandasDf(rows).Success?
  {
    var s := FromPandasRows(rows).value;
    DefaultTeamIsValid(s);
    var team := DefaultTeam(s);
    assert team[0] in team && team[1] in team;
  }
}

=== FILE: wrappers.dfy ===
/** Failure-compatible wrappers used for the error paths of the model:
    `Option` for lookups that may find nothing and `Result` for operations
    that either produce a value or fail with an error (a raised exception
    in the original program). */
module Wrappers {

  datatype Option<+T> = None | Some(value: T)

  datatype Result<+T, +E> = Success(value: T) | Failure(error: E) {

    predicate IsFailure() {
      Failure?
    }

    function PropagateFailure<U>(): Result<U, E>
      requires Failure?
    {
      Failure(error)
    }

    function Extract(): T
      requires Success?
    {
      value
    }
  }
}
